=== FILE: README.md ===
# rtorrent core in Dafny

A model of seven parts of rtorrent, the ncurses BitTorrent client, with
proofs about each:

- `Core` (`curl_stack.dfy`): the HTTP transfer stack `core::CurlStack`.
  It admits at most `maxActive` gets to the libcurl multi handle at a
  time, hands a freed slot to the first queued get, and retries a get
  over IPv6 once when its name does not resolve. It also drives libcurl
  from socket events and timeouts, and re-arms its poll timer.
- `Frames` (`frame.dfy`): the layout tree `display::Frame`. The model
  covers dynamic and anchor queries, preferred size with its uint32
  saturation, and changes of frame kind. It also covers `balance`: static
  children get their minimum, and dynamic children share the remaining
  space in rounds, largest minimum first. The children are then tiled
  along the axis, and a positive remainder goes to the first
  bottom- or left-anchored child.
- `HttpQueueWindow` (`window_http_queue.dfy`): the HTTP queue window. It
  builds display names from URLs, keeps finished transfers for one
  second, and turns insert and erase signals into list updates.
- `FileListElement` (`element_file_list.dfy`): the file list of a
  download. It switches between a list view and an info view, moves a
  cursor through the entries (with wrapping and paging), and changes
  file priorities.
- `DownloadUi` (`download.dfy`): the per-download screen. It switches
  between the menu and its element views, adjusts slot and peer limits
  as signed 32-bit values with floors, cycles the priority, and sets
  per-download throttles.
- `Rpc` (`rpc_manager.dfy`): the RPC trust filter. A deny-list of
  commands applies on untrusted connections, and the trust flag is
  updated by `set_trusted_connection` and `dispatch`.
- `Exec` (`exec_file.dfy`): `ExecFile::execute_object`. It builds argv
  within bounded buffers and selects the result from the execute flags.
  The module also models the decimal filter on `/proc/self/fd` names in
  `close_all_fds`.

`Failures` (`failures.dfy`) holds `Option`, `Result` and `Outcome`.
Together with the `Error` values (internal, input, logic and bencode
errors) they stand for the C++ exceptions.

Where a contract and the C++ code could differ, the model follows the
code:

- A second `CURLE_COULDNT_RESOLVE_HOST` for a get that already uses IPv6
  does nothing at all (`src/core/curl_stack.cc:99-104`). It does not
  report a failure: the get gets no callback, is not removed, and keeps
  its slot (`Core.ResolveFailureRetriesOnce`).
- `transfer_done` only fires the get's callback. A callback may close its
  get, and closing goes through `remove_get`; which gets' callbacks do so
  is a parameter of the model (`closes`).
- `ui::ElementFileList::receive_select` in the collapsed view moves one
  entry on with a plain increment, not with `forward_current_depth`
  (`src/ui/element_file_list.cc:232-237`).

Header constants and facts that do not appear in the modelled source
files are assumed:

- `Frame::max_size = 5` and `Window::extent_full = 0xFFFFFFFF`;
- `ExecFile::max_args = 128` and `ExecFile::buffer_size = 4096`;
- `ui::Download`'s `Display` enumerators are numbered in declaration
  order, from `DISPLAY_MENU = 0` to `DISPLAY_MAX_SIZE = 7`;
- a new HTTP queue node's timer is 0;
- a torrent object's string accessor throws `bencode_error("Wrong object
  type.")` on another type;
- `Window::height()` returns an unsigned 32-bit value, so
  `(height() - 1) / 2` wraps a zero height to 2^31 - 1;
- the task scheduler takes a task off its queue before it runs the
  task's slot, so `m_taskTimeout.is_queued()` is false when
  `receive_timeout` starts;
- `torrent::utils::timer::from_milliseconds` takes an unsigned 64-bit
  count of milliseconds.

## Model

| member | source | states |
|---|---|---|
| Core.IndexOf | src/core/curl_stack.cc:118-123 | the first position holding the handle, or the list length when none does |
| Core.FirstQueued | src/core/curl_stack.cc:202-205 | the first get that is not active, or the list length |
| Core.CountActiveErase | src/core/curl_stack.cc:191-213 | erasing a get lowers the active count by one exactly when that get was active |
| Core.CountActiveActivate | src/core/curl_stack.cc:206 | activating a queued get raises the active count by exactly one |
| Core.QueuedAfterErase | src/core/curl_stack.cc:202-205 | a get found queued after an erase was already queued before it |
| Core.ActivatedNoEarlierQueued | src/core/curl_stack.cc:203-206 | after promoting the first queued get, no get before it is still queued |
| Core.SameAdmissionInvariant | src/core/curl_stack.cc:99-104 | the admission invariant depends only on handles and active flags, so an IPv6 switch cannot break it |
| Core.RemoveAtValid | src/core/curl_stack.cc:183-214 | remove_get keeps the stack's invariant and takes the get out of the list; the active count is unchanged when the get was queued, or when another get was waiting, since that get takes over the freed slot |
| Core.HandleMessage | src/core/curl_stack.cc:78-129 | a message is handled iff it is CURLMSG_DONE for a listed get; handling keeps the stack's invariant and makes at most one call, on that get; when the get's callback does not close it, admission state is as before; when it does, the get is gone from the list |
| Core.HandleFirst | src/core/curl_stack.cc:68-69 | handling a queue is handling its first message and then the rest from the list and count it leaves: an error on the first message ends the drain |
| Core.HandleAllKeepsInvariant | src/core/curl_stack.cc:68-69 | draining the whole message queue keeps the stack's invariant, also when callbacks close their gets, and makes at most one call per message; without closing callbacks admission state is as before |
| Core.CompletionFiresExactlyOne | src/core/curl_stack.cc:106-128 | any result other than a resolve failure fires exactly one of trigger_done (CURLE_OK) and trigger_failed; the list is unchanged unless the callback closes the get, in which case it is remove_get's list |
| Core.ResolveFailureRetriesOnce | src/core/curl_stack.cc:90-104 | a first resolve failure switches the get to IPv6 with no callback; a second one does nothing at all, so the get keeps its slot |
| Core.RetryThenSuccess | src/core/curl_stack.cc:90-128 | a retried get that then succeeds fires only trigger_done; it stays listed, switched to IPv6, unless its callback closes it |
| Core.ClosingCompletionPromotes | src/core/curl_stack.cc:122-128 | in a full stack of limit 1, a completion whose callback closes the active get hands the slot to the waiting get |
| Core.PollDelayAsWrittenMs | src/core/curl_stack.cc:137-144 | the delay as written, `max<unsigned long>(timeout, 10000)`: never below 10 s, and an unsigned maximum |
| Core.NoTimeoutMissesFallback | src/core/curl_stack.cc:138-144 | as written, libcurl's "no timeout" answer -1 becomes ULONG_MAX ms, and the deadline wraps to 1 ms in the past |
| Core.PollDelayMs | src/core/curl_stack.cc:137-144 | corrected delay: the 10 s fallback for a negative timeout; equal to the written delay for every non-negative one |
| Core.PollDeadlineAhead | src/core/curl_stack.cc:137-144 | the corrected deadline lies at least 10 s after now for every polled timeout |
| Core.StopIndex | src/core/curl_stack.cc:51-75 | the round at which receive_action's loop stops: the first reply that is not CURLM_CALL_MULTI_PERFORM |
| Core.ReplyEffect | src/core/curl_stack.cc:53-73 | one round of receive_action keeps the stack's invariant; a positive code is the socket-action internal error |
| Core.ReplyDrains | src/core/curl_stack.cc:67-73 | a round whose running count disagrees with the list size ends as handling every queued completion does: its error, or its list, count and calls with nothing left queued and the timer dropped if the list became empty |
| Core.ReplyTimer | src/core/curl_stack.cc:53-73 | a round that drains and empties the list leaves no timer; a set_timeout call during the round leaves the timer at its deadline unless the list was emptied; without that call no timer appears; a round whose count agrees with the list only queues the finished messages |
| Core.ActionEffect | src/core/curl_stack.cc:47-76 | receive_action's loop, round after round while libcurl answers CURLM_CALL_MULTI_PERFORM, keeps the stack's invariant |
| Core.ActionFirst | src/core/curl_stack.cc:51-75 | the loop is its first round followed, after CURLM_CALL_MULTI_PERFORM only, by the rest: an error ends it, another code stops it |
| Core.ActionWithoutClosesKeepsAdmission | src/core/curl_stack.cc:47-76 | without callbacks that close their gets, receive_action leaves every get's slot as it was |
| Core.ActionWithoutTimerCalls | src/core/curl_stack.cc:47-76 | without a queued timer and without set_timeout calls, receive_action leaves no timer queued |
| Core.CurlStack.constructor | src/core/curl_stack.cc:15-25 | an empty stack with no timer queued |
| Core.CurlStack.AddGet | src/core/curl_stack.cc:148-181 | appends the get; it is active, and the count rises, exactly when the stack was below its limit |
| Core.CurlStack.RemoveGet | src/core/curl_stack.cc:183-214 | an unknown get is an internal error that changes nothing; otherwise the list and count become RemoveAt's, whose meaning RemoveAtValid states |
| Core.CurlStack.TransferDone | src/core/curl_stack.cc:116-129 | an unknown handle is an internal error; otherwise trigger_done for CURLE_OK and trigger_failed for any other result, and a callback that closes the get removes it as remove_get does |
| Core.CurlStack.ProcessDoneHandle | src/core/curl_stack.cc:78-114 | reads one message; the list, count and calls become HandleMessage's, or its error is raised; reports whether more remain |
| Core.CurlStack.DrainDone | src/core/curl_stack.cc:68-69 | the list, count and calls equal HandleAll over the pending queue, or its first error; the timer is untouched |
| Core.CurlStack.SetTimeout | src/core/curl_stack.cc:228-239 | re-queues the timer at now plus libcurl's timeout and returns 0 |
| Core.CurlStack.ApplyReply | src/core/curl_stack.cc:53-73 | one round of receive_action: the new state and the calls made equal ReplyEffect, or its error is raised |
| Core.CurlStack.ReceiveAction | src/core/curl_stack.cc:47-76 | drives libcurl until it stops asking to be called again; the new state and the calls made equal ActionEffect, or its first error is raised |
| Core.CurlStack.ReceiveTimeout | src/core/curl_stack.cc:131-146 | the scheduler has dequeued the firing task (this method is its slot), so the action starts with no timer queued and its state and calls are ActionEffect's from there; then a non-empty stack always has a timer, set 10 s or more ahead (PollDelayMs) exactly when the action queued none, and in particular whenever libcurl made no set_timeout call during the action |
| Core.CurlStack.Teardown | src/core/curl_stack.cc:27-33 | closing the front get until none remain leaves no gets, no active count and no timer |
| Frames.IsDynamic | src/display/frame.cc:15-53 | an empty frame is never dynamic |
| Frames.AnyDynamic | src/display/frame.cc:25-29 | a container is dynamic iff one of its children is |
| Frames.HasAnchor | src/display/frame.cc:55-93 | an empty frame, a row asked for a left anchor and a column asked for a bottom anchor have none |
| Frames.AnyAnchor | src/display/frame.cc:64-69 | a container has an anchor iff one of its children has |
| Frames.ContainerPreferredSize | src/display/frame.cc:110-134 | a container's minimum is the sum of its children's modulo 2^32; its maximum is extent_full as soon as one child's is, and otherwise the sum while that stays below extent_full |
| Frames.NothingPreferred | src/display/frame.cc:98-99 | an empty frame prefers no size and is neither dynamic nor anchored |
| Frames.InitializeWindow | src/display/frame.cc:155-163 | succeeds exactly on an empty frame, else the m_type != TYPE_NONE error |
| Frames.InitializeContainer | src/display/frame.cc:165-197 | succeeds exactly on an empty frame with size at most max_size, with `size` fresh children; each failure has its own message |
| Frames.SetContainerSize | src/display/frame.cc:140-153 | succeeds exactly on a container with size below max_size; existing children up to the size are kept, new ones are fresh |
| Frames.Clear | src/display/frame.cc:199-221 | the frame becomes empty and every window below it is set offscreen, in order |
| Frames.BalanceWindow | src/display/frame.cc:293-319 | a zero extent or an inactive window goes offscreen; otherwise the size is clamped to the maximum, keeping the right or bottom edge of an anchored window; nothing but the offscreen flag and the placement changes |
| Frames.SumGrows | src/display/frame.cc:371-392 | growing sizes raise their sum, strictly if any changes |
| Frames.DynamicIndices | src/display/frame.cc:341-355 | exactly the dynamic children's indices, in order |
| Frames.SortByKeySorted | src/display/frame.cc:363-367 | the growth order is sorted by descending minimum, stably (ties in index order) |
| Frames.SortByKey | src/display/frame.cc:363-367 | the growth order is a permutation of the dynamic indices |
| Frames.Adjust | src/display/frame.cc:377-383 | one child's new size lies between its current size and its maximum, and is at least the smaller of its minimum and maximum; with space left it grows unless already at its maximum |
| Frames.RoundFromGrows | src/display/frame.cc:374-390 | the rest of a growth round debits `remaining` by exactly what the sizes grew, shrinks no child, leaves every child outside the order alone and keeps the ordered ones within their maximum |
| Frames.RoundFromFloor | src/display/frame.cc:377-383 | every child the rest of a round visits ends at least at the smaller of its minimum and maximum |
| Frames.RoundFromRetry | src/display/frame.cc:385-389 | the retry flag is set iff it was set before or some size changed; a round that changes nothing with space left leaves every visited child at its maximum |
| Frames.RoundOfBounds | src/display/frame.cc:374-390 | one whole round from a clear retry flag: `left` is `remaining` less the growth, no child shrinks, only ordered children change and end between their minimum and maximum, retry iff something changed, and with space left after an unchanged round every ordered child is at its maximum |
| Frames.RoundFromShort | src/display/frame.cc:377-389 | with no space left, every child still to be visited from size zero gets the smaller of its minimum and maximum and the space left stays non-positive |
| Frames.GrowRound | src/display/frame.cc:374-390 | the in-place round ends with the sizes, `remaining` and retry flag that RoundOf gives for the old sizes; only dynamic children change, within their bounds, and `remaining` drops by what they grew |
| Frames.GrowthOrder | src/display/frame.cc:341-367 | the sorted order holds every dynamic child once and nothing else |
| Frames.StaticPass | src/display/frame.cc:341-355 | static children get their minimum and dynamic ones zero; remaining is the extent minus what the static ones take |
| Frames.ShareSpace | src/display/frame.cc:336-392 | the sizes and the space left are exactly ShareOf's: the static pass, the stable sort and growth rounds repeated while a round changed something and space is left; and they satisfy Shared |
| Frames.GrowBounds | src/display/frame.cc:369-392 | repeated rounds debit `remaining` by the growth, change only ordered children, keep them between minimum and maximum, and stop with space left only when every ordered child is at its maximum |
| Frames.ShareOfShared | src/display/frame.cc:336-392 | for every input the sizing passes give static children their minimum, dynamic ones a size between minimum and maximum, and leave space over only when every dynamic child is at its maximum |
| Frames.ShortShare | src/display/frame.cc:357-392 | when the static children leave no space, every dynamic child gets exactly the smaller of its minimum and maximum |
| Frames.EvenShare | src/display/frame.cc:336-392 | example: two dynamic children with minimum 0 and maximum 100 share an extent of 10 as 5 and 5, with nothing left over |
| Frames.FirstAnchored | src/display/frame.cc:398-407 | the first anchored child from a position on |
| Frames.WantedAt | src/display/frame.cc:404-407 | a positive remainder goes whole to the first anchored child; every other child keeps its share |
| Frames.Balance | src/display/frame.cc:271-291 | the frame takes the given geometry and is balanced: it keeps its kind, a window is placed by BalanceWindow, and a container's children tile it, get the extents ShareOf computes (the remainder to the first anchored child) cut to the space left, and are balanced in turn |
| Frames.BalanceContainer | src/display/frame.cc:330-500 | the children tile the container along its axis, have the extents ShareOf computes from their preferred sizes (the remainder to the first anchored child), cut to the space left, and each is balanced in turn |
| Frames.Place | src/display/frame.cc:398-413 | children are laid one after another from the container's start; each one's extent is its share cut to the space left, and each is balanced |
| Frames.PlaceStep | src/display/frame.cc:400-412 | placing the next child where the last one ends, with what it wants cut to the space left, keeps the tiling, the cut-to-space property and the bookkeeping of the remainder the first anchored child takes |
| HttpQueueWindow.RFind | src/display/window_http_queue.cc:84-85 | `rfind`: the last position at or before `pos` holding the character, or none |
| HttpQueueWindow.CreateName | src/display/window_http_queue.cc:82-104 | fails with the bad-string error exactly for an empty URL; otherwise the name has 1 to 30 characters |
| HttpQueueWindow.Trimmed | src/display/window_http_queue.cc:96-103 | the candidate without `.torrent`, cut: at most 30 characters, and never empty for a non-empty candidate |
| HttpQueueWindow.CreateNameRule | src/display/window_http_queue.cc:82-104 | for a URL of 3 or more characters, the name is Trimmed of the text after the last `/` at or before `size - min(10, size)`, or of the whole URL when no `/` is there |
| HttpQueueWindow.ShortUrlName | src/display/window_http_queue.cc:84-103 | a URL of one or two characters is its own name, even a leading `/` |
| HttpQueueWindow.TorrentFileName | src/display/window_http_queue.cc:84-101 | a URL ending in "/stem.torrent" or "/stem.TORRENT" is named by the stem, cut to 30 characters |
| HttpQueueWindow.TrimmedSuffix | src/display/window_http_queue.cc:96-101 | a candidate of two or more characters followed by ".torrent" or ".TORRENT" loses exactly that suffix, then is cut to 30 characters |
| HttpQueueWindow.NameWithoutSlash | src/display/window_http_queue.cc:84-87 | a short URL without '/' is its own name |
| HttpQueueWindow.Keep | src/display/window_http_queue.cc:70-80 | cleanup keeps only nodes that are not expired, each taken from the list |
| HttpQueueWindow.KeepIdempotent | src/display/window_http_queue.cc:70-80 | a second cleanup at the same time removes nothing |
| HttpQueueWindow.KeepConcat | src/display/window_http_queue.cc:72-76 | cleanup works node by node |
| HttpQueueWindow.KeepStep | src/display/window_http_queue.cc:72-76 | one more node is kept iff it has not expired |
| HttpQueueWindow.FindHttp | src/display/window_http_queue.cc:120-123 | the first node for the get, or none when no node has it |
| HttpQueueWindow.FinishedNodeLingers | src/display/window_http_queue.cc:129-130 | a finished node is kept by cleanups up to one second after it finished, and removed by later ones |
| HttpQueueWindow.Window.constructor | src/display/window_http_queue.cc:15-26 | an empty, inactive window |
| HttpQueueWindow.Window.CleanupList | src/display/window_http_queue.cc:70-80 | the list becomes Keep of the old list |
| HttpQueueWindow.Window.ReceiveInsert | src/display/window_http_queue.cc:106-116 | appends a node named by CreateName; activates the window, asking for a layout once, and marks it dirty; a bad name changes nothing |
| HttpQueueWindow.Window.ReceiveErase | src/display/window_http_queue.cc:118-133 | an unknown get is a logic error; otherwise its node is finished with a timer one second ahead |
| FileListElement.NextPriority | src/ui/element_file_list.cc:248-249 | the priority steps one down, wrapping: 0 to 2, 1 to 0, 2 to 1; always a valid priority, and a different one |
| FileListElement.PriorityCycle | src/ui/element_file_list.cc:248-249 | three presses give the priority back |
| FileListElement.StepsInverse | src/ui/element_file_list.cc:163-191 | stepping forward and back with wrapping undo each other |
| FileListElement.PageStep | src/ui/element_file_list.cc:201-202 | the page step is half of `height - 1`, rounded down, for every height a uint32 window can have; a zero height wraps in uint32 to a step of 2^31 - 1 |
| FileListElement.PageForward | src/ui/element_file_list.cc:193-209 | from the last entry to the first; otherwise a page on, stopping at the last entry |
| FileListElement.PageBack | src/ui/element_file_list.cc:211-225 | from the first entry to the last; otherwise a page back, stopping at the first entry |
| FileListElement.ElementFileList.constructor | src/ui/element_file_list.cc:22-46 | cursor on the first entry, expanded, nothing shown |
| FileListElement.ElementFileList.ActivateDisplay | src/ui/element_file_list.cc:125-161 | switching to the current view changes nothing; otherwise the old view is taken down, the new one shown, and the layout adjusted once |
| FileListElement.ElementFileList.Activate | src/ui/element_file_list.cc:83-103 | fails when already active; otherwise creates the window and info element, takes the frame and shows the list |
| FileListElement.ElementFileList.Disable | src/ui/element_file_list.cc:105-123 | fails when inactive; otherwise hides everything and releases the frame, window and info element |
| FileListElement.ElementFileList.ReceiveNext | src/ui/element_file_list.cc:163-176 | one entry on, or past the subtree when collapsed, wrapping to the first entry |
| FileListElement.ElementFileList.ReceivePrev | src/ui/element_file_list.cc:178-191 | one entry back, wrapping to the last entry |
| FileListElement.ElementFileList.ReceivePageNext | src/ui/element_file_list.cc:193-209 | the cursor moves as PageForward with the window's page step |
| FileListElement.ElementFileList.ReceivePagePrev | src/ui/element_file_list.cc:211-225 | nothing without a window; otherwise the cursor moves as PageBack |
| FileListElement.ElementFileList.ReceiveSelect | src/ui/element_file_list.cc:227-241 | in the list view, a directory in the collapsed view moves the cursor one entry on; anything else opens the info view |
| FileListElement.ElementFileList.ReceivePriority | src/ui/element_file_list.cc:243-264 | every file in the selected subtree gets the next priority of the selected file; all others keep theirs |
| FileListElement.ElementFileList.ReceiveChangeAll | src/ui/element_file_list.cc:266-282 | every file gets the next priority of the selected file |
| FileListElement.ElementFileList.ReceiveCollapse | src/ui/element_file_list.cc:284-291 | with a window the view switches between expanded and collapsed; without one nothing changes |
| DownloadUi.ToInt32 | src/ui/download.cc:336-337 | conversion to int32_t: always in range, and the identity on values in range |
| DownloadUi.Adjusted | src/ui/download.cc:332-378 | the new limit is never below the floor, and is the floor-clamped sum when that fits in 32 bits |
| DownloadUi.AdjustUndone | src/ui/download.cc:429-440 | raising a limit and lowering it by the same step gives it back |
| DownloadUi.NextPriority | src/ui/download.cc:380-383 | the priority steps 0, 1, 2, 3 and back to 0: always a valid priority, and a different one |
| DownloadUi.PriorityRound | src/ui/download.cc:380-383 | four presses give the priority back |
| DownloadUi.AdjustThrottle | src/ui/download.cc:390-425 | the global throttle is adjusted iff the named throttle is missing, is "NULL" or lacks that direction; otherwise its new rate is the old one (zero when unthrottled) plus amount KiB/s, never negative |
| DownloadUi.ThrottleUpDown | src/ui/download.cc:409-421 | raising a throttled rate and lowering it by the same amount gives it back |
| DownloadUi.Left | src/ui/download.cc:280-296 | leaving a shown view disables the menu and that view, so no element stays active |
| DownloadUi.Entered | src/ui/download.cc:301-316 | entering an element view activates exactly the menu and that view; the menu alone or no display activates nothing |
| DownloadUi.Download.constructor | src/ui/download.cc:34-66 | nothing shown, no focus, no frame; the download's settings as given |
| DownloadUi.Download.ActivateDisplay | src/ui/download.cc:264-330 | without a frame or beyond DISPLAY_MAX_SIZE it fails with the matching error; an unchanged display and focus change nothing; otherwise exactly the menu and the new element view are active |
| DownloadUi.Download.Switch | src/ui/download.cc:277-329 | takes down the old view, shows the new one, sets the title unless nothing is shown, and adjusts the layout once |
| DownloadUi.Download.Activate | src/ui/download.cc:231-246 | fails when active; otherwise takes the frame, activates the status window and shows the peer list |
| DownloadUi.Download.Disable | src/ui/download.cc:248-262 | fails when inactive; otherwise hides everything and releases the frame |
| DownloadUi.Download.ReceiveMaxUploads | src/ui/download.cc:332-338 | the upload maximum moves by `t`, never below 0; no other setting and nothing of the screen changes |
| DownloadUi.Download.ReceiveMinUploads | src/ui/download.cc:340-346 | the upload minimum moves by `t`, never below 0; no other setting and nothing of the screen changes |
| DownloadUi.Download.ReceiveMaxDownloads | src/ui/download.cc:348-354 | the download maximum moves by `t`, never below 0; no other setting and nothing of the screen changes |
| DownloadUi.Download.ReceiveMinDownloads | src/ui/download.cc:356-362 | the download minimum moves by `t`, never below 0; no other setting and nothing of the screen changes |
| DownloadUi.Download.ReceiveMinPeers | src/ui/download.cc:364-370 | the peer minimum moves by `t`, never below 5; no other setting and nothing of the screen changes |
| DownloadUi.Download.ReceiveMaxPeers | src/ui/download.cc:372-378 | the peer maximum moves by `t`, never below 5; no other setting and nothing of the screen changes |
| DownloadUi.Download.ReceiveNextPriority | src/ui/download.cc:380-383 | the priority becomes NextPriority of the old one; no other setting, no dirty flag and nothing of the screen changes |
| Rpc.Find | src/rpc/rpc_manager.cc:96 | `std::find`: the first position of the name, or the list length |
| Rpc.IsCommandEnabled | src/rpc/rpc_manager.cc:92-97 | on a trusted connection every command is enabled; on an untrusted one a command is enabled iff its name is not in untrusted_commands |
| Rpc.UntrustedRefusals | src/rpc/rpc_manager.cc:27-81 | examples from the list: "execute", "method.insert", "import" and "on_finished" are refused on an untrusted connection, and "d.name" is not |
| Rpc.RpcManager.constructor | src/rpc/rpc_manager.cc:82 | the trust flag starts set |
| Rpc.RpcManager.SetTrustedConnection | src/rpc/rpc_manager.cc:84-90 | returns the previous flag and stores the new one |
| Rpc.RpcManager.Dispatch | src/rpc/rpc_manager.cc:99-133 | the flag equals the connection's trust afterwards; a valid processor gets the request with that trust; an invalid one yields the canned XML-RPC or JSON-RPC fault; an unknown type is an internal error |
| Exec.ArgvOf | src/rpc/exec_file.cc:225-277 | the whole argv outcome, stated without the loop: too few, overflow, too many, or argv plus value buffer |
| Exec.BuildArgv | src/rpc/exec_file.cc:234-277 | argv construction equals ArgvOf for every argument object |
| Exec.BuildListArgv | src/rpc/exec_file.cc:240-260 | the argument loop, checking the argv bound before each entry and the buffer end after each rendering, equals ArgvOf |
| Exec.ValuesGrow | src/rpc/exec_file.cc:251-258 | the value buffer only grows, so the first overflow is decided by the longest prefix the loop reaches |
| Exec.EntryLayout | src/rpc/exec_file.cc:247-259 | a list entry is either its own string or a pointer to its rendered text, stored NUL-terminated in the value buffer |
| Exec.ListArgvBounded | src/rpc/exec_file.cc:244-277 | an accepted list gives one entry per element, at most max_args - 1 of them, followed by the null pointer and nothing after it; its rendered texts fit the buffer |
| Exec.ListArgvErrors | src/rpc/exec_file.cc:237-245 | an empty list raises "Too few arguments."; max_args or more entries are refused, with "Too many arguments." when the buffer did not overflow first; plain strings never overflow |
| Exec.StringArgv | src/rpc/exec_file.cc:262-275 | a single string gives exactly one argument: itself, or its rendering when tilde expansion applies |
| Exec.ExecuteObject | src/rpc/exec_file.cc:225-288 | argv errors propagate; with flag_throw a nonzero status raises "Bad return code."; otherwise flag_capture returns the captured output and the default returns the status |
| Exec.FdToClose | src/rpc/exec_file.cc:57-66 | an entry is closed iff it is a non-empty all-digit name whose value exceeds 2 and differs from dir_fd; the parsed value is that descriptor |
| Exec.CloseAllFds | src/rpc/exec_file.cc:35-71 | with the directory open, the filtered descriptors in listing order, then the directory itself, are closed; otherwise none |
| Exec.ClosedFdsSafe | src/rpc/exec_file.cc:58-66 | every closed descriptor is above 2, is not dir_fd, and is the value of an all-digit entry |
| Exec.DecimalRoundTrip | src/rpc/exec_file.cc:61-62 | reading back a descriptor's decimal name gives the descriptor |
| Exec.FilterOnNames | src/rpc/exec_file.cc:58-66 | "." and ".." are never closed; a descriptor's own entry is closed iff it is above 2 and not dir_fd |

## Left out

- libcurl itself (`curl_multi_*`, `curl_easy_setopt`). The multi handle is a queue of completion messages and a script of `curl_multi_socket_action` replies.
- The task scheduler and `cachedTime`. Time is a parameter, and the timer is a flag with a deadline.
- Core.CurlStack.AddGet: the `curl_multi_add_handle` failure path is a foreign call and is not modelled. The handle must not be listed yet; that is the caller's guarantee, since each `CurlGet` owns its easy handle and `add_get` does not check it.
- Core: the completion callbacks belong to `CurlGet`'s owners, which are not part of this model. A callback either closes its own get (through `remove_get`) or does nothing to the stack; callbacks that add gets or close other gets are not modelled.
- Core: whether libcurl drops the queued messages of a handle removed while they are drained is not modelled. Such messages stay queued.
- Core: libcurl calls set_timeout only from within a socket action, at most once per round in the model (the last call, since each call replaces the task). Calls made from `curl_multi_add_handle` and `curl_multi_remove_handle` are not modelled.
- Core.CurlStack.RemoveGet: the `curl_multi_remove_handle` and `curl_multi_add_handle` failure paths are foreign calls and are not modelled.
- `CurlStack::new_object`, `new_socket`, `global_init` and `global_cleanup`. These are allocation and foreign calls.
- Frames: the frame tree is a value, not a set of linked objects. In-place update of shared frames and aliasing of windows are not captured.
- `Frame::refresh` and `Frame::redraw`. They only forward drawing calls.
- Frames.Balance: uint32 wrap of `x += m_width` and `y += m_height` is not modelled. Positions are unbounded naturals.
- Frames.ShareSpace: `remaining` is an unbounded integer. The model leaves out its 32-bit behaviour: the `int remaining = height` conversion for extents above 2^31 - 1, and the wrap of `remaining -= bounds.minHeight` and `remaining -= adjust - m_height`, which are done in uint32 arithmetic and converted back to `int`, when the static minima or the growth exceed 2^31 - 1.
- `WindowHttpQueue::redraw`. It is canvas printing with a floating-point percentage. Its cleanup call is CleanupList.
- FileListElement.ElementFileList.ReceivePrev: the collapsed view is left out. It requires the expanded view, because `backward_current_depth` is not part of this model.
- FileListElement.ElementFileList.ReceiveNext and ReceivePageNext require a window. The source dereferences `m_window` unconditionally.
- The file list iterator is a flattened index. `forward_current_depth` is a per-entry jump target supplied with the entries. `advance_forward` and `advance_backward` stop at the bound they are given.
- `update_priorities`, `update_itr` and `mark_dirty` calls, key bindings, window titles and the info element's text.
- DownloadUi: `receive_prev_priority`, because `(p - 1) % 4` depends on a priority type that is not part of this model.
- DownloadUi.AdjustThrottle: `int` overflow of `throttle * 1024` is not modelled.
- `ui::Download::create_menu`, `create_info`, `bind_keys` and the destructor. These are construction of UI elements and bindings.
- Rpc: the XML-RPC and JSON-RPC processors and the response callback. Dispatch reports where the request goes; the callback's return value is not modelled.
- Rpc: the thread-local storage of the trust flag. It is a field of the manager.
- `RpcManager::initialize` and the processor construction.
- Exec: `ExecFile::execute` (fork, exec, pipes, wait, logging) is a function parameter from argv to a status and the captured output.
- Exec: `print_object` is a function parameter that renders an object. What it does when its text does not fit is not modelled: the single-string path takes the whole text.
- Exec: argv and the value buffer are growing sequences bounded by `max_args` and `buffer_size`, not fixed-size arrays.
- Exec.CloseAllFds: the listing is one sequence of names. The `getdents` batching and `d_reclen` walk are not modelled, and the digit accumulation is unbounded rather than an `int`.
- `close_all_fds` for systems other than Linux, which closes every descriptor from 3 to `sysconf(_SC_OPEN_MAX)`.

## Findings

| source | as written | input that shows it | evidently intended | confidence | as-written member | corrected member |
|---|---|---|---|---|---|---|
| src/core/curl_stack.cc:138-144 | `std::max<unsigned long>(timeout, 10000)` turns libcurl's "no timeout" value -1 into ULONG_MAX milliseconds, and adding that to `cachedTime` wraps the deadline to 1 ms in the past | `curl_multi_timeout` reports -1 while gets remain | poll again after the 10-second fallback | not executed | Core.NoTimeoutMissesFallback | Core.PollDeadlineAhead |

=== FILE: curl_stack.dfy ===
/** The HTTP transfer stack (`core::CurlStack`).

    The stack is an ordered list of gets; a get is "active" when its easy
    handle is attached to the libcurl multi handle.  At most `maxActive` gets
    are active, the others wait in list order.  libcurl itself is not part of
    this model: the multi handle is an oracle that queues completion messages
    (`pending`) and answers `curl_multi_socket_action` with scripted replies
    (`ActionReply`), each of which may carry a call of the stack's timer
    callback.  What the stack does to a get (trigger_done, trigger_failed,
    retry_ipv6) is recorded in an event log.  The owner's completion
    callback is a parameter too: `closes` holds the gets whose callback
    closes them, and a close goes through remove_get. */
module Core {
  import opened Failures

  /** A get is identified by its libcurl easy handle. */
  type Handle = nat

  const CURLE_OK: int := 0
  const CURLE_COULDNT_RESOLVE_HOST: int := 6
  const CURLMSG_DONE: int := 1
  const CURLM_CALL_MULTI_PERFORM: int := -1

  /** The fallback poll interval of receive_timeout, in milliseconds. */
  const FALLBACK_TIMEOUT_MS: int := 10000
  /** `torrent::utils::timer` counts microseconds. */
  const US_PER_MS: int := 1000
  const TWO_POW_63: int := 0x8000_0000_0000_0000
  const TWO_POW_64: int := 0x1_0000_0000_0000_0000

  const ERR_NOT_DONE := "CurlStack::receive_action() msg->msg != CURLMSG_DONE."
  const ERR_RESOLVE_UNKNOWN := "Could not find CurlGet when calling CurlStack::receive_action."
  const ERR_DONE_UNKNOWN := "Could not find CurlGet with the right easy_handle."
  const ERR_REMOVE_UNKNOWN := "Could not find CurlGet when calling CurlStack::remove."
  const ERR_SOCKET_ACTION := "Error calling curl_multi_socket_action."

  /** What the stack knows of a `CurlGet`: its handle, its `is_active()` flag
      and its `is_using_ipv6()` flag. */
  datatype Get = Get(handle: Handle, active: bool, usingIpv6: bool)

  /** A `CURLMsg` read with `curl_multi_info_read`. */
  datatype Msg = Msg(kind: int, handle: Handle, result: int)

  /** Calls the stack makes on a get: `trigger_done()`,
      `trigger_failed(curl_easy_strerror(code))`, `retry_ipv6()`. */
  datatype Event = Done(handle: Handle) | Failed(handle: Handle, code: int) | RetriedIpv6(handle: Handle)

  /** One answer of `curl_multi_socket_action`: its return code, the running
      count it stores, the transfers it finished (queued for info_read), and
      the timeout libcurl passed to the timer callback (set_timeout) during
      the call, if it called it. */
  datatype ActionReply = ActionReply(code: int, running: nat, finished: seq<Msg>, timerCall: Option<int>)

  /** The list of gets and the count `m_active`. */
  datatype Slots = Slots(gets: seq<Get>, active: nat)

  /** The effect of handling completion messages: the list, the count and
      the calls made on gets. */
  datatype Step = Step(gets: seq<Get>, active: nat, events: seq<Event>)

  /** What the stack holds between two calls into it: the list, the count,
      the messages libcurl holds for info_read, and the timeout task. */
  datatype Snapshot = Snapshot(gets: seq<Get>, active: nat, pending: seq<Msg>, timerQueued: bool, timerDeadline: int)

  /** A snapshot reached after some calls made on gets. */
  datatype Effect = Effect(state: Snapshot, fired: seq<Event>)

  // ---------------------------------------------------------------------
  // Specification functions over the list of gets

  /** Number of active gets. */
  function CountActive(gets: seq<Get>): (n: nat)
    ensures n <= |gets|
    ensures n == 0 <==> forall i :: 0 <= i < |gets| ==> !gets[i].active
  {
    if gets == [] then 0
    else (if gets[0].active then 1 else 0) + CountActive(gets[1..])
  }

  /** `std::find` by handle: the first position holding `h`, or `|gets|`. */
  function IndexOf(gets: seq<Get>, h: Handle): (i: nat)
    ensures i <= |gets|
    ensures i < |gets| ==> gets[i].handle == h
    ensures forall j :: 0 <= j < i ==> gets[j].handle != h
  {
    if gets == [] then 0
    else if gets[0].handle == h then 0
    else 1 + IndexOf(gets[1..], h)
  }

  /** `std::find_if(not is_active)`: the first queued get, or `|gets|`. */
  function FirstQueued(gets: seq<Get>): (i: nat)
    ensures i <= |gets|
    ensures i < |gets| ==> !gets[i].active
    ensures forall j :: 0 <= j < i ==> gets[j].active
  {
    if gets == [] then 0
    else if !gets[0].active then 0
    else 1 + FirstQueued(gets[1..])
  }

  ghost predicate DistinctHandles(gets: seq<Get>) {
    forall i, j :: 0 <= i < j < |gets| ==> gets[i].handle != gets[j].handle
  }

  /** What admission control looks at: each get's handle and active flag. */
  ghost function Admission(gets: seq<Get>): seq<(Handle, bool)> {
    seq(|gets|, i requires 0 <= i < |gets| => (gets[i].handle, gets[i].active))
  }

  /** Two lists agree on everything admission control looks at. */
  ghost predicate SameAdmission(a: seq<Get>, b: seq<Get>) {
    Admission(a) == Admission(b)
  }

  /** Switching a get to IPv6 leaves admission state alone. */
  lemma {:induction false} SwitchKeepsAdmission(gets: seq<Get>, i: nat)
    requires i < |gets|
    ensures SameAdmission(gets[i := gets[i].(usingIpv6 := true)], gets)
  {
    var g := gets[i := gets[i].(usingIpv6 := true)];
    assert forall j | 0 <= j < |g| :: Admission(g)[j] == Admission(gets)[j];
  }

  lemma {:induction false} SameAdmissionAt(a: seq<Get>, b: seq<Get>)
    requires SameAdmission(a, b)
    ensures |a| == |b|
    ensures forall i :: 0 <= i < |a| ==> a[i].handle == b[i].handle && a[i].active == b[i].active
  {
    assert |Admission(a)| == |a| && |Admission(b)| == |b|;
    forall i | 0 <= i < |a|
      ensures a[i].handle == b[i].handle && a[i].active == b[i].active
    {
      assert Admission(a)[i] == Admission(b)[i];
    }
  }

  lemma {:induction false} SameAdmissionTail(a: seq<Get>, b: seq<Get>)
    requires SameAdmission(a, b) && a != []
    ensures b != [] && SameAdmission(a[1..], b[1..])
    ensures a[0].handle == b[0].handle && a[0].active == b[0].active
  {
    SameAdmissionAt(a, b);
    assert forall j | 0 <= j < |a| - 1 :: Admission(a[1..])[j] == Admission(b[1..])[j];
  }

  /** The stack's invariant: `m_active` counts the active gets, never exceeds
      `m_maxActive`, and a get waits only while the stack is full. */
  ghost predicate AdmissionInvariant(gets: seq<Get>, active: nat, maxActive: nat) {
    active == CountActive(gets) &&
    active <= maxActive &&
    DistinctHandles(gets) &&
    (FirstQueued(gets) < |gets| ==> active == maxActive)
  }

  lemma {:induction false} CountActiveConcat(a: seq<Get>, b: seq<Get>)
    ensures CountActive(a + b) == CountActive(a) + CountActive(b)
  {
    if a == [] {
      assert a + b == b;
    } else {
      assert (a + b)[1..] == a[1..] + b;
      CountActiveConcat(a[1..], b);
    }
  }

  /** Erasing position `i` lowers the count by one exactly when that get was
      active. */
  lemma {:induction false} CountActiveErase(gets: seq<Get>, i: nat)
    requires i < |gets|
    ensures CountActive(gets[..i] + gets[i+1..]) == CountActive(gets) - (if gets[i].active then 1 else 0)
  {
    var front, back := gets[..i], gets[i+1..];
    assert gets == front + ([gets[i]] + back);
    CountActiveConcat(front, [gets[i]] + back);
    CountActiveConcat([gets[i]], back);
    assert CountActive([gets[i]]) == (if gets[i].active then 1 else 0) by {
      assert [gets[i]][1..] == [];
    }
    CountActiveConcat(front, back);
  }

  /** Activating a queued get raises the count by exactly one. */
  lemma {:induction false} CountActiveActivate(gets: seq<Get>, k: nat)
    requires k < |gets| && !gets[k].active
    ensures CountActive(gets[k := gets[k].(active := true)]) == CountActive(gets) + 1
  {
    var g := gets[k := gets[k].(active := true)];
    assert gets == gets[..k] + ([gets[k]] + gets[k+1..]);
    assert g == gets[..k] + ([g[k]] + gets[k+1..]);
    CountActiveConcat(gets[..k], [gets[k]] + gets[k+1..]);
    CountActiveConcat([gets[k]], gets[k+1..]);
    CountActiveConcat(gets[..k], [g[k]] + gets[k+1..]);
    CountActiveConcat([g[k]], gets[k+1..]);
  }

  lemma {:induction false} SameAdmissionCount(a: seq<Get>, b: seq<Get>)
    requires SameAdmission(a, b)
    ensures CountActive(a) == CountActive(b)
    ensures FirstQueued(a) == FirstQueued(b)
  {
    SameAdmissionAt(a, b);
    if a != [] {
      SameAdmissionTail(a, b);
      SameAdmissionCount(a[1..], b[1..]);
    }
  }

  /** Admission control depends only on handles and active flags. */
  lemma {:induction false} SameAdmissionInvariant(a: seq<Get>, b: seq<Get>, active: nat, maxActive: nat)
    requires SameAdmission(a, b)
    ensures AdmissionInvariant(a, active, maxActive) <==> AdmissionInvariant(b, active, maxActive)
  {
    SameAdmissionCount(a, b);
    SameAdmissionAt(a, b);
  }

  // ---------------------------------------------------------------------
  // remove_get on the list

  /** remove_get on the get at position `i`: erase it; when it held a slot,
      hand the slot to the first queued get if the stack was full and one
      waits, otherwise free the slot. */
  function RemoveAt(gets: seq<Get>, active: nat, maxActive: nat, i: nat): Slots
    requires i < |gets| && AdmissionInvariant(gets, active, maxActive)
  {
    CountActiveErase(gets, i);
    var rest := gets[..i] + gets[i+1..];
    var k := FirstQueued(rest);
    if !gets[i].active then Slots(rest, active)
    else if active == maxActive && k < |rest| then Slots(rest[k := rest[k].(active := true)], active)
    else Slots(rest, active - 1)
  }

  /** remove_get keeps the stack's invariant and takes the get out of the
      list; a queued get leaves the count alone, and an active one leaves it
      alone too whenever some get was waiting, since that get takes over the
      freed slot. */
  lemma {:induction false} RemoveAtValid(gets: seq<Get>, active: nat, maxActive: nat, i: nat)
    requires i < |gets| && AdmissionInvariant(gets, active, maxActive)
    ensures AdmissionInvariant(RemoveAt(gets, active, maxActive, i).gets, RemoveAt(gets, active, maxActive, i).active, maxActive)
    ensures |RemoveAt(gets, active, maxActive, i).gets| == |gets| - 1
    ensures forall j :: 0 <= j < |RemoveAt(gets, active, maxActive, i).gets| ==>
      RemoveAt(gets, active, maxActive, i).gets[j].handle != gets[i].handle
    ensures !gets[i].active || FirstQueued(gets) < |gets| ==> RemoveAt(gets, active, maxActive, i).active == active
  {
    var rest := gets[..i] + gets[i+1..];
    CountActiveErase(gets, i);
    EraseKeepsDistinct(gets, i);
    QueuedAfterErase(gets, i);
    forall j | 0 <= j < |rest|
      ensures rest[j].handle != gets[i].handle
    {
      assert rest[j] == gets[if j < i then j else j + 1];
    }
    var k := FirstQueued(rest);
    if gets[i].active && FirstQueued(gets) < |gets| {
      var q := FirstQueued(gets);
      assert rest[if q < i then q else q - 1] == gets[q];
    }
    if gets[i].active && active == maxActive && k < |rest| {
      CountActiveActivate(rest, k);
      ActivateKeepsDistinct(rest, k);
      ActivatedNoEarlierQueued(rest, k);
    }
  }

  // ---------------------------------------------------------------------
  // Completion policy (process_done_handle and transfer_done)

  /** Handling of one completion message: the list, the count and the calls
      made on the get, or the `internal_error` thrown.  A get whose
      completion callback closes it (`closes`) goes through remove_get. */
  function HandleMessage(gets: seq<Get>, active: nat, maxActive: nat, closes: set<Handle>, m: Msg): (r: Result<Step>)
    requires AdmissionInvariant(gets, active, maxActive)
    ensures r.Ok? <==> m.kind == CURLMSG_DONE && IndexOf(gets, m.handle) < |gets|
    ensures r.Ok? ==> AdmissionInvariant(r.value.gets, r.value.active, maxActive) && |r.value.events| <= 1
    ensures r.Ok? ==> forall e :: e in r.value.events ==> e.handle == m.handle
    ensures r.Ok? && m.handle !in closes ==> SameAdmission(r.value.gets, gets) && r.value.active == active
    ensures r.Ok? && m.handle in closes && m.result != CURLE_COULDNT_RESOLVE_HOST ==>
      forall j :: 0 <= j < |r.value.gets| ==> r.value.gets[j].handle != m.handle
  {
    if m.kind != CURLMSG_DONE then Err(InternalError(ERR_NOT_DONE))
    else
      var i := IndexOf(gets, m.handle);
      if m.result == CURLE_COULDNT_RESOLVE_HOST then
        if i == |gets| then Err(InternalError(ERR_RESOLVE_UNKNOWN))
        else if gets[i].usingIpv6 then Ok(Step(gets, active, []))
        else
          SwitchKeepsAdmission(gets, i);
          SameAdmissionInvariant(SwitchedToIpv6(gets, i), gets, active, maxActive);
          Ok(Step(SwitchedToIpv6(gets, i), active, [RetriedIpv6(m.handle)]))
      else if i == |gets| then Err(InternalError(ERR_DONE_UNKNOWN))
      else
        var call := if m.result == CURLE_OK then Done(m.handle) else Failed(m.handle, m.result);
        if m.handle in closes then
          RemoveAtValid(gets, active, maxActive, i);
          var after := RemoveAt(gets, active, maxActive, i);
          Ok(Step(after.gets, after.active, [call]))
        else Ok(Step(gets, active, [call]))
  }

  function PrependEvents(evs: seq<Event>, r: Result<Step>): Result<Step> {
    match r
    case Err(e) => Err(e)
    case Ok(s) => Ok(Step(s.gets, s.active, evs + s.events))
  }

  lemma {:induction false} PrependNothing(r: Result<Step>)
    ensures PrependEvents([], r) == r
  {
    if r.Ok? {
      assert [] + r.value.events == r.value.events;
    }
  }

  lemma {:induction false} PrependTwice(a: seq<Event>, b: seq<Event>, r: Result<Step>)
    ensures PrependEvents(a, PrependEvents(b, r)) == PrependEvents(a + b, r)
  {
    if r.Ok? {
      assert a + (b + r.value.events) == (a + b) + r.value.events;
    }
  }

  lemma {:induction false} AppendAssociates(a: seq<Event>, b: seq<Event>, c: seq<Event>)
    ensures (a + b) + c == a + (b + c)
  {
  }

  /** Handling a queue of messages in order, stopping at the first error. */
  function HandleAll(gets: seq<Get>, active: nat, maxActive: nat, closes: set<Handle>, msgs: seq<Msg>): Result<Step>
    requires AdmissionInvariant(gets, active, maxActive)
    decreases |msgs|
  {
    if msgs == [] then Ok(Step(gets, active, []))
    else match HandleMessage(gets, active, maxActive, closes, msgs[0])
      case Err(e) => Err(e)
      case Ok(s) => PrependEvents(s.events, HandleAll(s.gets, s.active, maxActive, closes, msgs[1..]))
  }

  /** Handling a non-empty queue after events `fired`: an error on the
      first message is the outcome; otherwise its events join `fired` and
      the rest of the queue is handled from the list and count it leaves. */
  lemma {:induction false} HandleFirst(gets: seq<Get>, active: nat, maxActive: nat, closes: set<Handle>, msgs: seq<Msg>, fired: seq<Event>)
    requires AdmissionInvariant(gets, active, maxActive) && msgs != []
    ensures HandleMessage(gets, active, maxActive, closes, msgs[0]).Err? ==>
      PrependEvents(fired, HandleAll(gets, active, maxActive, closes, msgs)) ==
      Err(HandleMessage(gets, active, maxActive, closes, msgs[0]).error)
    ensures HandleMessage(gets, active, maxActive, closes, msgs[0]).Ok? ==>
      var s := HandleMessage(gets, active, maxActive, closes, msgs[0]).value;
      PrependEvents(fired, HandleAll(gets, active, maxActive, closes, msgs)) ==
      PrependEvents(fired + s.events, HandleAll(s.gets, s.active, maxActive, closes, msgs[1..]))
  {
    if HandleMessage(gets, active, maxActive, closes, msgs[0]).Ok? {
      var s := HandleMessage(gets, active, maxActive, closes, msgs[0]).value;
      PrependTwice(fired, s.events, HandleAll(s.gets, s.active, maxActive, closes, msgs[1..]));
    }
  }

  /** Draining completion messages keeps the stack's invariant, even when
      callbacks close their gets, and makes at most one call per message;
      when no callback closes its get, admission state is left as it was. */
  lemma {:induction false} HandleAllKeepsInvariant(gets: seq<Get>, active: nat, maxActive: nat, closes: set<Handle>, msgs: seq<Msg>)
    requires AdmissionInvariant(gets, active, maxActive)
    ensures HandleAll(gets, active, maxActive, closes, msgs).Ok? ==>
      AdmissionInvariant(HandleAll(gets, active, maxActive, closes, msgs).value.gets,
                         HandleAll(gets, active, maxActive, closes, msgs).value.active, maxActive) &&
      |HandleAll(gets, active, maxActive, closes, msgs).value.events| <= |msgs|
    ensures (HandleAll(gets, active, maxActive, closes, msgs).Ok? &&
             forall k :: 0 <= k < |msgs| ==> msgs[k].handle !in closes) ==>
      SameAdmission(HandleAll(gets, active, maxActive, closes, msgs).value.gets, gets) &&
      HandleAll(gets, active, maxActive, closes, msgs).value.active == active
    decreases |msgs|
  {
    if msgs != [] {
      var r := HandleMessage(gets, active, maxActive, closes, msgs[0]);
      if r.Ok? {
        HandleAllKeepsInvariant(r.value.gets, r.value.active, maxActive, closes, msgs[1..]);
      }
    }
  }

  /** Any result but CURLE_COULDNT_RESOLVE_HOST fires exactly one of
      trigger_done (for CURLE_OK) and trigger_failed, and nothing else; the
      list changes only by the remove_get of a callback that closes its get. */
  lemma {:induction false} CompletionFiresExactlyOne(gets: seq<Get>, active: nat, maxActive: nat, closes: set<Handle>, m: Msg)
    requires AdmissionInvariant(gets, active, maxActive)
    requires m.kind == CURLMSG_DONE && IndexOf(gets, m.handle) < |gets|
    requires m.result != CURLE_COULDNT_RESOLVE_HOST
    ensures HandleMessage(gets, active, maxActive, closes, m).Ok?
    ensures HandleMessage(gets, active, maxActive, closes, m).value.events ==
      [if m.result == CURLE_OK then Done(m.handle) else Failed(m.handle, m.result)]
    ensures m.handle !in closes ==>
      HandleMessage(gets, active, maxActive, closes, m).value.gets == gets &&
      HandleMessage(gets, active, maxActive, closes, m).value.active == active
    ensures m.handle in closes ==>
      var s := HandleMessage(gets, active, maxActive, closes, m).value;
      Slots(s.gets, s.active) == RemoveAt(gets, active, maxActive, IndexOf(gets, m.handle))
  {
  }

  /** The completion message of a get whose name resolution failed. */
  function ResolveFailure(h: Handle): Msg {
    Msg(CURLMSG_DONE, h, CURLE_COULDNT_RESOLVE_HOST)
  }

  /** The list after retry_ipv6 on the get at position `i`. */
  function SwitchedToIpv6(gets: seq<Get>, i: nat): seq<Get>
    requires i < |gets|
  {
    gets[i := gets[i].(usingIpv6 := true)]
  }

  lemma {:induction false} SameAdmissionIndexOf(a: seq<Get>, b: seq<Get>, h: Handle)
    requires SameAdmission(a, b)
    ensures IndexOf(a, h) == IndexOf(b, h)
  {
    SameAdmissionAt(a, b);
    if a != [] {
      SameAdmissionTail(a, b);
      SameAdmissionIndexOf(a[1..], b[1..], h);
    }
  }

  /** One unfolding of HandleAll on a queue with a known head. */
  lemma {:induction false} HandleAllCons(gets: seq<Get>, active: nat, maxActive: nat, closes: set<Handle>, m: Msg, rest: seq<Msg>)
    requires AdmissionInvariant(gets, active, maxActive)
    ensures HandleMessage(gets, active, maxActive, closes, m).Err? ==>
      HandleAll(gets, active, maxActive, closes, [m] + rest) == Err(HandleMessage(gets, active, maxActive, closes, m).error)
    ensures HandleMessage(gets, active, maxActive, closes, m).Ok? ==>
      var s := HandleMessage(gets, active, maxActive, closes, m).value;
      HandleAll(gets, active, maxActive, closes, [m] + rest) ==
      PrependEvents(s.events, HandleAll(s.gets, s.active, maxActive, closes, rest))
  {
    assert ([m] + rest)[1..] == rest;
  }

  /** A resolve failure on a get not yet using IPv6 retries it over IPv6
      without any callback; a second resolve failure does nothing at all:
      no callback, no removal, and the get keeps its active slot. */
  lemma {:induction false} ResolveFailureRetriesOnce(gets: seq<Get>, active: nat, maxActive: nat, closes: set<Handle>, h: Handle)
    requires AdmissionInvariant(gets, active, maxActive)
    requires IndexOf(gets, h) < |gets| && !gets[IndexOf(gets, h)].usingIpv6
    ensures HandleAll(gets, active, maxActive, closes, [ResolveFailure(h), ResolveFailure(h)]) ==
      Ok(Step(SwitchedToIpv6(gets, IndexOf(gets, h)), active, [RetriedIpv6(h)]))
  {
    var m := ResolveFailure(h);
    var g1 := SwitchedToIpv6(gets, IndexOf(gets, h));
    assert HandleMessage(gets, active, maxActive, closes, m) == Ok(Step(g1, active, [RetriedIpv6(h)]));
    SameAdmissionIndexOf(g1, gets, h);
    assert HandleMessage(g1, active, maxActive, closes, m) == Ok(Step(g1, active, []));
    HandleAllCons(g1, active, maxActive, closes, m, []);
    assert [m] + [] == [m];
    var none: seq<Event> := [];
    assert none + none == none;
    assert HandleAll(g1, active, maxActive, closes, [m]) == Ok(Step(g1, active, none));
    HandleAllCons(gets, active, maxActive, closes, m, [m]);
    assert [m] + [m] == [m, m];
    assert [RetriedIpv6(h)] + [] == [RetriedIpv6(h)];
  }

  /** The retried get then succeeding fires only the success callback; the
      get stays listed unless its callback closes it. */
  lemma {:induction false} RetryThenSuccess(gets: seq<Get>, active: nat, maxActive: nat, closes: set<Handle>, h: Handle)
    requires AdmissionInvariant(gets, active, maxActive)
    requires IndexOf(gets, h) < |gets| && !gets[IndexOf(gets, h)].usingIpv6
    ensures HandleAll(gets, active, maxActive, closes, [ResolveFailure(h), Msg(CURLMSG_DONE, h, CURLE_OK)]).Ok?
    ensures HandleAll(gets, active, maxActive, closes, [ResolveFailure(h), Msg(CURLMSG_DONE, h, CURLE_OK)]).value.events ==
      [RetriedIpv6(h), Done(h)]
    ensures h !in closes ==>
      HandleAll(gets, active, maxActive, closes, [ResolveFailure(h), Msg(CURLMSG_DONE, h, CURLE_OK)]).value ==
      Step(SwitchedToIpv6(gets, IndexOf(gets, h)), active, [RetriedIpv6(h), Done(h)])
  {
    var fail, ok := ResolveFailure(h), Msg(CURLMSG_DONE, h, CURLE_OK);
    var g1 := SwitchedToIpv6(gets, IndexOf(gets, h));
    assert HandleMessage(gets, active, maxActive, closes, fail) == Ok(Step(g1, active, [RetriedIpv6(h)]));
    SameAdmissionIndexOf(g1, gets, h);
    var s := HandleMessage(g1, active, maxActive, closes, ok).value;
    assert s.events == [Done(h)];
    HandleAllCons(s.gets, s.active, maxActive, closes, ok, []);
    assert HandleAll(s.gets, s.active, maxActive, closes, []) == Ok(Step(s.gets, s.active, []));
    HandleAllCons(g1, active, maxActive, closes, ok, []);
    assert [ok] + [] == [ok];
    assert [Done(h)] + [] == [Done(h)];
    assert HandleAll(g1, active, maxActive, closes, [ok]) == Ok(Step(s.gets, s.active, [Done(h)]));
    HandleAllCons(gets, active, maxActive, closes, fail, [ok]);
    assert [fail] + [ok] == [fail, ok];
    assert [RetriedIpv6(h)] + [Done(h)] == [RetriedIpv6(h), Done(h)];
  }

  /** A full stack of limit 1 whose active get completes and is closed by
      its callback: the waiting get takes over the slot. */
  lemma {:induction false} ClosingCompletionPromotes()
    ensures AdmissionInvariant([Get(1, true, false), Get(2, false, false)], 1, 1)
    ensures HandleMessage([Get(1, true, false), Get(2, false, false)], 1, 1, {1}, Msg(CURLMSG_DONE, 1, CURLE_OK)) ==
      Ok(Step([Get(2, true, false)], 1, [Done(1)]))
  {
    var gets := [Get(1, true, false), Get(2, false, false)];
    assert CountActive(gets[1..]) == 0;
    assert FirstQueued(gets) == 1;
    assert IndexOf(gets, 1) == 0;
    assert gets[..0] + gets[1..] == [Get(2, false, false)];
    assert FirstQueued([Get(2, false, false)]) == 0;
    assert RemoveAt(gets, 1, 1, 0) == Slots([Get(2, true, false)], 1);
  }

  // ---------------------------------------------------------------------
  // Timer arithmetic

  /** `torrent::utils::timer::from_milliseconds`: the count of milliseconds
      taken as a 64-bit unsigned value, times 1000, read back as int64. */
  function FromMilliseconds(ms: int): (us: int)
    ensures -TWO_POW_63 <= us < TWO_POW_63
    ensures 0 <= ms && ms * US_PER_MS < TWO_POW_63 ==> us == ms * US_PER_MS
  {
    var wrapped := (ms % TWO_POW_64) * US_PER_MS % TWO_POW_64;
    if wrapped < TWO_POW_63 then wrapped else wrapped - TWO_POW_64
  }

  /** The poll delay of receive_timeout AS WRITTEN:
      `std::max<unsigned long>(timeout, 10000)` converts `timeout` to an
      unsigned 64-bit value first. */
  function PollDelayAsWrittenMs(timeout: int): (d: int)
    ensures d >= FALLBACK_TIMEOUT_MS
  {
    var u := timeout % TWO_POW_64;
    if u > FALLBACK_TIMEOUT_MS then u else FALLBACK_TIMEOUT_MS
  }

  /** curl_multi_timeout reports -1 when it has no timeout.  As written, that
      value does not fall back to 10 seconds: it becomes 2^64-1 ms, which is
      -1000 microseconds once converted, a deadline already in the past. */
  lemma {:induction false} NoTimeoutMissesFallback(now: int)
    ensures PollDelayAsWrittenMs(-1) == TWO_POW_64 - 1
    ensures now + FromMilliseconds(PollDelayAsWrittenMs(-1)) == now - 1000
  {
    assert (-1) % TWO_POW_64 == TWO_POW_64 - 1;
    assert (TWO_POW_64 - 1) * US_PER_MS % TWO_POW_64 == TWO_POW_64 - 1000;
  }

  /** The poll delay as intended: libcurl's timeout when it offers one, the
      10 second fallback when it offers none (-1), and never less than 10 s. */
  function PollDelayMs(timeout: int): (d: int)
    ensures d >= FALLBACK_TIMEOUT_MS
    ensures timeout < 0 ==> d == FALLBACK_TIMEOUT_MS
    ensures 0 <= timeout < TWO_POW_63 ==> d == PollDelayAsWrittenMs(timeout)
  {
    if timeout < FALLBACK_TIMEOUT_MS then FALLBACK_TIMEOUT_MS else timeout
  }

  /** The corrected deadline lies at least 10 seconds ahead of `now` for every
      polled timeout whose count of microseconds fits in a signed 64-bit
      value; larger ones wrap in from_milliseconds. */
  lemma {:induction false} PollDeadlineAhead(now: int, timeout: int)
    requires timeout * US_PER_MS < TWO_POW_63
    ensures now + FromMilliseconds(PollDelayMs(timeout)) >= now + FALLBACK_TIMEOUT_MS * US_PER_MS
  {
  }

  /** Index of the first reply that does not ask to be called again. */
  function StopIndex(replies: seq<ActionReply>): (k: nat)
    ensures k <= |replies|
    ensures k < |replies| ==> replies[k].code != CURLM_CALL_MULTI_PERFORM
    ensures forall j :: 0 <= j < k ==> replies[j].code == CURLM_CALL_MULTI_PERFORM
  {
    if replies == [] then 0
    else if replies[0].code != CURLM_CALL_MULTI_PERFORM then 0
    else 1 + StopIndex(replies[1..])
  }

  // ---------------------------------------------------------------------
  // receive_action as a function of the stack's state

  /** One round of receive_action's loop on the state `s`: libcurl may call
      set_timeout during the action, which re-queues the timeout task; an
      error code is thrown; otherwise the finished transfers are queued and,
      when the running count disagrees with the list, every completion is
      handled and the timeout task dropped if the list became empty. */
  function ReplyEffect(s: Snapshot, maxActive: nat, closes: set<Handle>, now: int, reply: ActionReply): (r: Result<Effect>)
    requires AdmissionInvariant(s.gets, s.active, maxActive)
    ensures r.Ok? ==> AdmissionInvariant(r.value.state.gets, r.value.state.active, maxActive)
    ensures reply.code > 0 ==> r == Err(InternalError(ERR_SOCKET_ACTION))
  {
    HandleAllKeepsInvariant(s.gets, s.active, maxActive, closes, s.pending + reply.finished);
    var timed := Timed(s, now, reply);
    if reply.code > 0 then Err(InternalError(ERR_SOCKET_ACTION))
    else if reply.running == |s.gets| then Ok(Effect(timed.(pending := s.pending + reply.finished), []))
    else match HandleAll(s.gets, s.active, maxActive, closes, s.pending + reply.finished)
      case Err(e) => Err(e)
      case Ok(h) =>
        Ok(Effect(Snapshot(h.gets, h.active, [], timed.timerQueued && h.gets != [], timed.timerDeadline), h.events))
  }

  /** The state after libcurl's set_timeout call during the action, if it
      made one. */
  function Timed(s: Snapshot, now: int, reply: ActionReply): Snapshot {
    if reply.timerCall.Some? then s.(timerQueued := true, timerDeadline := now + FromMilliseconds(reply.timerCall.value))
    else s
  }

  /** The round of a reply whose running count disagrees with the list:
      the outcome of handling every queued completion. */
  lemma {:induction false} ReplyDrains(s: Snapshot, maxActive: nat, closes: set<Handle>, now: int, reply: ActionReply)
    requires AdmissionInvariant(s.gets, s.active, maxActive)
    requires reply.code <= 0 && reply.running != |s.gets|
    ensures var h := HandleAll(s.gets, s.active, maxActive, closes, s.pending + reply.finished);
      h.Err? ==> ReplyEffect(s, maxActive, closes, now, reply) == Err(h.error)
    ensures var h := HandleAll(s.gets, s.active, maxActive, closes, s.pending + reply.finished);
      var t := Timed(s, now, reply);
      h.Ok? ==>
        ReplyEffect(s, maxActive, closes, now, reply) ==
        Ok(Effect(Snapshot(h.value.gets, h.value.active, [], t.timerQueued && h.value.gets != [], t.timerDeadline), h.value.events))
  {
  }

  /** What one round does to the timeout task: a round that handled
      completions and emptied the list leaves no task; a set_timeout call
      during the round leaves the task queued at its deadline unless the
      list was emptied; a round without that call never queues a task. */
  lemma {:induction false} ReplyTimer(s: Snapshot, maxActive: nat, closes: set<Handle>, now: int, reply: ActionReply)
    requires AdmissionInvariant(s.gets, s.active, maxActive)
    ensures (ReplyEffect(s, maxActive, closes, now, reply).Ok? && reply.running != |s.gets| &&
             ReplyEffect(s, maxActive, closes, now, reply).value.state.gets == []) ==>
      !ReplyEffect(s, maxActive, closes, now, reply).value.state.timerQueued
    ensures (ReplyEffect(s, maxActive, closes, now, reply).Ok? && reply.timerCall.Some? &&
             ReplyEffect(s, maxActive, closes, now, reply).value.state.gets != []) ==>
      ReplyEffect(s, maxActive, closes, now, reply).value.state.timerQueued &&
      ReplyEffect(s, maxActive, closes, now, reply).value.state.timerDeadline == now + FromMilliseconds(reply.timerCall.value)
    ensures ReplyEffect(s, maxActive, closes, now, reply).Ok? && reply.timerCall.None? && !s.timerQueued ==>
      !ReplyEffect(s, maxActive, closes, now, reply).value.state.timerQueued
    ensures ReplyEffect(s, maxActive, closes, now, reply).Ok? && reply.running == |s.gets| ==>
      ReplyEffect(s, maxActive, closes, now, reply).value.fired == [] &&
      ReplyEffect(s, maxActive, closes, now, reply).value.state.gets == s.gets &&
      ReplyEffect(s, maxActive, closes, now, reply).value.state.pending == s.pending + reply.finished
  {
  }

  function PrependFired(evs: seq<Event>, r: Result<Effect>): Result<Effect> {
    match r
    case Err(e) => Err(e)
    case Ok(x) => Ok(Effect(x.state, evs + x.fired))
  }

  lemma {:induction false} PrependFiredNothing(r: Result<Effect>)
    ensures PrependFired([], r) == r
  {
    if r.Ok? {
      assert [] + r.value.fired == r.value.fired;
    }
  }

  /** receive_action's loop on the state `s`: rounds run in order while
      libcurl answers CURLM_CALL_MULTI_PERFORM, and the first error ends it. */
  function ActionEffect(s: Snapshot, maxActive: nat, closes: set<Handle>, now: int, replies: seq<ActionReply>): (r: Result<Effect>)
    requires AdmissionInvariant(s.gets, s.active, maxActive)
    ensures r.Ok? ==> AdmissionInvariant(r.value.state.gets, r.value.state.active, maxActive)
    decreases |replies|
  {
    if replies == [] then Ok(Effect(s, []))
    else match ReplyEffect(s, maxActive, closes, now, replies[0])
      case Err(e) => Err(e)
      case Ok(x) =>
        if replies[0].code != CURLM_CALL_MULTI_PERFORM then Ok(x)
        else PrependFired(x.fired, ActionEffect(x.state, maxActive, closes, now, replies[1..]))
  }

  /** The loop after events `fired` on a non-empty script: an error in the
      first round is the outcome; a last round ends it; otherwise the
      round's calls join `fired` and the loop goes on from its state. */
  lemma {:induction false} ActionFirst(s: Snapshot, maxActive: nat, closes: set<Handle>, now: int, replies: seq<ActionReply>, fired: seq<Event>)
    requires AdmissionInvariant(s.gets, s.active, maxActive) && replies != []
    ensures ReplyEffect(s, maxActive, closes, now, replies[0]).Err? ==>
      PrependFired(fired, ActionEffect(s, maxActive, closes, now, replies)) ==
      Err(ReplyEffect(s, maxActive, closes, now, replies[0]).error)
    ensures ReplyEffect(s, maxActive, closes, now, replies[0]).Ok? && replies[0].code != CURLM_CALL_MULTI_PERFORM ==>
      var x := ReplyEffect(s, maxActive, closes, now, replies[0]).value;
      PrependFired(fired, ActionEffect(s, maxActive, closes, now, replies)) == Ok(Effect(x.state, fired + x.fired))
    ensures ReplyEffect(s, maxActive, closes, now, replies[0]).Ok? && replies[0].code == CURLM_CALL_MULTI_PERFORM ==>
      var x := ReplyEffect(s, maxActive, closes, now, replies[0]).value;
      PrependFired(fired, ActionEffect(s, maxActive, closes, now, replies)) ==
      PrependFired(fired + x.fired, ActionEffect(x.state, maxActive, closes, now, replies[1..]))
  {
    var r := ReplyEffect(s, maxActive, closes, now, replies[0]);
    if r.Ok? && replies[0].code == CURLM_CALL_MULTI_PERFORM {
      var rest := ActionEffect(r.value.state, maxActive, closes, now, replies[1..]);
      if rest.Ok? {
        assert fired + (r.value.fired + rest.value.fired) == (fired + r.value.fired) + rest.value.fired;
      }
    }
  }

  /** Without callbacks that close their gets, receive_action leaves
      admission state as it found it: the same gets hold the same slots. */
  lemma {:induction false} ActionWithoutClosesKeepsAdmission(s: Snapshot, maxActive: nat, now: int, replies: seq<ActionReply>)
    requires AdmissionInvariant(s.gets, s.active, maxActive)
    ensures ActionEffect(s, maxActive, {}, now, replies).Ok? ==>
      SameAdmission(ActionEffect(s, maxActive, {}, now, replies).value.state.gets, s.gets) &&
      ActionEffect(s, maxActive, {}, now, replies).value.state.active == s.active
    decreases |replies|
  {
    if replies != [] {
      var msgs := s.pending + replies[0].finished;
      HandleAllKeepsInvariant(s.gets, s.active, maxActive, {}, msgs);
      var r := ReplyEffect(s, maxActive, {}, now, replies[0]);
      if r.Ok? {
        if r.value.state.gets != s.gets {
          assert r.value.state.gets == HandleAll(s.gets, s.active, maxActive, {}, msgs).value.gets;
        }
        if replies[0].code == CURLM_CALL_MULTI_PERFORM {
          ActionWithoutClosesKeepsAdmission(r.value.state, maxActive, now, replies[1..]);
        }
      }
    }
  }

  /** When no timeout task is queued and libcurl calls set_timeout in no
      round, receive_action leaves none queued: this is the case that
      receive_timeout's fallback poll covers. */
  lemma {:induction false} ActionWithoutTimerCalls(s: Snapshot, maxActive: nat, closes: set<Handle>, now: int, replies: seq<ActionReply>)
    requires AdmissionInvariant(s.gets, s.active, maxActive)
    requires !s.timerQueued
    requires forall k :: 0 <= k < |replies| ==> replies[k].timerCall.None?
    ensures ActionEffect(s, maxActive, closes, now, replies).Ok? ==>
      !ActionEffect(s, maxActive, closes, now, replies).value.state.timerQueued
    decreases |replies|
  {
    if replies != [] {
      ReplyTimer(s, maxActive, closes, now, replies[0]);
      var r := ReplyEffect(s, maxActive, closes, now, replies[0]);
      if r.Ok? && replies[0].code == CURLM_CALL_MULTI_PERFORM {
        ActionWithoutTimerCalls(r.value.state, maxActive, closes, now, replies[1..]);
      }
    }
  }

  // ---------------------------------------------------------------------
  // The stack

  class CurlStack {
    var gets: seq<Get>
    var active: nat
    const maxActive: nat
    /** Completion messages the multi handle holds for info_read. */
    var pending: seq<Msg>
    /** Calls made on gets, in order. */
    var events: seq<Event>
    /** `m_taskTimeout.is_queued()` and its deadline, in microseconds.  One
        task object exists, so at most one timeout is ever queued. */
    var timerQueued: bool
    var timerDeadline: int

    ghost predicate Valid()
      reads this
    {
      AdmissionInvariant(gets, active, maxActive)
    }

    /** Everything but the event log, as one value. */
    ghost function State(): Snapshot
      reads this
    {
      Snapshot(gets, active, pending, timerQueued, timerDeadline)
    }

    constructor (maxActive: nat)
      ensures Valid()
      ensures gets == [] && active == 0 && this.maxActive == maxActive
      ensures pending == [] && events == [] && !timerQueued
    {
      gets := [];
      active := 0;
      this.maxActive := maxActive;
      pending := [];
      events := [];
      timerQueued := false;
      timerDeadline := 0;
    }

    /** add_get: append the get; attach it only while below the limit. */
    method AddGet(h: Handle, usingIpv6: bool)
      requires Valid()
      requires IndexOf(gets, h) == |gets|
      modifies this
      ensures Valid()
      ensures gets == old(gets) + [Get(h, old(active) < maxActive, usingIpv6)]
      ensures active == if old(active) < maxActive then old(active) + 1 else old(active)
      ensures pending == old(pending) && events == old(events)
      ensures timerQueued == old(timerQueued) && timerDeadline == old(timerDeadline)
    {
      var g := Get(h, false, usingIpv6);
      CountActiveConcat(gets, [g]);
      gets := gets + [g];

      if active >= maxActive {
        return;
      }

      active := active + 1;
      var last := |gets| - 1;
      CountActiveActivate(gets, last);
      gets := gets[last := gets[last].(active := true)];
    }

    /** remove_get: detach the get; when it was active and the stack was
        full, hand its slot to the first queued get. */
    method RemoveGet(h: Handle) returns (outcome: Outcome)
      requires Valid()
      modifies this
      ensures Valid()
      ensures outcome.Fail? <==> IndexOf(old(gets), h) == |old(gets)|
      ensures outcome.Fail? ==>
        outcome.error == InternalError(ERR_REMOVE_UNKNOWN) &&
        gets == old(gets) && active == old(active)
      ensures outcome.Pass? ==>
        Slots(gets, active) == RemoveAt(old(gets), old(active), maxActive, IndexOf(old(gets), h))
      ensures pending == old(pending) && events == old(events)
      ensures timerQueued == old(timerQueued) && timerDeadline == old(timerDeadline)
    {
      var i := IndexOf(gets, h);
      if i == |gets| {
        return Fail(InternalError(ERR_REMOVE_UNKNOWN));
      }
      outcome := Pass;
      RemoveAtValid(gets, active, maxActive, i);

      var removed := gets[i];
      gets := gets[..i] + gets[i+1..];

      // The get was never activated, so nothing else changes.
      if !removed.active {
        return;
      }

      var k := FirstQueued(gets);
      if active == maxActive && k < |gets| {
        gets := gets[k := gets[k].(active := true)];
      } else {
        active := active - 1;
      }
    }

    /** transfer_done: trigger_done for a null message (CURLE_OK), otherwise
        trigger_failed with the libcurl error text for `result`.  A callback
        that closes its get (`closes`) goes through remove_get. */
    method TransferDone(h: Handle, result: int, closes: set<Handle>) returns (outcome: Outcome)
      requires Valid()
      modifies this
      ensures Valid()
      ensures outcome.Fail? <==> IndexOf(old(gets), h) == |old(gets)|
      ensures outcome.Fail? ==>
        outcome.error == InternalError(ERR_DONE_UNKNOWN) && events == old(events) &&
        gets == old(gets) && active == old(active)
      ensures outcome.Pass? ==>
        events == old(events) + [if result == CURLE_OK then Done(h) else Failed(h, result)]
      ensures outcome.Pass? && h !in closes ==> gets == old(gets) && active == old(active)
      ensures outcome.Pass? && h in closes ==>
        Slots(gets, active) == RemoveAt(old(gets), old(active), maxActive, IndexOf(old(gets), h))
      ensures pending == old(pending)
      ensures timerQueued == old(timerQueued) && timerDeadline == old(timerDeadline)
    {
      var i := IndexOf(gets, h);
      if i == |gets| {
        return Fail(InternalError(ERR_DONE_UNKNOWN));
      }
      if result == CURLE_OK {
        events := events + [Done(h)];
      } else {
        events := events + [Failed(h, result)];
      }
      outcome := Pass;
      if h in closes {
        var closed := RemoveGet(h);
      }
    }

    /** process_done_handle: read one message and apply the completion
        policy; answer whether more messages remain. */
    method ProcessDoneHandle(closes: set<Handle>) returns (more: bool, outcome: Outcome)
      requires Valid()
      modifies this
      ensures Valid()
      ensures old(pending) == [] ==>
        !more && outcome.Pass? && pending == [] && gets == old(gets) && active == old(active) && events == old(events)
      ensures old(pending) != [] ==> pending == old(pending)[1..]
      ensures old(pending) != [] && HandleMessage(old(gets), old(active), maxActive, closes, old(pending)[0]).Err? ==>
        outcome == Fail(HandleMessage(old(gets), old(active), maxActive, closes, old(pending)[0]).error) &&
        !more && events == old(events)
      ensures old(pending) != [] && HandleMessage(old(gets), old(active), maxActive, closes, old(pending)[0]).Ok? ==>
        var s := HandleMessage(old(gets), old(active), maxActive, closes, old(pending)[0]).value;
        outcome.Pass? && more == (pending != []) &&
        gets == s.gets && active == s.active && events == old(events) + s.events
      ensures timerQueued == old(timerQueued) && timerDeadline == old(timerDeadline)
    {
      if pending == [] {
        return false, Pass;
      }
      var m := pending[0];
      ghost var handled := HandleMessage(gets, active, maxActive, closes, m);
      pending := pending[1..];
      var remaining := |pending|;

      if m.kind != CURLMSG_DONE {
        return false, Fail(InternalError(ERR_NOT_DONE));
      }

      if m.result == CURLE_COULDNT_RESOLVE_HOST {
        var i := IndexOf(gets, m.handle);
        if i == |gets| {
          return false, Fail(InternalError(ERR_RESOLVE_UNKNOWN));
        }
        if !gets[i].usingIpv6 {
          var g := gets[i := gets[i].(usingIpv6 := true)];
          SwitchKeepsAdmission(gets, i);
          SameAdmissionInvariant(g, gets, active, maxActive);
          gets := g;
          events := events + [RetriedIpv6(m.handle)];
        }
      } else {
        outcome := TransferDone(m.handle, m.result, closes);
        if outcome.Fail? {
          return false, outcome;
        }
        assert handled.value.gets == gets && handled.value.active == active;
      }

      return remaining != 0, Pass;
    }

    /** `while (process_done_handle());` */
    method DrainDone(closes: set<Handle>) returns (outcome: Outcome, ghost fired: seq<Event>)
      requires Valid()
      modifies this
      ensures Valid()
      ensures events == old(events) + fired
      ensures outcome.Pass? ==>
        pending == [] && HandleAll(old(gets), old(active), maxActive, closes, old(pending)) == Ok(Step(gets, active, fired))
      ensures outcome.Fail? ==> HandleAll(old(gets), old(active), maxActive, closes, old(pending)) == Err(outcome.error)
      ensures timerQueued == old(timerQueued) && timerDeadline == old(timerDeadline)
    {
      var more := true;
      outcome := Pass;
      fired := [];
      ghost var target := HandleAll(gets, active, maxActive, closes, pending);
      PrependNothing(target);
      while more
        invariant Valid()
        invariant outcome.Pass?
        invariant !more ==> pending == []
        invariant events == old(events) + fired
        invariant target == PrependEvents(fired, HandleAll(gets, active, maxActive, closes, pending))
        invariant timerQueued == old(timerQueued) && timerDeadline == old(timerDeadline)
        decreases |pending| + (if more then 1 else 0)
      {
        ghost var g0, a0, p0 := gets, active, pending;
        more, outcome := ProcessDoneHandle(closes);
        if p0 != [] {
          HandleFirst(g0, a0, maxActive, closes, p0, fired);
        }
        if outcome.Fail? {
          return;
        }
        if p0 != [] {
          ghost var evs := HandleMessage(g0, a0, maxActive, closes, p0[0]).value.events;
          AppendAssociates(old(events), fired, evs);
          fired := fired + evs;
        }
      }
      assert HandleAll(gets, active, maxActive, closes, pending) == Ok(Step(gets, active, []));
      assert fired + [] == fired;
    }

    /** set_timeout (libcurl's timer callback): erase the task, then insert
        it `timeoutMs` from now; always answers 0. */
    method SetTimeout(timeoutMs: int, now: int) returns (r: int)
      modifies this
      ensures r == 0
      ensures timerQueued && timerDeadline == now + FromMilliseconds(timeoutMs)
      ensures gets == old(gets) && active == old(active)
      ensures pending == old(pending) && events == old(events)
    {
      timerQueued := false;
      timerQueued, timerDeadline := true, now + FromMilliseconds(timeoutMs);
      r := 0;
    }

    /** One round of receive_action's loop for the reply `reply` (see
        ReplyEffect). */
    method ApplyReply(reply: ActionReply, closes: set<Handle>, now: int) returns (outcome: Outcome, ghost fired: seq<Event>)
      requires Valid()
      modifies this
      ensures Valid()
      ensures events == old(events) + fired
      ensures outcome.Pass? ==> ReplyEffect(old(State()), maxActive, closes, now, reply) == Ok(Effect(State(), fired))
      ensures outcome.Fail? ==> ReplyEffect(old(State()), maxActive, closes, now, reply) == Err(outcome.error)
    {
      ghost var s0 := State();
      fired := [];
      if reply.timerCall.Some? {
        var answer := SetTimeout(reply.timerCall.value, now);
      }
      if reply.code > 0 {
        return Fail(InternalError(ERR_SOCKET_ACTION)), fired;
      }
      pending := pending + reply.finished;
      outcome := Pass;
      if reply.running == |gets| {
        return;
      }
      ReplyDrains(s0, maxActive, closes, now, reply);
      outcome, fired := DrainDone(closes);
      if outcome.Fail? {
        return;
      }
      if gets == [] {
        timerQueued := false;
      }
    }

    /** receive_action: drive libcurl until it stops asking to be called
        again (the replies up to StopIndex). */
    method ReceiveAction(replies: seq<ActionReply>, closes: set<Handle>, now: int) returns (outcome: Outcome, ghost fired: seq<Event>)
      requires Valid()
      requires StopIndex(replies) < |replies|
      modifies this
      ensures Valid()
      ensures events == old(events) + fired
      ensures outcome.Pass? ==> ActionEffect(old(State()), maxActive, closes, now, replies) == Ok(Effect(State(), fired))
      ensures outcome.Fail? ==> ActionEffect(old(State()), maxActive, closes, now, replies) == Err(outcome.error)
    {
      var i := 0;
      var code := CURLM_CALL_MULTI_PERFORM;
      fired := [];
      ghost var target := ActionEffect(State(), maxActive, closes, now, replies);
      PrependFiredNothing(target);
      while code == CURLM_CALL_MULTI_PERFORM
        invariant 0 <= i <= |replies|
        invariant code == CURLM_CALL_MULTI_PERFORM ==> i <= StopIndex(replies)
        invariant Valid()
        invariant events == old(events) + fired
        invariant code == CURLM_CALL_MULTI_PERFORM ==>
          target == PrependFired(fired, ActionEffect(State(), maxActive, closes, now, replies[i..]))
        invariant code != CURLM_CALL_MULTI_PERFORM ==> target == Ok(Effect(State(), fired))
        decreases |replies| - i
      {
        var reply := replies[i];
        code := reply.code;
        ghost var s0 := State();
        ghost var more: seq<Event>;
        ActionFirst(s0, maxActive, closes, now, replies[i..], fired);
        assert replies[i..][0] == reply && replies[i..][1..] == replies[i + 1..];
        outcome, more := ApplyReply(reply, closes, now);
        AppendAssociates(old(events), fired, more);
        if outcome.Fail? {
          assert ReplyEffect(s0, maxActive, closes, now, reply) == Err(outcome.error);
          fired := fired + more;
          return;
        }
        assert ReplyEffect(s0, maxActive, closes, now, reply) == Ok(Effect(State(), more));
        fired := fired + more;
        i := i + 1;
      }
      outcome := Pass;
    }

    /** receive_timeout, the slot of the timeout task: the scheduler takes
        the task off its queue before running the slot, so the step starts
        with no timer queued.  If gets remain and the action queued no
        timeout, poll libcurl's timeout and queue the task no sooner than
        10 seconds ahead (with the corrected fallback, see PollDelayMs). */
    method ReceiveTimeout(now: int, replies: seq<ActionReply>, polledMs: int, closes: set<Handle>) returns (outcome: Outcome)
      requires Valid()
      requires StopIndex(replies) < |replies|
      modifies this
      ensures Valid()
      ensures outcome.Fail? ==> ActionEffect(old(State()).(timerQueued := false), maxActive, closes, now, replies) == Err(outcome.error)
      ensures outcome.Pass? ==>
        ActionEffect(old(State()).(timerQueued := false), maxActive, closes, now, replies).Ok? &&
        var e := ActionEffect(old(State()).(timerQueued := false), maxActive, closes, now, replies).value;
        events == old(events) + e.fired &&
        gets == e.state.gets && active == e.state.active && pending == e.state.pending &&
        if e.state.gets != [] && !e.state.timerQueued then
          timerQueued && timerDeadline == now + FromMilliseconds(PollDelayMs(polledMs))
        else
          timerQueued == e.state.timerQueued && timerDeadline == e.state.timerDeadline
      ensures outcome.Pass? && gets != [] ==> timerQueued
      ensures outcome.Pass? && gets != [] && (forall k :: 0 <= k < |replies| ==> replies[k].timerCall.None?) ==>
        timerDeadline == now + FromMilliseconds(PollDelayMs(polledMs))
    {
      timerQueued := false;
      ghost var fired;
      ghost var s0 := State();
      if forall k :: 0 <= k < |replies| ==> replies[k].timerCall.None? {
        ActionWithoutTimerCalls(s0, maxActive, closes, now, replies);
      }
      outcome, fired := ReceiveAction(replies, closes, now);
      if outcome.Fail? {
        return;
      }
      if gets != [] && !timerQueued {
        timerQueued := true;
        timerDeadline := now + FromMilliseconds(PollDelayMs(polledMs));
      }
    }

    /** The destructor: close the front get until none remain (each close
        goes through remove_get), then erase the timeout task.  No callback
        fires. */
    method Teardown()
      requires Valid()
      modifies this
      ensures Valid()
      ensures gets == [] && active == 0 && !timerQueued
      ensures events == old(events) && pending == old(pending)
    {
      while gets != []
        invariant Valid()
        invariant events == old(events) && pending == old(pending)
        decreases |gets|
      {
        RemoveAtValid(gets, active, maxActive, 0);
        var outcome := RemoveGet(gets[0].handle);
      }
      timerQueued := false;
    }
  }

  // ---------------------------------------------------------------------
  // Helper lemmas for the list updates of remove_get

  lemma {:induction false} EraseKeepsDistinct(gets: seq<Get>, i: nat)
    requires i < |gets| && DistinctHandles(gets)
    ensures DistinctHandles(gets[..i] + gets[i+1..])
  {
    var rest := gets[..i] + gets[i+1..];
    forall a, b | 0 <= a < b < |rest|
      ensures rest[a].handle != rest[b].handle
    {
      var a' := if a < i then a else a + 1;
      var b' := if b < i then b else b + 1;
      assert rest[a] == gets[a'] && rest[b] == gets[b'];
    }
  }

  lemma {:induction false} ActivateKeepsDistinct(gets: seq<Get>, k: nat)
    requires k < |gets| && DistinctHandles(gets)
    ensures DistinctHandles(gets[k := gets[k].(active := true)])
  {
  }

  /** A get queued after an erase was already queued before it. */
  lemma {:induction false} QueuedAfterErase(gets: seq<Get>, i: nat)
    requires i < |gets|
    ensures FirstQueued(gets[..i] + gets[i+1..]) < |gets| - 1 ==> FirstQueued(gets) < |gets|
  {
    var rest := gets[..i] + gets[i+1..];
    var k := FirstQueued(rest);
    if k < |rest| {
      var k' := if k < i then k else k + 1;
      assert !gets[k'].active;
    }
  }

  /** After promoting the first queued get, no get before it is queued. */
  lemma {:induction false} ActivatedNoEarlierQueued(rest: seq<Get>, k: nat)
    requires k == FirstQueued(rest) && k < |rest|
    ensures FirstQueued(rest[k := rest[k].(active := true)]) > k
  {
  }
}

=== FILE: download.dfy ===
/** The per-download screen (`ui::Download`).

    While active, the download screen owns a frame split into two rows: the
    top one shows the current display (a menu column beside one of six
    element views), the bottom one the status window.  Key handlers adjust
    the download's slot and peer limits, its priority and its throttles. */
module DownloadUi {
  import opened Failures

  /** `Display` codes, in declaration order. */
  const DISPLAY_MENU: nat := 0
  const DISPLAY_PEER_LIST: nat := 1
  const DISPLAY_TRANSFER_LIST: nat := 6
  const DISPLAY_MAX_SIZE: nat := 7

  const KIB: int := 1024
  const MIN_PEERS: int := 5
  const TWO_POW_31: int := 0x8000_0000
  const TWO_POW_32: int := 0x1_0000_0000

  const ERR_ACTIVATE := "ui::Download::activate() called on an already activated object."
  const ERR_DISABLE := "ui::Download::disable() called on an already disabled object."
  const ERR_NOT_ACTIVE := "ui::Download::activate_display(...) !is_active()."
  const ERR_BOUNDS := "ui::Download::activate_display(...) out of bounds"

  /** Identity of a `display::Frame`. */
  type FrameRef = nat

  function Max(a: int, b: int): int { if a < b then b else a }

  /** Conversion of an integer to `int32_t` (two's complement). */
  function ToInt32(v: int): (r: int)
    ensures -TWO_POW_31 <= r < TWO_POW_31
    ensures -TWO_POW_31 <= v < TWO_POW_31 ==> r == v
  {
    (v + TWO_POW_31) % TWO_POW_32 - TWO_POW_31
  }

  /** The limit handlers: `max<int32_t>(current + t, floor)`.  The result
      never falls below the floor, and is the plain sum whenever that fits
      and is not below it. */
  function Adjusted(current: int, t: int, floor: int): (r: int)
    ensures r >= floor
    ensures -TWO_POW_31 <= current + t < TWO_POW_31 ==> r == Max(current + t, floor)
  {
    Max(ToInt32(current + t), floor)
  }

  /** A step up followed by the same step down restores a limit that was
      at or above the floor. */
  lemma {:induction false} AdjustUndone(current: int, t: int, floor: int)
    requires floor <= current && 0 <= t && current + t < TWO_POW_31 && -TWO_POW_31 <= floor
    ensures Adjusted(Adjusted(current, t, floor), -t, floor) == current
  {
    assert Adjusted(current, t, floor) == current + t;
  }

  /** `receive_next_priority`. */
  function NextPriority(p: nat): (r: nat)
    ensures r < 4
    ensures p < 3 ==> r == p + 1
    ensures p == 3 ==> r == 0
    ensures p < 4 ==> r != p
  {
    (p + 1) % 4
  }

  /** Four presses bring every priority back. */
  lemma {:induction false} PriorityRound(p: nat)
    requires p < 4
    ensures NextPriority(NextPriority(NextPriority(NextPriority(p)))) == p
  {
  }

  /** The download's own settings that the key handlers change: its slot
      and peer limits and its priority. */
  datatype DownloadSettings = DownloadSettings(
    uploadsMin: int, uploadsMax: int,
    downloadsMin: int, downloadsMax: int,
    peersMin: int, peersMax: int,
    priority: nat)

  /** One `torrent::Throttle`. */
  datatype Throttle = Throttle(throttled: bool, maxRate: int)

  /** An entry of the throttle map: the upload and the download throttle,
      either possibly missing. */
  datatype ThrottlePair = ThrottlePair(up: Option<Throttle>, down: Option<Throttle>)

  /** What a throttle key does. */
  datatype ThrottleAction = AdjustGlobal(amount: int) | SetMaxRate(rate: int)

  /** `adjust_up_throttle` (`up`) and `adjust_down_throttle`: the download's
      named throttle, when it exists, is not "NULL" and has that direction,
      gets a new rate `amount` KiB/s from its current one (zero when
      unthrottled), never negative; otherwise the global throttle is
      adjusted. */
  function AdjustThrottle(throttles: map<string, ThrottlePair>, name: string, up: bool, amount: int)
    : (r: ThrottleAction)
    ensures r.AdjustGlobal? <==>
      name !in throttles || name == "NULL" ||
      (if up then throttles[name].up else throttles[name].down).None?
    ensures r.AdjustGlobal? ==> r.amount == amount
    ensures r.SetMaxRate? ==> r.rate >= 0
    ensures r.SetMaxRate? ==>
      var th := if up then throttles[name].up.value else throttles[name].down.value;
      r.rate == Max((if th.throttled then th.maxRate else 0) + amount * KIB, 0)
  {
    if name !in throttles then AdjustGlobal(amount)
    else
      var th := if up then throttles[name].up else throttles[name].down;
      if th.None? || name == "NULL" then AdjustGlobal(amount)
      else SetMaxRate(Max((if th.value.throttled then th.value.maxRate else 0) + amount * KIB, 0))
  }

  /** Raising a throttled rate and lowering it by the same amount gives
      the rate back. */
  lemma {:induction false} ThrottleUpDown(throttles: map<string, ThrottlePair>, name: string, amount: int)
    requires name in throttles && name != "NULL" && throttles[name].up.Some?
    requires throttles[name].up.value.throttled && throttles[name].up.value.maxRate >= 0
    requires amount >= 0
    ensures var raised := AdjustThrottle(throttles, name, true, amount).rate;
      var back := throttles[name := ThrottlePair(Some(Throttle(true, raised)), throttles[name].down)];
      AdjustThrottle(back, name, true, -amount) == SetMaxRate(throttles[name].up.value.maxRate)
  {
  }

  /** The six element views shown beside the menu. */
  predicate IsElementView(d: nat) {
    DISPLAY_PEER_LIST <= d <= DISPLAY_TRANSFER_LIST
  }

  /** Whether the element views in `active` are exactly those shown with
      `display`: the menu and the view itself, for an element view. */
  ghost predicate ShownWith(active: seq<bool>, display: nat) {
    |active| == DISPLAY_MAX_SIZE &&
    forall k :: 0 <= k < DISPLAY_MAX_SIZE ==>
      (active[k] <==> IsElementView(display) && (k == DISPLAY_MENU || k == display))
  }

  /** Leaving `display`: the menu and the shown view are disabled, which
      leaves no element active. */
  function Left(active: seq<bool>, display: nat): (r: seq<bool>)
    requires ShownWith(active, display)
    ensures |r| == DISPLAY_MAX_SIZE && forall k :: 0 <= k < DISPLAY_MAX_SIZE ==> !r[k]
  {
    if IsElementView(display) then active[DISPLAY_MENU := false][display := false] else active
  }

  /** Entering `display` with no element active: the menu and the view are
      activated for an element view, nothing for the menu alone or for no
      display. */
  function Entered(active: seq<bool>, display: nat): (r: seq<bool>)
    requires |active| == DISPLAY_MAX_SIZE && forall k :: 0 <= k < DISPLAY_MAX_SIZE ==> !active[k]
    ensures ShownWith(r, display)
  {
    if IsElementView(display) then active[DISPLAY_MENU := true][display := true] else active
  }

  class Download {
    /** `m_state`, `m_focusDisplay`. */
    var state: nat
    var focus: bool
    /** `m_frame`; the screen is active while it is set. */
    var frame: Option<FrameRef>
    /** The top row holds a menu column and an element column. */
    var detailColumns: bool
    /** `m_uiArray[k]->is_active()` and the focus it was activated with. */
    var elementActive: seq<bool>
    var elementFocused: seq<bool>
    var statusActive: bool
    var statusDirty: bool
    var bindingsPushed: bool
    var titleSets: nat
    var layoutAdjusts: nat

    /** The settings of the download shown. */
    var settings: DownloadSettings

    /** Exactly the menu and the shown element view are active, and only
        while an element view is shown. */
    ghost predicate Valid()
      reads this
    {
      state <= DISPLAY_MAX_SIZE &&
      |elementFocused| == DISPLAY_MAX_SIZE &&
      (frame.None? ==> state == DISPLAY_MAX_SIZE && !detailColumns) &&
      (detailColumns <==> IsElementView(state)) &&
      ShownWith(elementActive, state)
    }

    constructor (settings: DownloadSettings)
      ensures Valid()
      ensures state == DISPLAY_MAX_SIZE && !focus && frame.None? && !bindingsPushed
      ensures this.settings == settings
    {
      state, focus, frame := DISPLAY_MAX_SIZE, false, None;
      detailColumns := false;
      elementActive := seq(DISPLAY_MAX_SIZE, _ => false);
      elementFocused := seq(DISPLAY_MAX_SIZE, _ => false);
      statusActive, statusDirty, bindingsPushed := false, false, false;
      titleSets, layoutAdjusts := 0, 0;
      this.settings := settings;
    }

    /** `activate_display`: switch the top row to `display` with the given
        focus.  An inactive screen or an unknown display is an error, and
        the pair already shown is left alone. */
    method ActivateDisplay(display: nat, focusDisplay: bool) returns (outcome: Outcome)
      requires Valid()
      modifies this
      ensures Valid()
      ensures outcome.Fail? <==> old(frame).None? || display > DISPLAY_MAX_SIZE
      ensures old(frame).None? ==> outcome == Fail(InternalError(ERR_NOT_ACTIVE))
      ensures old(frame).Some? && display > DISPLAY_MAX_SIZE ==> outcome == Fail(InternalError(ERR_BOUNDS))
      ensures outcome.Fail? || (display == old(state) && focusDisplay == old(focus)) ==> unchanged(this)
      ensures outcome.Pass? ==> state == display && focus == focusDisplay
      ensures outcome.Pass? && IsElementView(display) && (display != old(state) || focusDisplay != old(focus)) ==>
        elementFocused[DISPLAY_MENU] == !focusDisplay && elementFocused[display] == focusDisplay
      ensures outcome.Pass? && (display != old(state) || focusDisplay != old(focus)) ==>
        layoutAdjusts == old(layoutAdjusts) + 1 &&
        titleSets == old(titleSets) + (if display == DISPLAY_MAX_SIZE then 0 else 1)
      ensures frame == old(frame) && statusActive == old(statusActive) && bindingsPushed == old(bindingsPushed)
      ensures settings == old(settings)
    {
      if frame.None? {
        return Fail(InternalError(ERR_NOT_ACTIVE));
      }
      if display > DISPLAY_MAX_SIZE {
        return Fail(InternalError(ERR_BOUNDS));
      }
      if focusDisplay == focus && display == state {
        return Pass;
      }
      Switch(display, focusDisplay);
      outcome := Pass;
    }

    /** The switch itself: leave the element view shown, if any, then
        enter `display`. */
    method Switch(display: nat, focusDisplay: bool)
      requires Valid() && frame.Some? && display <= DISPLAY_MAX_SIZE
      modifies this
      ensures Valid()
      ensures state == display && focus == focusDisplay
      ensures IsElementView(display) ==>
        elementFocused[DISPLAY_MENU] == !focusDisplay && elementFocused[display] == focusDisplay
      ensures layoutAdjusts == old(layoutAdjusts) + 1
      ensures titleSets == old(titleSets) + (if display == DISPLAY_MAX_SIZE then 0 else 1)
      ensures frame == old(frame) && statusActive == old(statusActive) && bindingsPushed == old(bindingsPushed)
      ensures settings == old(settings)
    {
      var active := Entered(Left(elementActive, state), display);
      var focused := elementFocused;
      if IsElementView(display) {
        focused := focused[DISPLAY_MENU := !focusDisplay][display := focusDisplay];
      }
      var titles := if display == DISPLAY_MAX_SIZE then titleSets else titleSets + 1;
      state, focus, detailColumns, elementActive, elementFocused, titleSets, layoutAdjusts :=
        display, focusDisplay, IsElementView(display), active, focused, titles, layoutAdjusts + 1;
    }

    /** `activate`: take `f`, split it, show the status window and the
        peer list beside an unfocused menu; an active screen is an
        error. */
    method Activate(f: FrameRef) returns (outcome: Outcome)
      requires Valid()
      modifies this
      ensures Valid()
      ensures outcome.Fail? <==> old(frame).Some?
      ensures outcome.Fail? ==> outcome.error == InternalError(ERR_ACTIVATE) && unchanged(this)
      ensures outcome.Pass? ==>
        frame == Some(f) && bindingsPushed && statusActive &&
        state == DISPLAY_PEER_LIST && !focus && elementActive[DISPLAY_PEER_LIST]
    {
      if frame.Some? {
        return Fail(InternalError(ERR_ACTIVATE));
      }
      bindingsPushed := true;
      frame := Some(f);
      statusActive := true;
      outcome := ActivateDisplay(DISPLAY_PEER_LIST, false);
    }

    /** `disable`: hide the top row, stop the status window and give the
        frame back; an inactive screen is an error. */
    method Disable() returns (outcome: Outcome)
      requires Valid()
      modifies this
      ensures Valid()
      ensures outcome.Fail? <==> old(frame).None?
      ensures outcome.Fail? ==> outcome.error == InternalError(ERR_DISABLE) && unchanged(this)
      ensures outcome.Pass? ==>
        frame.None? && !bindingsPushed && !statusActive && state == DISPLAY_MAX_SIZE &&
        forall k :: 0 <= k < DISPLAY_MAX_SIZE ==> !elementActive[k]
    {
      if frame.None? {
        return Fail(InternalError(ERR_DISABLE));
      }
      bindingsPushed := false;
      outcome := ActivateDisplay(DISPLAY_MAX_SIZE, true);
      statusActive := false;
      frame := None;
    }

    /** The key handlers below change the download's settings and the
        status window's dirty flag, and nothing of the screen. */
    twostate predicate ScreenKept()
      reads this
    {
      state == old(state) && focus == old(focus) && frame == old(frame) &&
      detailColumns == old(detailColumns) &&
      elementActive == old(elementActive) && elementFocused == old(elementFocused) &&
      statusActive == old(statusActive) && bindingsPushed == old(bindingsPushed) &&
      titleSets == old(titleSets) && layoutAdjusts == old(layoutAdjusts)
    }

    method ReceiveMaxUploads(t: int)
      modifies this
      ensures settings == old(settings).(uploadsMax := Adjusted(old(settings).uploadsMax, t, 0)) && statusDirty
      ensures Valid() == old(Valid()) && ScreenKept()
    {
      statusDirty := true;
      settings := settings.(uploadsMax := Adjusted(settings.uploadsMax, t, 0));
    }

    method ReceiveMinUploads(t: int)
      modifies this
      ensures settings == old(settings).(uploadsMin := Adjusted(old(settings).uploadsMin, t, 0)) && statusDirty
      ensures Valid() == old(Valid()) && ScreenKept()
    {
      statusDirty := true;
      settings := settings.(uploadsMin := Adjusted(settings.uploadsMin, t, 0));
    }

    method ReceiveMaxDownloads(t: int)
      modifies this
      ensures settings == old(settings).(downloadsMax := Adjusted(old(settings).downloadsMax, t, 0)) && statusDirty
      ensures Valid() == old(Valid()) && ScreenKept()
    {
      statusDirty := true;
      settings := settings.(downloadsMax := Adjusted(settings.downloadsMax, t, 0));
    }

    method ReceiveMinDownloads(t: int)
      modifies this
      ensures settings == old(settings).(downloadsMin := Adjusted(old(settings).downloadsMin, t, 0)) && statusDirty
      ensures Valid() == old(Valid()) && ScreenKept()
    {
      statusDirty := true;
      settings := settings.(downloadsMin := Adjusted(settings.downloadsMin, t, 0));
    }

    method ReceiveMinPeers(t: int)
      modifies this
      ensures settings == old(settings).(peersMin := Adjusted(old(settings).peersMin, t, MIN_PEERS)) && statusDirty
      ensures Valid() == old(Valid()) && ScreenKept()
    {
      statusDirty := true;
      settings := settings.(peersMin := Adjusted(settings.peersMin, t, MIN_PEERS));
    }

    method ReceiveMaxPeers(t: int)
      modifies this
      ensures settings == old(settings).(peersMax := Adjusted(old(settings).peersMax, t, MIN_PEERS)) && statusDirty
      ensures Valid() == old(Valid()) && ScreenKept()
    {
      statusDirty := true;
      settings := settings.(peersMax := Adjusted(settings.peersMax, t, MIN_PEERS));
    }

    method ReceiveNextPriority()
      modifies this
      ensures settings == old(settings).(priority := NextPriority(old(settings).priority))
      ensures statusDirty == old(statusDirty)
      ensures Valid() == old(Valid()) && ScreenKept()
    {
      settings := settings.(priority := NextPriority(settings.priority));
    }
  }
}

=== FILE: element_file_list.dfy ===
/** The file list of one download (`ui::ElementFileList`).

    The list is walked by a cursor over the file list's entries: a
    directory entry or a file.  The file list is flattened into a sequence
    of entries; the cursor is an index into it, the list's end iterator is
    the index one past the last entry.  For every entry the file list also
    says which file it stands for (a directory stands for the first file
    below it) and where `forward_current_depth` lands from it. */
module FileListElement {
  import opened Failures

  const TWO_POW_32: nat := 0x1_0000_0000

  const ERR_ACTIVE := "ui::ElementFileList::activate(...) is_active()."
  const ERR_INACTIVE := "ui::ElementFileList::disable(...) !is_active()."

  datatype Entry = Entry(file: nat, isFile: bool, next: nat)

  /** `m_state`. */
  datatype FileDisplay = Info | List | Hidden

  /** What the element's frame currently shows. */
  datatype Shown = Nothing | ListWindow | InfoElement

  /** Identity of a `display::Frame`. */
  type FrameRef = nat

  /** The priority a key press on the selection switches to: one step
      down, wrapping from off to high. */
  function NextPriority(p: nat): (r: nat)
    ensures r < 3
    ensures p < 3 ==> r != p
    ensures p == 0 ==> r == 2
    ensures 0 < p < 3 ==> r == p - 1
  {
    (p + 2) % 3
  }

  /** Three presses bring every priority back. */
  lemma {:induction false} PriorityCycle(p: nat)
    requires p < 3
    ensures NextPriority(NextPriority(NextPriority(p))) == p
  {
  }

  /** `receive_next` in the expanded view: one step on, from the last
      entry back to the first. */
  function StepForward(i: nat, n: nat): (r: nat)
    requires i < n
    ensures r < n
  {
    if i + 1 == n then 0 else i + 1
  }

  /** `receive_prev` in the expanded view: one step back, from the first
      entry round to the last. */
  function StepBack(i: nat, n: nat): (r: nat)
    requires i < n
    ensures r < n
  {
    if i == 0 then n - 1 else i - 1
  }

  /** Stepping forward and back again returns to the same entry, both
      ways round. */
  lemma {:induction false} StepsInverse(i: nat, n: nat)
    requires i < n
    ensures StepBack(StepForward(i, n), n) == i
    ensures StepForward(StepBack(i, n), n) == i
  {
  }

  /** Entries a page key moves over: `(height - 1) / 2` with the
      subtraction in `unsigned`, so an empty window pages by 2^31 - 1. */
  function PageStep(height: nat): (r: nat)
    ensures height > 0 ==> 2 * r <= height - 1
    ensures 0 < height <= TWO_POW_32 ==> 2 * r <= height - 1 < 2 * r + 2
    ensures height == 0 ==> r == (TWO_POW_32 - 1) / 2
  {
    ((height + TWO_POW_32 - 1) % TWO_POW_32) / 2
  }

  /** `receive_pagenext`: from the last entry to the first; otherwise on by
      a page, stopping at the last entry. */
  function PageForward(i: nat, n: nat, step: nat): (r: nat)
    requires i < n
    ensures r < n
    ensures i == n - 1 ==> r == 0
    ensures i < n - 1 ==> r == if i + step < n then i + step else n - 1
  {
    if i == n - 1 then 0
    else
      var j := if i + step < n then i + step else n;
      if j == n then n - 1 else j
  }

  /** `receive_pageprev`: from the first entry to the last; otherwise back
      by a page, stopping at the first entry. */
  function PageBack(i: nat, n: nat, step: nat): (r: nat)
    requires i < n
    ensures r < n
    ensures i == 0 ==> r == n - 1
    ensures i > 0 ==> r == if i >= step then i - step else 0
  {
    if i == 0 then n - 1 else if i >= step then i - step else 0
  }

  /** The entries as the file list provides them: at least one, each
      naming an existing file and jumping forward within the list. */
  predicate WellFormed(entries: seq<Entry>, files: nat) {
    |entries| > 0 &&
    forall i :: 0 <= i < |entries| ==>
      entries[i].file < files && i < entries[i].next <= |entries|
  }

  /** File `f` is one of the file entries in `[first, last)`. */
  predicate Covers(entries: seq<Entry>, first: nat, last: nat, f: nat)
    requires last <= |entries|
  {
    exists i :: first <= i < last && entries[i].isFile && entries[i].file == f
  }

  class ElementFileList {
    const entries: seq<Entry>
    /** Each file's priority, indexed by file. */
    var priorities: seq<nat>
    /** `m_selected`. */
    var selected: nat
    /** `m_collapsed`. */
    var collapsed: bool
    var state: FileDisplay
    /** `m_window != nullptr`, and whether that window is active. */
    var window: bool
    var windowActive: bool
    var windowHeight: nat
    /** `m_elementInfo != nullptr`, and whether it is shown. */
    var info: bool
    var infoActive: bool
    /** `m_frame`, and what it shows. */
    var frame: Option<FrameRef>
    var shown: Shown
    /** The key bindings are on the input stack. */
    var bindingsPushed: bool
    /** Calls of `adjust_layout`. */
    var layoutAdjusts: nat

    /** The cursor is on an entry, and each view shows what it should. */
    ghost predicate Consistent()
      reads this
    {
      WellFormed(entries, |priorities|) &&
      selected < |entries| &&
      (state == List ==> window && frame.Some? && windowActive && !infoActive && shown == ListWindow) &&
      (state == Info ==> info && frame.Some? && infoActive && shown == InfoElement) &&
      (state == Hidden ==> !infoActive)
    }

    /** Besides, the window, the info element and the frame exist while
        a view is shown, and only then. */
    ghost predicate Valid()
      reads this
    {
      Consistent() &&
      (state == Hidden <==> !window) &&
      (window <==> info) && (window <==> frame.Some?) &&
      (state != List ==> !windowActive)
    }

    /** A new element: cursor on the first entry, nothing shown. */
    constructor (entries: seq<Entry>, priorities: seq<nat>)
      requires WellFormed(entries, |priorities|)
      ensures Valid()
      ensures this.entries == entries && this.priorities == priorities
      ensures selected == 0 && !collapsed && state == Hidden && !window && !bindingsPushed
    {
      this.entries := entries;
      this.priorities := priorities;
      selected := 0;
      collapsed := false;
      state := Hidden;
      window, windowActive, windowHeight := false, false, 0;
      info, infoActive := false, false;
      frame, shown := None, Nothing;
      bindingsPushed := false;
      layoutAdjusts := 0;
    }

    /** `activate_display`: leave the current view and enter `display`;
        asking for the view already shown does nothing. */
    method ActivateDisplay(display: FileDisplay)
      requires Consistent()
      requires display != state && display == List ==> window && frame.Some?
      requires display != state && display == Info ==> info && frame.Some?
      modifies this
      ensures Consistent()
      ensures state == display
      ensures old(state) == display ==> unchanged(this)
      ensures old(state) != display ==> layoutAdjusts == old(layoutAdjusts) + 1
      ensures display != List && old(state) == List ==> !windowActive
      ensures display != List && old(state) != List ==> windowActive == old(windowActive)
      ensures display != Info ==> !infoActive
      ensures window == old(window) && frame == old(frame) && info == old(info)
      ensures selected == old(selected) && priorities == old(priorities) && collapsed == old(collapsed)
      ensures bindingsPushed == old(bindingsPushed) && windowHeight == old(windowHeight)
    {
      if display == state {
        return;
      }
      match state {
        case Info => infoActive := false; shown := Nothing;
        case List => windowActive := false; shown := Nothing;
        case Hidden =>
      }
      state := display;
      match state {
        case Info => infoActive := true; shown := InfoElement;
        case List => windowActive := true; shown := ListWindow;
        case Hidden =>
      }
      layoutAdjusts := layoutAdjusts + 1;
    }

    /** `activate`: create the window and the info element in `frame`
        and show the list; an active element is an error. */
    method Activate(f: FrameRef, focus: bool, height: nat) returns (outcome: Outcome)
      requires Valid()
      modifies this
      ensures Valid()
      ensures outcome.Fail? <==> old(window)
      ensures outcome.Fail? ==> outcome.error == InternalError(ERR_ACTIVE) && unchanged(this)
      ensures outcome.Pass? ==>
        window && info && frame == Some(f) && state == List && shown == ListWindow &&
        windowHeight == height && bindingsPushed == (old(bindingsPushed) || focus)
      ensures selected == old(selected) && priorities == old(priorities)
    {
      if window {
        return Fail(InternalError(ERR_ACTIVE));
      }
      if focus {
        bindingsPushed := true;
      }
      window, windowActive, windowHeight := true, true, height;
      info, infoActive := true, false;
      frame := Some(f);
      ActivateDisplay(List);
      outcome := Pass;
    }

    /** `disable`: hide everything and drop the window, the info element
        and the frame; an inactive element is an error. */
    method Disable() returns (outcome: Outcome)
      requires Valid()
      modifies this
      ensures Valid()
      ensures outcome.Fail? <==> !old(window)
      ensures outcome.Fail? ==> outcome.error == InternalError(ERR_INACTIVE) && unchanged(this)
      ensures outcome.Pass? ==>
        state == Hidden && !window && !info && frame.None? && shown == Nothing && !bindingsPushed
      ensures selected == old(selected) && priorities == old(priorities)
    {
      if !window {
        return Fail(InternalError(ERR_INACTIVE));
      }
      bindingsPushed := false;
      ActivateDisplay(Hidden);
      shown := Nothing;
      frame := None;
      window, windowActive := false, false;
      info, infoActive := false, false;
      outcome := Pass;
    }

    /** `receive_next`: one entry on (expanded) or past the current
        subtree (collapsed), wrapping from the end to the first entry. */
    method ReceiveNext()
      requires Valid() && window
      modifies this
      ensures Valid()
      ensures !collapsed ==> selected == StepForward(old(selected), |entries|)
      ensures collapsed ==>
        selected == if entries[old(selected)].next == |entries| then 0 else entries[old(selected)].next
      ensures selected < |entries|
      ensures priorities == old(priorities) && state == old(state) && window == old(window)
    {
      if collapsed {
        selected := entries[selected].next;
      } else {
        selected := selected + 1;
      }
      if selected == |entries| {
        selected := 0;
      }
    }

    /** `receive_prev`, expanded view: one entry back, wrapping from the
        first entry to the last. */
    method ReceivePrev()
      requires Valid() && window && !collapsed
      modifies this
      ensures Valid()
      ensures selected == StepBack(old(selected), |entries|)
      ensures priorities == old(priorities) && state == old(state) && window == old(window)
    {
      var at := selected;
      if at == 0 {
        at := |entries|;
      }
      selected := at - 1;
    }

    /** `receive_pagenext`: a page on, as `PageForward`. */
    method ReceivePageNext()
      requires Valid() && window
      modifies this
      ensures Valid()
      ensures selected == PageForward(old(selected), |entries|, PageStep(windowHeight))
      ensures priorities == old(priorities) && state == old(state) && window == old(window)
    {
      if selected == |entries| - 1 {
        selected := 0;
      } else {
        var step := PageStep(windowHeight);
        var at := if selected + step < |entries| then selected + step else |entries|;
        if at == |entries| {
          at := |entries| - 1;
        }
        selected := at;
      }
    }

    /** `receive_pageprev`: without a window nothing happens; otherwise a
        page back, as `PageBack`. */
    method ReceivePagePrev()
      requires Valid()
      modifies this
      ensures Valid()
      ensures !old(window) ==> unchanged(this)
      ensures old(window) ==> selected == PageBack(old(selected), |entries|, PageStep(windowHeight))
      ensures priorities == old(priorities) && state == old(state) && window == old(window)
    {
      if !window {
        return;
      }
      if selected == 0 {
        selected := |entries| - 1;
      } else {
        var step := PageStep(windowHeight);
        selected := if selected >= step then selected - step else 0;
      }
    }

    /** `receive_select`: from the list, a directory in the collapsed view
        moves the cursor one entry on; anything else shows the info of the
        selected entry. Without a window, or away from the list, nothing
        happens. */
    method ReceiveSelect()
      requires Valid()
      modifies this
      ensures Valid()
      ensures old(window) && old(state) == List && collapsed && !entries[old(selected)].isFile ==>
        selected == StepForward(old(selected), |entries|) && state == List
      ensures old(window) && old(state) == List && !(collapsed && !entries[old(selected)].isFile) ==>
        selected == old(selected) && state == Info
      ensures !(old(window) && old(state) == List) ==> unchanged(this)
      ensures priorities == old(priorities) && collapsed == old(collapsed) && window == old(window)
    {
      if !window || state != List {
        return;
      }
      if collapsed && !entries[selected].isFile {
        selected := selected + 1;
        if selected == |entries| {
          selected := 0;
        }
      } else {
        ActivateDisplay(Info);
      }
    }

    /** `receive_priority`: every file entry from the selection up to where
        `forward_current_depth` lands gets the selected file's next
        priority; all other files keep theirs. */
    method ReceivePriority()
      requires Valid()
      modifies this
      ensures Valid()
      ensures !old(window) ==> unchanged(this)
      ensures old(window) ==>
        var p := NextPriority(old(priorities)[entries[selected].file]);
        |priorities| == |old(priorities)| &&
        forall f :: 0 <= f < |priorities| ==>
          priorities[f] == if Covers(entries, selected, entries[selected].next, f) then p else old(priorities)[f]
      ensures selected == old(selected) && state == old(state) && window == old(window)
    {
      if !window {
        return;
      }
      var p := NextPriority(priorities[entries[selected].file]);
      var last := entries[selected].next;
      var i := selected;
      while i != last
        invariant selected <= i <= last
        invariant Valid() && window
        invariant |priorities| == |old(priorities)|
        invariant forall f :: 0 <= f < |priorities| ==>
          priorities[f] == if Covers(entries, selected, i, f) then p else old(priorities)[f]
        invariant selected == old(selected) && state == old(state)
        decreases last - i
      {
        if entries[i].isFile {
          priorities := priorities[entries[i].file := p];
        }
        i := i + 1;
      }
    }

    /** `receive_change_all`: every file gets the selected file's next
        priority. */
    method ReceiveChangeAll()
      requires Valid()
      modifies this
      ensures Valid()
      ensures !old(window) ==> unchanged(this)
      ensures old(window) ==>
        |priorities| == |old(priorities)| &&
        forall f :: 0 <= f < |priorities| ==> priorities[f] == NextPriority(old(priorities)[entries[selected].file])
      ensures selected == old(selected) && state == old(state) && window == old(window)
    {
      if !window {
        return;
      }
      var p := NextPriority(priorities[entries[selected].file]);
      var f := 0;
      while f < |priorities|
        invariant 0 <= f <= |priorities|
        invariant Valid() && window
        invariant |priorities| == |old(priorities)|
        invariant forall g :: 0 <= g < f ==> priorities[g] == p
        invariant selected == old(selected) && state == old(state)
      {
        priorities := priorities[f := p];
        f := f + 1;
      }
    }

    /** `receive_collapse`: with a window, switch between the expanded and
        the collapsed view. */
    method ReceiveCollapse()
      requires Valid()
      modifies this
      ensures Valid()
      ensures collapsed == (old(collapsed) != old(window))
      ensures selected == old(selected) && priorities == old(priorities) && state == old(state)
    {
      if !window {
        return;
      }
      collapsed := !collapsed;
    }
  }
}

=== FILE: exec_file.dfy ===
/** Building the argument vector of `rpc::ExecFile::execute_object`, choosing
    its result, and the descriptor filter of `close_all_fds`.

    The arguments arrive as one torrent object: a list whose entries become
    argv entries, or a single string. String entries are passed as they are;
    every other entry, and a string that starts with `~` when tilde expansion
    is asked for, is rendered by `print_object` into a shared value buffer,
    each text followed by a NUL, and its argv entry points into that buffer.
    argv has room for `MAX_ARGS` pointers including the terminating null.

    `print_object` and the process execution itself (`ExecFile::execute`:
    fork, exec, pipe, wait) are parameters of the model. */
module Exec {
  import opened Failures

  const MAX_ARGS: nat := 128
  const BUFFER_SIZE: nat := 4096

  const ERR_TOO_FEW: string := "Too few arguments."
  const ERR_TOO_MANY: string := "Too many arguments."
  const ERR_OVERFLOW: string := "Overflowed execute arg buffer."
  const ERR_BAD_RETURN: string := "Bad return code."
  /** What a torrent object's string accessor throws for another type. */
  const ERR_WRONG_TYPE: string := "Wrong object type."

  datatype Object =
    | Str(s: string)
    | Value(i: int)
    | List(items: seq<Object>)
    | Dict(entries: map<string, Object>)

  /** The execute flags `flag_expand_tilde`, `flag_throw`, `flag_capture`
      and `flag_background`. */
  datatype Flags = Flags(expandTilde: bool, throwOnError: bool, capture: bool, background: bool)

  /** An argv pointer: to a string argument itself, to an offset of the value
      buffer, or the terminating null. */
  datatype Arg = Verbatim(text: string) | Rendered(offset: nat) | Null

  /** argv, with the filled part of the value buffer. */
  datatype Argv = Argv(args: seq<Arg>, values: seq<char>)

  /** What running the command gives back: the wait status and, with
      `flag_capture`, the child's standard output. */
  datatype Execution = Execution(status: int, captured: string)

  predicate StartsWithTilde(s: string) {
    |s| > 0 && s[0] == '~'
  }

  /** A string argument is handed over as it is, unless tilde expansion is
      asked for and it starts with `~`. */
  predicate PassedVerbatim(o: Object, flags: Flags) {
    o.Str? && !(flags.expandTilde && StartsWithTilde(o.s))
  }

  /** What one list entry adds to the value buffer: nothing, or its rendered
      text and a NUL. */
  function Piece(o: Object, flags: Flags, render: Object -> string): (p: seq<char>)
    ensures PassedVerbatim(o, flags) ==> p == []
    ensures !PassedVerbatim(o, flags) ==> |p| == |render(o)| + 1 && p[|render(o)|] == '\0'
  {
    if PassedVerbatim(o, flags) then [] else render(o) + ['\0']
  }

  /** The value buffer after rendering `items` one after another. */
  function Values(items: seq<Object>, flags: Flags, render: Object -> string): seq<char>
  {
    if items == [] then []
    else Values(items[..|items| - 1], flags, render) + Piece(items[|items| - 1], flags, render)
  }

  /** The argv entries for `items`, without the terminating null. */
  function Args(items: seq<Object>, flags: Flags, render: Object -> string): seq<Arg>
  {
    if items == [] then []
    else
      var prefix := items[..|items| - 1];
      var o := items[|items| - 1];
      Args(prefix, flags, render)
        + [if PassedVerbatim(o, flags) then Verbatim(o.s) else Rendered(|Values(prefix, flags, render)|)]
  }

  /** The outcome of building argv, stated as a whole: an empty list is
      refused, then a list whose first `MAX_ARGS - 1` entries fill the value
      buffer, then a list with more entries than argv can hold. A single
      string gives one argument; it is rendered without any check on the
      buffer. */
  function ArgvOf(raw: Object, flags: Flags, render: Object -> string): Result<Argv>
  {
    match raw
    case List(items) =>
      if items == [] then Err(InputError(ERR_TOO_FEW))
      else if |Values(items[..Min(|items|, MAX_ARGS - 1)], flags, render)| >= BUFFER_SIZE
      then Err(InputError(ERR_OVERFLOW))
      else if |items| >= MAX_ARGS then Err(InputError(ERR_TOO_MANY))
      else Ok(Argv(Args(items, flags, render) + [Null], Values(items, flags, render)))
    case Str(s) =>
      if flags.expandTilde && StartsWithTilde(s)
      then Ok(Argv([Rendered(0), Null], render(raw) + ['\0']))
      else Ok(Argv([Verbatim(s), Null], []))
    case _ => Err(BencodeError(ERR_WRONG_TYPE))
  }

  function Min(a: int, b: int): int {
    if a <= b then a else b
  }

  /** `execute_object`'s argv construction for either form of argument. */
  method BuildArgv(raw: Object, flags: Flags, render: Object -> string) returns (r: Result<Argv>)
    ensures r == ArgvOf(raw, flags, render)
  {
    match raw {
      case List(items) =>
        if items == [] {
          return Err(InputError(ERR_TOO_FEW));
        }
        r := BuildListArgv(items, flags, render);
      case Str(s) =>
        if flags.expandTilde && StartsWithTilde(s) {
          return Ok(Argv([Rendered(0), Null], render(raw) + ['\0']));
        }
        return Ok(Argv([Verbatim(s), Null], []));
      case Value(_) =>
        return Err(BencodeError(ERR_WRONG_TYPE));
      case Dict(_) =>
        return Err(BencodeError(ERR_WRONG_TYPE));
    }
  }

  /** The argv loop: each list entry is checked against the argv bound, then
      placed, and a rendered entry is checked against the buffer end. */
  method BuildListArgv(items: seq<Object>, flags: Flags, render: Object -> string) returns (r: Result<Argv>)
    requires items != []
    ensures r == ArgvOf(List(items), flags, render)
  {
    var args: seq<Arg> := [];
    var values: seq<char> := [];
    var i := 0;
    while i < |items|
      invariant 0 <= i <= |items| && i <= MAX_ARGS - 1
      invariant args == Args(items[..i], flags, render)
      invariant values == Values(items[..i], flags, render)
      invariant |values| < BUFFER_SIZE
    {
      if i == MAX_ARGS - 1 {
        return Err(InputError(ERR_TOO_MANY));
      }
      var o := items[i];
      assert items[..i + 1][..i] == items[..i];
      if PassedVerbatim(o, flags) {
        args := args + [Verbatim(o.s)];
      } else {
        args := args + [Rendered(|values|)];
        values := values + render(o) + ['\0'];
        if |values| >= BUFFER_SIZE {
          ValuesGrow(items, flags, render, i + 1, Min(|items|, MAX_ARGS - 1));
          return Err(InputError(ERR_OVERFLOW));
        }
      }
      i := i + 1;
    }
    assert items[..i] == items;
    return Ok(Argv(args + [Null], values));
  }

  /** The value buffer only grows as more entries are rendered. */
  lemma {:induction false} ValuesGrow(items: seq<Object>, flags: Flags, render: Object -> string, j: nat, k: nat)
    requires j <= k <= |items|
    ensures Values(items[..j], flags, render) <= Values(items[..k], flags, render)
    decreases k - j
  {
    if j < k {
      ValuesGrow(items, flags, render, j + 1, k);
      assert items[..j + 1][..j] == items[..j];
    }
  }

  /** argv and the value buffer of a prefix of the list are prefixes of those
      of the whole list. */
  lemma {:induction false} ArgsPrefix(items: seq<Object>, flags: Flags, render: Object -> string, j: nat)
    requires j <= |items|
    ensures |Args(items, flags, render)| == |items|
    ensures Args(items[..j], flags, render) <= Args(items, flags, render)
    ensures Values(items[..j], flags, render) <= Values(items, flags, render)
    decreases |items|
  {
    if items != [] {
      var prefix := items[..|items| - 1];
      if j == |items| {
        assert items[..j] == items;
        ArgsPrefix(prefix, flags, render, 0);
      } else {
        assert prefix[..j] == items[..j];
        ArgsPrefix(prefix, flags, render, j);
      }
    }
  }

  /** The middle part of a concatenation is where it was put. */
  lemma {:induction false} MiddleSlice<T>(a: seq<T>, b: seq<T>, c: seq<T>)
    ensures (a + (b + c))[|a|..|a| + |b|] == b
  {
    var s := a + (b + c);
    forall i | 0 <= i < |b|
      ensures s[|a|..|a| + |b|][i] == b[i]
    {
      assert s[|a| + i] == b[i];
    }
  }

  /** A slice within a prefix is the same slice of the whole. */
  lemma {:induction false} PrefixSlice<T>(part: seq<T>, whole: seq<T>, i: nat, j: nat)
    requires part <= whole && i <= j <= |part|
    ensures whole[i..j] == part[i..j]
  {
    forall m | 0 <= m < j - i
      ensures whole[i..j][m] == part[i..j][m]
    {
      assert whole[i + m] == part[i + m];
    }
  }

  /** Where list entry `k` ends up: a string passed as it is, or a pointer
      to its rendered text, which the buffer holds NUL-terminated. */
  lemma {:induction false} EntryLayout(items: seq<Object>, flags: Flags, render: Object -> string, k: nat)
    requires k < |items|
    ensures |Args(items, flags, render)| == |items|
    ensures PassedVerbatim(items[k], flags) ==>
              Args(items, flags, render)[k] == Verbatim(items[k].s)
    ensures !PassedVerbatim(items[k], flags) ==>
              var off := |Values(items[..k], flags, render)|;
              var text := render(items[k]);
              && Args(items, flags, render)[k] == Rendered(off)
              && off + |text| < |Values(items, flags, render)|
              && Values(items, flags, render)[off..off + |text|] == text
              && Values(items, flags, render)[off + |text|] == '\0'
  {
    ArgsPrefix(items, flags, render, k + 1);
    ArgsPrefix(items[..k], flags, render, 0);
    var upTo := items[..k + 1];
    assert upTo[..k] == items[..k];
    assert upTo[k] == items[k];
    var whole := Values(items, flags, render);
    var part := Values(upTo, flags, render);
    assert part == Values(items[..k], flags, render) + Piece(items[k], flags, render);
    assert Args(items, flags, render)[k] == Args(upTo, flags, render)[k];
    if !PassedVerbatim(items[k], flags) {
      var off := |Values(items[..k], flags, render)|;
      var text := render(items[k]);
      assert Piece(items[k], flags, render) == text + ['\0'];
      MiddleSlice(Values(items[..k], flags, render), text, ['\0']);
      PrefixSlice(part, whole, off, off + |text|);
    }
  }

  /** A list argument that is accepted gives at most `MAX_ARGS - 1`
      entries, one per list element, followed by the null pointer and
      nothing after it, and its rendered texts fit the value buffer. */
  lemma {:induction false} ListArgvBounded(items: seq<Object>, flags: Flags, render: Object -> string)
    requires ArgvOf(List(items), flags, render).Ok?
    ensures var a := ArgvOf(List(items), flags, render).value;
            && 1 < |a.args| <= MAX_ARGS
            && |a.args| == |items| + 1
            && a.args[|items|] == Null
            && Null !in a.args[..|items|]
            && |a.values| < BUFFER_SIZE
  {
    ArgsPrefix(items, flags, render, 0);
    assert items[..Min(|items|, MAX_ARGS - 1)] == items;
    var a := ArgvOf(List(items), flags, render).value;
    assert a.args[..|items|] == Args(items, flags, render);
    forall k | 0 <= k < |items|
      ensures a.args[k] != Null
    {
      EntryLayout(items, flags, render, k);
    }
  }

  /** An empty list is refused; a list is refused for its length exactly
      when it has `MAX_ARGS` entries or more and the entries before the
      last argv slot fit the value buffer. */
  lemma {:induction false} ListArgvErrors(items: seq<Object>, flags: Flags, render: Object -> string)
    ensures items == [] ==> ArgvOf(List(items), flags, render) == Err(InputError(ERR_TOO_FEW))
    ensures |items| >= MAX_ARGS && |Values(items[..MAX_ARGS - 1], flags, render)| < BUFFER_SIZE ==>
              ArgvOf(List(items), flags, render) == Err(InputError(ERR_TOO_MANY))
    ensures |items| >= MAX_ARGS && ArgvOf(List(items), flags, render).Ok? ==> false
    ensures (forall k :: 0 <= k < |items| ==> PassedVerbatim(items[k], flags)) ==>
              ArgvOf(List(items), flags, render).Err? ==> items == [] || |items| >= MAX_ARGS
  {
    if forall k :: 0 <= k < |items| ==> PassedVerbatim(items[k], flags) {
      VerbatimNeedsNoBuffer(items[..Min(|items|, MAX_ARGS - 1)], flags, render);
    }
  }

  /** Strings passed as they are take no room in the value buffer. */
  lemma {:induction false} VerbatimNeedsNoBuffer(items: seq<Object>, flags: Flags, render: Object -> string)
    requires forall k :: 0 <= k < |items| ==> PassedVerbatim(items[k], flags)
    ensures Values(items, flags, render) == []
    decreases |items|
  {
    if items != [] {
      VerbatimNeedsNoBuffer(items[..|items| - 1], flags, render);
    }
  }

  /** A single string becomes exactly one argument: itself, or a pointer to
      the start of the value buffer holding its rendering. */
  lemma {:induction false} StringArgv(s: string, flags: Flags, render: Object -> string)
    ensures ArgvOf(Str(s), flags, render).Ok?
    ensures var a := ArgvOf(Str(s), flags, render).value;
            && |a.args| == 2 && a.args[1] == Null
            && (a.args[0] == Verbatim(s) <==> !(flags.expandTilde && StartsWithTilde(s)))
            && (a.args[0] == Rendered(0) <==> flags.expandTilde && StartsWithTilde(s))
  {
  }

  /** `execute_object`: build argv, run it, then choose the result. With
      `flag_throw` a nonzero status is an error; otherwise `flag_capture`
      returns the captured output and the default returns the status. */
  method ExecuteObject(raw: Object, flags: Flags, render: Object -> string, run: Argv -> Execution)
    returns (r: Result<Object>)
    ensures ArgvOf(raw, flags, render).Err? ==> r == Err(ArgvOf(raw, flags, render).error)
    ensures ArgvOf(raw, flags, render).Ok? ==>
              var e := run(ArgvOf(raw, flags, render).value);
              && (r.Err? <==> flags.throwOnError && e.status != 0)
              && (r.Err? ==> r.error == InputError(ERR_BAD_RETURN))
              && (r.Ok? && flags.capture ==> r.value == Str(e.captured))
              && (r.Ok? && !flags.capture ==> r.value == Value(e.status))
  {
    var argv := BuildArgv(raw, flags, render);
    if argv.Err? {
      return Err(argv.error);
    }
    var e := run(argv.value);
    if flags.throwOnError && e.status != 0 {
      return Err(InputError(ERR_BAD_RETURN));
    }
    if flags.capture {
      return Ok(Str(e.captured));
    }
    return Ok(Value(e.status));
  }

  // The descriptor filter of close_all_fds on Linux.

  predicate IsDigit(c: char) {
    '0' <= c <= '9'
  }

  predicate AllDigits(s: string) {
    forall k :: 0 <= k < |s| ==> IsDigit(s[k])
  }

  /** The number a string of decimal digits spells. */
  function DecimalValue(s: string): int {
    if s == [] then 0
    else DecimalValue(s[..|s| - 1]) * 10 + (s[|s| - 1] as int - '0' as int)
  }

  /** The directory entry `name` of /proc/self/fd is closed exactly when it
      is a non-empty run of decimal digits naming a descriptor above standard
      error that is not the directory's own. */
  predicate Closes(name: string, dirFd: int) {
    |name| > 0 && AllDigits(name) && DecimalValue(name) > 2 && DecimalValue(name) != dirFd
  }

  /** The descriptors closed for a listing, in listing order. */
  function ClosedFds(names: seq<string>, dirFd: int): seq<int> {
    if names == [] then []
    else
      var name := names[|names| - 1];
      ClosedFds(names[..|names| - 1], dirFd)
        + (if Closes(name, dirFd) then [DecimalValue(name)] else [])
  }

  /** One directory entry: skipped unless it starts with a digit, then read
      digit by digit, and closed only when the digits reach its end. */
  method FdToClose(name: string, dirFd: int) returns (close: bool, fd: int)
    ensures close <==> Closes(name, dirFd)
    ensures close ==> fd == DecimalValue(name)
  {
    if |name| == 0 || !IsDigit(name[0]) {
      return false, 0;
    }
    var x := 0;
    var i := 0;
    while i < |name| && IsDigit(name[i])
      invariant 0 <= i <= |name|
      invariant AllDigits(name[..i])
      invariant x == DecimalValue(name[..i])
    {
      assert name[..i + 1][..i] == name[..i];
      x := x * 10 + (name[i] as int - '0' as int);
      i := i + 1;
    }
    if i == |name| {
      assert name[..i] == name;
    }
    close := i == |name| && x > 2 && x != dirFd;
    fd := x;
  }

  /** `close_all_fds` on Linux over the whole listing of /proc/self/fd: the
      filtered descriptors, then the directory itself. When the directory
      cannot be opened (`dirFd == -1`) nothing is closed. */
  method CloseAllFds(dirFd: int, names: seq<string>) returns (closed: seq<int>)
    ensures dirFd == -1 ==> closed == []
    ensures dirFd != -1 ==> closed == ClosedFds(names, dirFd) + [dirFd]
  {
    if dirFd == -1 {
      return [];
    }
    closed := [];
    var i := 0;
    while i < |names|
      invariant 0 <= i <= |names|
      invariant closed == ClosedFds(names[..i], dirFd)
    {
      assert names[..i + 1][..i] == names[..i];
      var close, fd := FdToClose(names[i], dirFd);
      if close {
        closed := closed + [fd];
      }
      i := i + 1;
    }
    assert names[..i] == names;
    closed := closed + [dirFd];
  }

  /** Every descriptor the filter closes is above standard error, is not the
      directory's own, and is the value of an all-digit entry. */
  lemma {:induction false} ClosedFdsSafe(names: seq<string>, dirFd: int)
    ensures forall fd :: fd in ClosedFds(names, dirFd) ==>
              fd > 2 && fd != dirFd
              && exists k :: 0 <= k < |names| && Closes(names[k], dirFd) && DecimalValue(names[k]) == fd
    decreases |names|
  {
    if names != [] {
      var prefix := names[..|names| - 1];
      ClosedFdsSafe(prefix, dirFd);
      forall fd | fd in ClosedFds(names, dirFd)
        ensures exists k :: 0 <= k < |names| && Closes(names[k], dirFd) && DecimalValue(names[k]) == fd
      {
        if fd in ClosedFds(prefix, dirFd) {
          var k :| 0 <= k < |prefix| && Closes(prefix[k], dirFd) && DecimalValue(prefix[k]) == fd;
          assert names[k] == prefix[k];
        } else {
          assert Closes(names[|names| - 1], dirFd) && DecimalValue(names[|names| - 1]) == fd;
        }
      }
    }
  }

  /** The decimal name of a descriptor, as /proc/self/fd lists it. */
  function DecimalName(n: nat): (s: string)
    ensures |s| > 0 && AllDigits(s)
  {
    var d := ['0', '1', '2', '3', '4', '5', '6', '7', '8', '9'][n % 10];
    if n < 10 then [d] else DecimalName(n / 10) + [d]
  }

  /** Reading back a decimal name gives the descriptor it names. */
  lemma {:induction false} DecimalRoundTrip(n: nat)
    ensures DecimalValue(DecimalName(n)) == n
  {
    var s := DecimalName(n);
    if n >= 10 {
      DecimalRoundTrip(n / 10);
      assert s[..|s| - 1] == DecimalName(n / 10);
    }
  }

  /** The entries ".", ".." and those of the standard streams are never
      closed; the entry of any other descriptor is, unless it is the
      directory's own. */
  lemma {:induction false} FilterOnNames(n: nat, dirFd: int)
    ensures !Closes(".", dirFd) && !Closes("..", dirFd)
    ensures Closes(DecimalName(n), dirFd) <==> n > 2 && n != dirFd
  {
    assert !IsDigit("."[0]);
    DecimalRoundTrip(n);
  }
}

=== FILE: failures.dfy ===
/** Error values shared by every module of the model.

    The C++ code reports programming errors with `torrent::internal_error`,
    bad user input with `torrent::input_error`, bencode type mismatches with
    `torrent::bencode_error` and a few string failures with `std::logic_error`;
    each becomes an `Error` value carried by `Result` or `Outcome`. */
module Failures {

  datatype Option<+T> = None | Some(value: T)

  datatype Error =
    | InternalError(message: string)
    | InputError(message: string)
    | LogicError(message: string)
    | BencodeError(message: string)

  /** The value a throwing C++ function returns, or what it throws. */
  datatype Result<+T> = Ok(value: T) | Err(error: Error)

  /** Completion of a throwing `void` C++ function. */
  datatype Outcome = Pass | Fail(error: Error)
}

=== FILE: frame.dfy ===
/** Screen layout (`display::Frame`).

    A frame is empty, holds one window, or is a row or a column of child
    frames.  A row stacks its children from top to bottom and shares its
    height among them; a column places them from left to right and shares
    its width.  Both containers use the same algorithm along their own axis,
    so the model states it once, parameterised by an `Axis`: `Vertical`
    (a row: y, height, `has_bottom_frame`, `is_height_dynamic`) or
    `Horizontal` (a column: x, width, `has_left_frame`, `is_width_dynamic`).

    The frame tree is a value here: balancing returns the laid-out tree, and
    a window's placement is part of the window record the frame holds. */
module Frames {
  import opened Failures

  /** `Window::extent_full`: a maximum that takes whatever is offered. */
  const EXTENT_FULL: nat := 0xFFFF_FFFF
  const TWO_POW_32: nat := 0x1_0000_0000
  /** `Frame::max_size`: capacity of a container's child array. */
  const MAX_SIZE: nat := 5

  const ERR_BAD_STATE := "Frame::set_container_size(...) Bad state."
  const ERR_WINDOW_STATE := "Frame::initialize_window(...) m_type != TYPE_NONE."
  const ERR_CONTAINER_STATE := "Frame::initialize_container(...) Invalid state."
  const ERR_CONTAINER_SIZE := "Frame::initialize_container(...) size >= max_size."

  datatype Axis = Horizontal | Vertical

  datatype Geom = Geom(x: nat, y: nat, width: nat, height: nat)

  /** What a frame asks of and does to its window: activity, size limits,
      dynamic and anchoring flags, the offscreen flag and the last resize. */
  datatype Window = Window(
    active: bool,
    minWidth: nat, minHeight: nat, maxWidth: nat, maxHeight: nat,
    widthDynamic: bool, heightDynamic: bool,
    left: bool, bottom: bool,
    offscreen: bool, placed: Geom)

  datatype Bounds = Bounds(minWidth: nat, minHeight: nat, maxWidth: nat, maxHeight: nat)

  /** `m_type` with its payload, and the frame's own `m_position*`,
      `m_width`, `m_height`. */
  datatype Frame =
    | NoFrame(geom: Geom)
    | WindowFrame(geom: Geom, window: Window)
    | Row(geom: Geom, children: seq<Frame>)
    | Column(geom: Geom, children: seq<Frame>)
  {
    predicate IsContainer() { Row? || Column? }
  }

  /** A frame as `new Frame()` leaves it. */
  const FRESH: Frame := NoFrame(Geom(0, 0, 0, 0))

  function Min(a: int, b: int): int { if a < b then a else b }
  function Max(a: int, b: int): int { if a < b then b else a }

  /** uint32 addition. */
  function Add32(a: nat, b: nat): nat { (a + b) % TWO_POW_32 }

  function Start(g: Geom, a: Axis): nat { if a.Horizontal? then g.x else g.y }
  function Extent(g: Geom, a: Axis): nat { if a.Horizontal? then g.width else g.height }
  function MinOf(b: Bounds, a: Axis): nat { if a.Horizontal? then b.minWidth else b.minHeight }
  function MaxOf(b: Bounds, a: Axis): nat { if a.Horizontal? then b.maxWidth else b.maxHeight }

  /** The axis a container shares space along. */
  function AxisOf(f: Frame): Axis
    requires f.IsContainer()
  {
    if f.Row? then Vertical else Horizontal
  }

  // ---------------------------------------------------------------------
  // Read-only folds over the tree

  /** `is_width_dynamic` (Horizontal) and `is_height_dynamic` (Vertical). */
  function IsDynamic(f: Frame, a: Axis): (b: bool)
    decreases f, 1
    ensures f.NoFrame? ==> !b
  {
    match f
    case NoFrame(_) => false
    case WindowFrame(_, w) => w.active && (if a.Horizontal? then w.widthDynamic else w.heightDynamic)
    case Row(_, _) => AnyDynamic(f, a, 0)
    case Column(_, _) => AnyDynamic(f, a, 0)
  }

  /** The loop over children from position `i` on. */
  function AnyDynamic(f: Frame, a: Axis, i: nat): (b: bool)
    requires f.IsContainer()
    decreases f, 0, |f.children| - i
    ensures b <==> exists j :: i <= j < |f.children| && IsDynamic(f.children[j], a)
  {
    if i >= |f.children| then false
    else IsDynamic(f.children[i], a) || AnyDynamic(f, a, i + 1)
  }

  /** `has_left_frame` (Horizontal) and `has_bottom_frame` (Vertical): only
      a container along the same axis looks at its children. */
  function HasAnchor(f: Frame, a: Axis): (b: bool)
    decreases f, 1
    ensures f.NoFrame? ==> !b
    ensures f.Row? && a.Horizontal? ==> !b
    ensures f.Column? && a.Vertical? ==> !b
  {
    match f
    case NoFrame(_) => false
    case WindowFrame(_, w) => w.active && (if a.Horizontal? then w.left else w.bottom)
    case Row(_, _) => a.Vertical? && AnyAnchor(f, a, 0)
    case Column(_, _) => a.Horizontal? && AnyAnchor(f, a, 0)
  }

  function AnyAnchor(f: Frame, a: Axis, i: nat): (b: bool)
    requires f.IsContainer()
    decreases f, 0, |f.children| - i
    ensures b <==> exists j :: i <= j < |f.children| && HasAnchor(f.children[j], a)
  {
    if i >= |f.children| then false
    else HasAnchor(f.children[i], a) || AnyAnchor(f, a, i + 1)
  }

  /** Folding one child's preferred bounds into the accumulator: minima add
      as uint32, a maximum of `extent_full` absorbs everything. */
  function Absorb(acc: Bounds, p: Bounds): Bounds {
    Bounds(
      Add32(acc.minWidth, p.minWidth),
      Add32(acc.minHeight, p.minHeight),
      if p.maxWidth == EXTENT_FULL || acc.maxWidth == EXTENT_FULL then EXTENT_FULL
      else Add32(acc.maxWidth, p.maxWidth),
      if p.maxHeight == EXTENT_FULL || acc.maxHeight == EXTENT_FULL then EXTENT_FULL
      else Add32(acc.maxHeight, p.maxHeight))
  }

  /** `preferred_size`. */
  function PreferredSize(f: Frame): Bounds
    decreases f, 1
  {
    match f
    case NoFrame(_) => Bounds(0, 0, 0, 0)
    case WindowFrame(_, w) =>
      if w.active then Bounds(w.minWidth, w.minHeight, w.maxWidth, w.maxHeight)
      else Bounds(0, 0, 0, 0)
    case Row(_, cs) => Accumulate(f, |cs|)
    case Column(_, cs) => Accumulate(f, |cs|)
  }

  /** The accumulator after the first `i` children. */
  function Accumulate(f: Frame, i: nat): Bounds
    requires f.IsContainer() && i <= |f.children|
    decreases f, 0, i
  {
    if i == 0 then Bounds(0, 0, 0, 0)
    else Absorb(Accumulate(f, i - 1), PreferredSize(f.children[i - 1]))
  }

  /** The plain sum of the first `i` children's preferred minima. */
  function MinSum(f: Frame, a: Axis, i: nat): nat
    requires f.IsContainer() && i <= |f.children|
  {
    if i == 0 then 0 else MinSum(f, a, i - 1) + MinOf(PreferredSize(f.children[i - 1]), a)
  }

  /** The plain sum of the first `i` children's preferred maxima. */
  function MaxSum(f: Frame, a: Axis, i: nat): nat
    requires f.IsContainer() && i <= |f.children|
  {
    if i == 0 then 0 else MaxSum(f, a, i - 1) + MaxOf(PreferredSize(f.children[i - 1]), a)
  }

  /** Some of the first `i` children prefers `extent_full`. */
  predicate SomeFull(f: Frame, a: Axis, i: nat)
    requires f.IsContainer() && i <= |f.children|
  {
    exists j :: 0 <= j < i && MaxOf(PreferredSize(f.children[j]), a) == EXTENT_FULL
  }

  lemma {:induction false} ModAdd(a: nat, b: nat)
    ensures (a % TWO_POW_32 + b) % TWO_POW_32 == (a + b) % TWO_POW_32
  {
  }

  lemma {:induction false} AccumulateMin(f: Frame, a: Axis, i: nat)
    requires f.IsContainer() && i <= |f.children|
    ensures MinOf(Accumulate(f, i), a) == MinSum(f, a, i) % TWO_POW_32
  {
    if i > 0 {
      AccumulateMin(f, a, i - 1);
      ModAdd(MinSum(f, a, i - 1), MinOf(PreferredSize(f.children[i - 1]), a));
    }
  }

  lemma {:induction false} AccumulateFull(f: Frame, a: Axis, i: nat)
    requires f.IsContainer() && i <= |f.children|
    ensures SomeFull(f, a, i) ==> MaxOf(Accumulate(f, i), a) == EXTENT_FULL
  {
    if i > 0 && SomeFull(f, a, i) {
      if !SomeFull(f, a, i - 1) {
        assert MaxOf(PreferredSize(f.children[i - 1]), a) == EXTENT_FULL;
      } else {
        AccumulateFull(f, a, i - 1);
      }
    }
  }

  lemma {:induction false} AccumulateMax(f: Frame, a: Axis, i: nat)
    requires f.IsContainer() && i <= |f.children|
    ensures (!SomeFull(f, a, i) && MaxSum(f, a, i) < EXTENT_FULL) ==>
      MaxOf(Accumulate(f, i), a) == MaxSum(f, a, i)
  {
    if i > 0 && !SomeFull(f, a, i) && MaxSum(f, a, i) < EXTENT_FULL {
      var p := PreferredSize(f.children[i - 1]);
      assert MaxOf(p, a) != EXTENT_FULL;
      assert !SomeFull(f, a, i - 1);
      AccumulateMax(f, a, i - 1);
      AbsorbMax(Accumulate(f, i - 1), p, a);
    }
  }

  /** Below `extent_full` on both sides and without overflow, absorbing
      adds the maxima. */
  lemma {:induction false} AbsorbMax(acc: Bounds, p: Bounds, a: Axis)
    requires MaxOf(acc, a) != EXTENT_FULL && MaxOf(p, a) != EXTENT_FULL
    requires MaxOf(acc, a) + MaxOf(p, a) < TWO_POW_32
    ensures MaxOf(Absorb(acc, p), a) == MaxOf(acc, a) + MaxOf(p, a)
  {
  }

  /** A container's preferred minimum is the (uint32) sum of its children's;
      its maximum is `extent_full` as soon as one child's is, and otherwise
      the sum of its children's when that sum stays below `extent_full`. */
  lemma {:induction false} ContainerPreferredSize(f: Frame, a: Axis)
    requires f.IsContainer()
    ensures MinOf(PreferredSize(f), a) == MinSum(f, a, |f.children|) % TWO_POW_32
    ensures SomeFull(f, a, |f.children|) ==> MaxOf(PreferredSize(f), a) == EXTENT_FULL
    ensures (!SomeFull(f, a, |f.children|) && MaxSum(f, a, |f.children|) < EXTENT_FULL) ==>
      MaxOf(PreferredSize(f), a) == MaxSum(f, a, |f.children|)
  {
    AccumulateMin(f, a, |f.children|);
    AccumulateFull(f, a, |f.children|);
    AccumulateMax(f, a, |f.children|);
  }

  /** An empty frame and a frame holding an inactive window ask for nothing. */
  lemma {:induction false} NothingPreferred(f: Frame)
    requires f.NoFrame? || (f.WindowFrame? && !f.window.active)
    ensures PreferredSize(f) == Bounds(0, 0, 0, 0)
    ensures !IsDynamic(f, Horizontal) && !IsDynamic(f, Vertical)
    ensures !HasAnchor(f, Horizontal) && !HasAnchor(f, Vertical)
  {
  }

  // ---------------------------------------------------------------------
  // Changing a frame's kind

  /** `initialize_window`. */
  function InitializeWindow(f: Frame, w: Window): (r: Result<Frame>)
    ensures r.Ok? <==> f.NoFrame?
    ensures r.Ok? ==> r.value == WindowFrame(f.geom, w)
    ensures r.Err? ==> r.error == InternalError(ERR_WINDOW_STATE)
  {
    if !f.NoFrame? then Err(InternalError(ERR_WINDOW_STATE))
    else Ok(WindowFrame(f.geom, w))
  }

  /** `initialize_row` (`row`) and `initialize_column` (`!row`): an empty
      frame becomes a container of `size` fresh children. */
  function InitializeContainer(f: Frame, row: bool, size: nat): (r: Result<Frame>)
    ensures r.Ok? <==> f.NoFrame? && size <= MAX_SIZE
    ensures !f.NoFrame? ==> r == Err(InternalError(ERR_CONTAINER_STATE))
    ensures f.NoFrame? && size > MAX_SIZE ==> r == Err(InternalError(ERR_CONTAINER_SIZE))
    ensures r.Ok? ==>
      r.value.IsContainer() && r.value.Row? == row && r.value.geom == f.geom &&
      |r.value.children| == size &&
      forall j :: 0 <= j < size ==> r.value.children[j] == FRESH
  {
    if !f.NoFrame? then Err(InternalError(ERR_CONTAINER_STATE))
    else if size > MAX_SIZE then Err(InternalError(ERR_CONTAINER_SIZE))
    else
      var cs := seq(size, _ => FRESH);
      Ok(if row then Row(f.geom, cs) else Column(f.geom, cs))
  }

  /** `set_container_size`: drop children from the back, or append fresh
      ones, until there are `size`. */
  function SetContainerSize(f: Frame, size: nat): (r: Result<Frame>)
    ensures r.Ok? <==> f.IsContainer() && size < MAX_SIZE
    ensures r.Err? ==> r.error == InternalError(ERR_BAD_STATE)
    ensures r.Ok? ==>
      r.value.IsContainer() && r.value.Row? == f.Row? && r.value.geom == f.geom &&
      |r.value.children| == size &&
      (forall j :: 0 <= j < size && j < |f.children| ==> r.value.children[j] == f.children[j]) &&
      (forall j :: |f.children| <= j < size ==> r.value.children[j] == FRESH)
  {
    if !f.IsContainer() || size >= MAX_SIZE then Err(InternalError(ERR_BAD_STATE))
    else
      var cs := if size <= |f.children| then f.children[..size]
                else f.children + seq(size - |f.children|, _ => FRESH);
      Ok(if f.Row? then Row(f.geom, cs) else Column(f.geom, cs))
  }

  /** The windows held in a subtree, left to right. */
  function Windows(f: Frame): seq<Window>
    decreases f, 1
  {
    match f
    case NoFrame(_) => []
    case WindowFrame(_, w) => [w]
    case Row(_, cs) => WindowsFrom(f, 0)
    case Column(_, cs) => WindowsFrom(f, 0)
  }

  function WindowsFrom(f: Frame, i: nat): seq<Window>
    requires f.IsContainer()
    decreases f, 0, |f.children| - i
  {
    if i >= |f.children| then [] else Windows(f.children[i]) + WindowsFrom(f, i + 1)
  }

  /** `clear`: the frame becomes empty, and every window it held, directly
      or through its children, is returned marked offscreen. */
  function Clear(f: Frame): (r: (Frame, seq<Window>))
    decreases f, 1
    ensures r.0 == NoFrame(f.geom)
    ensures |r.1| == |Windows(f)|
    ensures forall k :: 0 <= k < |r.1| ==> r.1[k] == Windows(f)[k].(offscreen := true)
  {
    match f
    case NoFrame(_) => (NoFrame(f.geom), [])
    case WindowFrame(_, w) => (NoFrame(f.geom), [w.(offscreen := true)])
    case Row(_, _) => (NoFrame(f.geom), ClearFrom(f, 0))
    case Column(_, _) => (NoFrame(f.geom), ClearFrom(f, 0))
  }

  function ClearFrom(f: Frame, i: nat): (ws: seq<Window>)
    requires f.IsContainer()
    decreases f, 0, |f.children| - i
    ensures |ws| == |WindowsFrom(f, i)|
    ensures forall k :: 0 <= k < |ws| ==> ws[k] == WindowsFrom(f, i)[k].(offscreen := true)
  {
    if i >= |f.children| then []
    else Clear(f.children[i]).1 + ClearFrom(f, i + 1)
  }

  // ---------------------------------------------------------------------
  // Balancing

  /** `balance_window`: no room or an inactive window only marks it
      offscreen; otherwise the window is clamped to its maximum extent, and
      a left (bottom) anchored window keeps its right (bottom) edge. */
  function BalanceWindow(w: Window, x: nat, y: nat, width: nat, height: nat): (r: Window)
    ensures width == 0 || height == 0 || !w.active ==> r == w.(offscreen := true)
    ensures w.active && width > 0 && height > 0 ==>
      !r.offscreen &&
      r.placed.width == Min(width, w.maxWidth) && r.placed.height == Min(height, w.maxHeight) &&
      (if w.left then r.placed.x + r.placed.width == x + width else r.placed.x == x) &&
      (if w.bottom then r.placed.y + r.placed.height == y + height else r.placed.y == y)
    ensures r.active == w.active && r.minWidth == w.minWidth && r.maxWidth == w.maxWidth
    ensures r == w.(offscreen := r.offscreen, placed := r.placed)
  {
    if width == 0 || height == 0 || !w.active then w.(offscreen := true)
    else
      var nx := if width > w.maxWidth && w.left then x + (width - w.maxWidth) else x;
      var nw := if width > w.maxWidth then w.maxWidth else width;
      var ny := if height > w.maxHeight && w.bottom then y + (height - w.maxHeight) else y;
      var nh := if height > w.maxHeight then w.maxHeight else height;
      w.(offscreen := false, placed := Geom(nx, ny, nw, nh))
  }

  function Sum(s: seq<nat>): nat {
    if s == [] then 0 else Sum(s[..|s| - 1]) + s[|s| - 1]
  }

  lemma {:induction false} SumUpdate(s: seq<nat>, k: nat, v: nat)
    requires k < |s|
    ensures Sum(s[k := v]) == Sum(s) - s[k] + v
    decreases |s|
  {
    var t := s[k := v];
    if k < |s| - 1 {
      assert t[..|t| - 1] == s[..|s| - 1][k := v];
      SumUpdate(s[..|s| - 1], k, v);
    } else {
      assert t[..|t| - 1] == s[..|s| - 1];
    }
  }

  lemma {:induction false} SumGrows(s: seq<nat>, t: seq<nat>)
    requires |s| == |t|
    requires forall j :: 0 <= j < |s| ==> s[j] <= t[j]
    ensures Sum(s) <= Sum(t)
    ensures s != t ==> Sum(s) < Sum(t)
    decreases |s|
  {
    if s != [] {
      var n := |s| - 1;
      SumGrows(s[..n], t[..n]);
      if s[..n] == t[..n] && s[n] == t[n] {
        assert s == s[..n] + [s[n]] && t == t[..n] + [t[n]];
      }
    }
  }

  lemma {:induction false} SumAppend(s: seq<nat>, v: nat)
    ensures Sum(s + [v]) == Sum(s) + v
  {
    assert (s + [v])[..|s|] == s;
  }

  /** The positions whose flag is set, in increasing order. */
  function DynamicIndices(dynamic: seq<bool>): (ds: seq<nat>)
    ensures forall k :: 0 <= k < |ds| ==> ds[k] < |dynamic| && dynamic[ds[k]]
    ensures forall j :: 0 <= j < |dynamic| && dynamic[j] ==> j in ds
    ensures forall k, m :: 0 <= k < m < |ds| ==> ds[k] < ds[m]
  {
    if dynamic == [] then []
    else
      var n := |dynamic| - 1;
      var ds := DynamicIndices(dynamic[..n]);
      if dynamic[n] then ds + [n] else ds
  }

  /** `std::stable_sort` by decreasing minimum, specified by its result:
      ordered by decreasing key, and by position among equal keys. */
  ghost predicate SortedByKey(t: seq<nat>, key: seq<nat>)
    requires forall k :: 0 <= k < |t| ==> t[k] < |key|
  {
    forall k, m :: 0 <= k < m < |t| ==>
      key[t[k]] > key[t[m]] || (key[t[k]] == key[t[m]] && t[k] < t[m])
  }

  function Insert(x: nat, t: seq<nat>, key: seq<nat>): (r: seq<nat>)
    requires x < |key| && forall k :: 0 <= k < |t| ==> t[k] < |key|
    ensures multiset(r) == multiset(t) + multiset{x}
    ensures forall k :: 0 <= k < |r| ==> r[k] < |key|
  {
    if t == [] || key[x] >= key[t[0]] then [x] + t
    else
      assert t == [t[0]] + t[1..];
      [t[0]] + Insert(x, t[1..], key)
  }

  /** Stable insertion sort by decreasing key. */
  function SortByKey(s: seq<nat>, key: seq<nat>): (r: seq<nat>)
    requires forall k :: 0 <= k < |s| ==> s[k] < |key|
    ensures multiset(r) == multiset(s)
    ensures forall k :: 0 <= k < |r| ==> r[k] < |key|
  {
    if s == [] then []
    else
      assert s == [s[0]] + s[1..];
      Insert(s[0], SortByKey(s[1..], key), key)
  }

  /** Prepending a position that sorts before every element keeps the
      order. */
  lemma {:induction false} ConsSorted(x: nat, t: seq<nat>, key: seq<nat>)
    requires x < |key| && forall k :: 0 <= k < |t| ==> t[k] < |key|
    requires SortedByKey(t, key)
    requires forall k :: 0 <= k < |t| ==> key[x] > key[t[k]] || (key[x] == key[t[k]] && x < t[k])
    ensures SortedByKey([x] + t, key)
  {
    var r := [x] + t;
    forall k, m | 0 <= k < m < |r|
      ensures key[r[k]] > key[r[m]] || (key[r[k]] == key[r[m]] && r[k] < r[m])
    {
      if k > 0 {
        assert r[k] == t[k - 1] && r[m] == t[m - 1];
      } else {
        assert r[m] == t[m - 1];
      }
    }
  }

  lemma {:induction false} InsertSorted(x: nat, t: seq<nat>, key: seq<nat>)
    requires x < |key| && forall k :: 0 <= k < |t| ==> t[k] < |key|
    requires SortedByKey(t, key)
    requires forall k :: 0 <= k < |t| ==> x < t[k]
    ensures SortedByKey(Insert(x, t, key), key)
    decreases |t|
  {
    if t == [] || key[x] >= key[t[0]] {
      forall k | 0 <= k < |t|
        ensures key[x] > key[t[k]] || (key[x] == key[t[k]] && x < t[k])
      {
        if k > 0 {
          assert key[t[0]] >= key[t[k]];
        }
      }
      ConsSorted(x, t, key);
    } else {
      var tail := t[1..];
      assert SortedByKey(tail, key) by {
        forall k, m | 0 <= k < m < |tail|
          ensures key[tail[k]] > key[tail[m]] || (key[tail[k]] == key[tail[m]] && tail[k] < tail[m])
        {
          assert tail[k] == t[k + 1] && tail[m] == t[m + 1];
        }
      }
      InsertSorted(x, tail, key);
      var rest := Insert(x, tail, key);
      forall k | 0 <= k < |rest|
        ensures key[t[0]] > key[rest[k]] || (key[t[0]] == key[rest[k]] && t[0] < rest[k])
      {
        var y := rest[k];
        assert y in multiset(rest);
        if y != x {
          assert y in multiset(tail);
          var p :| 0 <= p < |tail| && tail[p] == y;
          assert t[p + 1] == y;
        }
      }
      ConsSorted(t[0], rest, key);
    }
  }

  /** Sorting positions given in increasing order yields the order of a
      stable sort by decreasing key. */
  lemma {:induction false} SortByKeySorted(s: seq<nat>, key: seq<nat>)
    requires forall k :: 0 <= k < |s| ==> s[k] < |key|
    requires forall k, m :: 0 <= k < m < |s| ==> s[k] < s[m]
    ensures SortedByKey(SortByKey(s, key), key)
    decreases |s|
  {
    if s != [] {
      SortByKeySorted(s[1..], key);
      var t := SortByKey(s[1..], key);
      forall k | 0 <= k < |t|
        ensures s[0] < t[k]
      {
        assert t[k] in multiset(t);
        assert t[k] in s[1..];
      }
      InsertSorted(s[0], t, key);
    }
  }

  /** A sorted sequence holds no position twice. */
  lemma {:induction false} SortedDistinct(t: seq<nat>, key: seq<nat>)
    requires forall k :: 0 <= k < |t| ==> t[k] < |key|
    requires SortedByKey(t, key)
    ensures forall k, m :: 0 <= k < m < |t| ==> t[k] != t[m]
  {
  }

  /** One child's new extent in a growth round: its share of the positive
      remainder among the `share` children still to go, rounded up, added
      to its current extent and clamped to [lo, hi].  It never shrinks, and
      it stays put with space remaining only at its maximum. */
  function Adjust(left: int, share: nat, size: nat, lo: nat, hi: nat): (r: nat)
    requires share > 0 && size <= hi
    ensures size <= r <= hi
    ensures Min(lo, hi) <= r
    ensures left > 0 && r == size ==> size == hi
  {
    var part := (Max(left, 0) + share - 1) / share;
    assert left > 0 ==> part >= 1 by {
      if left > 0 {
        DivAtLeastOne(Max(left, 0) + share - 1, share);
      }
    }
    Min(Max(part + size, lo), hi)
  }

  lemma {:induction false} DivAtLeastOne(n: int, d: int)
    requires d > 0 && n >= d
    ensures n / d >= 1
  {
  }

  /** A growth round's outcome: the extents, the space left and whether
      any extent changed. */
  datatype Round = Round(sizes: seq<nat>, left: int, retry: bool)

  /** The rest of a growth round from `order[k]` on: each child in turn
      takes Adjust's extent for its share of what is left. */
  function RoundFrom(order: seq<nat>, k: nat, mins: seq<nat>, maxs: seq<nat>,
                     grown: seq<nat>, left: int, retry: bool): (r: Round)
    requires k <= |order| && |mins| == |grown| && |maxs| == |grown|
    requires forall i :: 0 <= i < |order| ==> order[i] < |grown|
    requires forall j :: 0 <= j < |grown| && j in order ==> grown[j] <= maxs[j]
    ensures |r.sizes| == |grown|
    decreases |order| - k
  {
    if k == |order| then Round(grown, left, retry)
    else
      var c := order[k];
      var adjust := Adjust(left, |order| - k, grown[c], mins[c], maxs[c]);
      RoundFrom(order, k + 1, mins, maxs, grown[c := adjust], left - (adjust - grown[c]), retry || grown[c] != adjust)
  }

  /** The rest of a round never shrinks an extent, changes only the
      children still to go, keeps every child of the round within its
      maximum, and takes from the space left exactly what it grows. */
  lemma {:induction false} RoundFromGrows(order: seq<nat>, k: nat, mins: seq<nat>, maxs: seq<nat>,
                                          grown: seq<nat>, left: int, retry: bool)
    requires k <= |order| && |mins| == |grown| && |maxs| == |grown|
    requires forall i :: 0 <= i < |order| ==> order[i] < |grown|
    requires forall j :: 0 <= j < |grown| && j in order ==> grown[j] <= maxs[j]
    ensures var r := RoundFrom(order, k, mins, maxs, grown, left, retry);
      r.left == left - (Sum(r.sizes) - Sum(grown)) &&
      (forall j :: 0 <= j < |grown| ==> grown[j] <= r.sizes[j]) &&
      (forall j :: 0 <= j < |grown| && j !in order[k..] ==> r.sizes[j] == grown[j]) &&
      (forall j :: 0 <= j < |grown| && j in order ==> r.sizes[j] <= maxs[j])
    decreases |order| - k
  {
    if k < |order| {
      var c := order[k];
      var adjust := Adjust(left, |order| - k, grown[c], mins[c], maxs[c]);
      var next := grown[c := adjust];
      var nleft := left - (adjust - grown[c]);
      var nretry := retry || grown[c] != adjust;
      SumUpdate(grown, c, adjust);
      assert order[k..] == [c] + order[k + 1..];
      RoundFromGrows(order, k + 1, mins, maxs, next, nleft, nretry);
      var r := RoundFrom(order, k + 1, mins, maxs, next, nleft, nretry);
      assert RoundFrom(order, k, mins, maxs, grown, left, retry) == r;
      forall j | 0 <= j < |grown| && j !in order[k..]
        ensures r.sizes[j] == grown[j]
      {
        assert j != c && j !in order[k + 1..];
      }
    }
  }

  /** Every child still to go ends at least at its minimum, or at its
      maximum when that is smaller. */
  lemma {:induction false} RoundFromFloor(order: seq<nat>, k: nat, mins: seq<nat>, maxs: seq<nat>,
                                          grown: seq<nat>, left: int, retry: bool)
    requires k <= |order| && |mins| == |grown| && |maxs| == |grown|
    requires forall i :: 0 <= i < |order| ==> order[i] < |grown|
    requires forall j :: 0 <= j < |grown| && j in order ==> grown[j] <= maxs[j]
    ensures forall j :: 0 <= j < |grown| && j in order[k..] ==>
      Min(mins[j], maxs[j]) <= RoundFrom(order, k, mins, maxs, grown, left, retry).sizes[j]
    decreases |order| - k
  {
    if k < |order| {
      var c := order[k];
      var adjust := Adjust(left, |order| - k, grown[c], mins[c], maxs[c]);
      var next := grown[c := adjust];
      var nleft := left - (adjust - grown[c]);
      var nretry := retry || grown[c] != adjust;
      assert order[k..] == [c] + order[k + 1..];
      RoundFromFloor(order, k + 1, mins, maxs, next, nleft, nretry);
      RoundFromGrows(order, k + 1, mins, maxs, next, nleft, nretry);
      var r := RoundFrom(order, k + 1, mins, maxs, next, nleft, nretry);
      assert RoundFrom(order, k, mins, maxs, grown, left, retry) == r;
      assert Min(mins[c], maxs[c]) <= r.sizes[c] by {
        assert next[c] == adjust && next[c] <= r.sizes[c];
      }
      forall j | 0 <= j < |grown| && j in order[k..]
        ensures Min(mins[j], maxs[j]) <= r.sizes[j]
      {
        if j != c {
          assert j in order[k + 1..];
        }
      }
    }
  }

  /** `retry` ends set exactly when it started set or some extent
      changed; a round that changed nothing with space to spare found
      every child still to go at its maximum. */
  lemma {:induction false} RoundFromRetry(order: seq<nat>, k: nat, mins: seq<nat>, maxs: seq<nat>,
                                          grown: seq<nat>, left: int, retry: bool)
    requires k <= |order| && |mins| == |grown| && |maxs| == |grown|
    requires forall i :: 0 <= i < |order| ==> order[i] < |grown|
    requires forall j :: 0 <= j < |grown| && j in order ==> grown[j] <= maxs[j]
    ensures var r := RoundFrom(order, k, mins, maxs, grown, left, retry);
      (r.retry <==> retry || r.sizes != grown) &&
      (!r.retry && left > 0 ==> forall j :: 0 <= j < |grown| && j in order[k..] ==> r.sizes[j] == maxs[j])
    decreases |order| - k
  {
    if k < |order| {
      var c := order[k];
      var adjust := Adjust(left, |order| - k, grown[c], mins[c], maxs[c]);
      var next := grown[c := adjust];
      var nleft := left - (adjust - grown[c]);
      var nretry := retry || grown[c] != adjust;
      assert order[k..] == [c] + order[k + 1..];
      RoundFromRetry(order, k + 1, mins, maxs, next, nleft, nretry);
      RoundFromGrows(order, k + 1, mins, maxs, next, nleft, nretry);
      var r := RoundFrom(order, k + 1, mins, maxs, next, nleft, nretry);
      if grown[c] != adjust {
        assert r.sizes[c] != grown[c];
      } else {
        assert next == grown;
      }
    }
  }

  /** A whole growth round over `order`, from `sizes` with `remaining`
      space. */
  function RoundOf(order: seq<nat>, mins: seq<nat>, maxs: seq<nat>, sizes: seq<nat>, remaining: int): Round
    requires |mins| == |sizes| && |maxs| == |sizes|
    requires forall i :: 0 <= i < |order| ==> order[i] < |sizes|
    requires forall j :: 0 <= j < |sizes| && j in order ==> sizes[j] <= maxs[j]
  {
    RoundFrom(order, 0, mins, maxs, sizes, remaining, false)
  }

  /** What one growth round gives: no child shrinks; only the children in
      `order` change, each ending between its minimum (its maximum, when
      that is smaller) and its maximum; the space left drops by the growth;
      `retry` records whether anything changed, and a round that changed
      nothing with space to spare has every child at its maximum. */
  lemma {:induction false} RoundOfBounds(order: seq<nat>, mins: seq<nat>, maxs: seq<nat>, sizes: seq<nat>, remaining: int)
    requires |mins| == |sizes| && |maxs| == |sizes|
    requires forall i :: 0 <= i < |order| ==> order[i] < |sizes|
    requires forall j :: 0 <= j < |sizes| && j in order ==> sizes[j] <= maxs[j]
    ensures var r := RoundOf(order, mins, maxs, sizes, remaining);
      |r.sizes| == |sizes| &&
      r.left == remaining - (Sum(r.sizes) - Sum(sizes)) &&
      (forall j :: 0 <= j < |sizes| ==> sizes[j] <= r.sizes[j]) &&
      (forall j :: 0 <= j < |sizes| && j !in order ==> r.sizes[j] == sizes[j]) &&
      (forall j :: 0 <= j < |sizes| && j in order ==> Min(mins[j], maxs[j]) <= r.sizes[j] <= maxs[j]) &&
      (r.retry <==> r.sizes != sizes) &&
      (!r.retry && remaining > 0 ==> forall j :: 0 <= j < |sizes| && j in order ==> r.sizes[j] == maxs[j])
  {
    assert order[0..] == order;
    RoundFromGrows(order, 0, mins, maxs, sizes, remaining, false);
    RoundFromFloor(order, 0, mins, maxs, sizes, remaining, false);
    RoundFromRetry(order, 0, mins, maxs, sizes, remaining, false);
  }

  /** One `do` round of the growth loop over the dynamic children in
      `order`. */
  method GrowRound(order: seq<nat>, mins: seq<nat>, maxs: seq<nat>, sizes: seq<nat>, remaining: int)
    returns (grown: seq<nat>, left: int, retry: bool)
    requires |mins| == |sizes| && |maxs| == |sizes|
    requires forall k :: 0 <= k < |order| ==> order[k] < |sizes|
    requires forall j :: 0 <= j < |sizes| && j in order ==> sizes[j] <= maxs[j]
    ensures |grown| == |sizes|
    ensures left == remaining - (Sum(grown) - Sum(sizes))
    ensures forall j :: 0 <= j < |sizes| ==> sizes[j] <= grown[j]
    ensures forall j :: 0 <= j < |sizes| && j !in order ==> grown[j] == sizes[j]
    ensures forall j :: 0 <= j < |sizes| && j in order ==> Min(mins[j], maxs[j]) <= grown[j] <= maxs[j]
    ensures retry <==> grown != sizes
    ensures !retry && remaining > 0 ==> forall j :: 0 <= j < |sizes| && j in order ==> grown[j] == maxs[j]
    ensures Round(grown, left, retry) == RoundOf(order, mins, maxs, sizes, remaining)
  {
    grown, left, retry := sizes, remaining, false;
    var k := 0;
    while k < |order|
      invariant 0 <= k <= |order| && |grown| == |sizes|
      invariant forall j :: 0 <= j < |sizes| && j in order ==> grown[j] <= maxs[j]
      invariant RoundFrom(order, k, mins, maxs, grown, left, retry) == RoundOf(order, mins, maxs, sizes, remaining)
    {
      var c := order[k];
      var adjust := Adjust(left, |order| - k, grown[c], mins[c], maxs[c]);
      left := left - (adjust - grown[c]);
      retry := retry || grown[c] != adjust;
      grown := grown[c := adjust];
      k := k + 1;
    }
    RoundOfBounds(order, mins, maxs, sizes, remaining);
  }

  /** The dynamic children in the order they are grown: exactly the
      dynamic positions, each once. */
  lemma {:induction false} GrowthOrder(dynamic: seq<bool>, mins: seq<nat>)
    requires |dynamic| == |mins|
    ensures var order := SortByKey(DynamicIndices(dynamic), mins);
      (forall k :: 0 <= k < |order| ==> order[k] < |mins|) &&
      (forall k, m :: 0 <= k < m < |order| ==> order[k] != order[m]) &&
      (forall j :: 0 <= j < |mins| ==> (j in order <==> dynamic[j]))
  {
    var dyn := DynamicIndices(dynamic);
    var order := SortByKey(dyn, mins);
    SortByKeySorted(dyn, mins);
    SortedDistinct(order, mins);
    forall j | 0 <= j < |mins|
      ensures j in order <==> dynamic[j]
    {
      assert j in order <==> j in multiset(order);
      assert j in dyn <==> j in multiset(dyn);
    }
  }

  /** The first pass of `balance_row` / `balance_column`: a static child
      gets its minimum, which is taken from the remaining space; a dynamic
      one starts at zero. */
  method StaticPass(mins: seq<nat>, dynamic: seq<bool>, extent: nat) returns (sizes: seq<nat>, remaining: int)
    requires |dynamic| == |mins|
    ensures |sizes| == |mins|
    ensures forall j :: 0 <= j < |mins| ==> sizes[j] == if dynamic[j] then 0 else mins[j]
    ensures remaining == extent - Sum(sizes)
  {
    sizes, remaining := [], extent;
    var i := 0;
    while i < |mins|
      invariant 0 <= i <= |mins|
      invariant |sizes| == i
      invariant forall j :: 0 <= j < i ==> sizes[j] == if dynamic[j] then 0 else mins[j]
      invariant remaining == extent - Sum(sizes)
    {
      var s := if dynamic[i] then 0 else mins[i];
      SumAppend(sizes, s);
      sizes := sizes + [s];
      remaining := remaining - s;
      i := i + 1;
    }
  }

  /** The sizing passes' outcome: each child's extent and the space left. */
  datatype Sizing = Sizing(sizes: seq<nat>, remaining: int)

  /** The growth loop `do { … } while (retry && remaining > 0)`: rounds
      repeat while the last one changed something and space is left. */
  function Grow(order: seq<nat>, mins: seq<nat>, maxs: seq<nat>, sizes: seq<nat>, remaining: int): (r: Sizing)
    requires |mins| == |sizes| && |maxs| == |sizes|
    requires forall i :: 0 <= i < |order| ==> order[i] < |sizes|
    requires forall j :: 0 <= j < |sizes| && j in order ==> sizes[j] <= maxs[j]
    ensures |r.sizes| == |sizes|
    decreases Max(remaining, 0)
  {
    RoundOfBounds(order, mins, maxs, sizes, remaining);
    var round := RoundOf(order, mins, maxs, sizes, remaining);
    if round.retry && round.left > 0 then
      SumGrows(sizes, round.sizes);
      Grow(order, mins, maxs, round.sizes, round.left)
    else
      Sizing(round.sizes, round.left)
  }

  /** What the growth loop gives: only the children in `order` change,
      each ending between its minimum (its maximum, when that is smaller)
      and its maximum; the space left drops by the growth; and space is
      left over only when every one of them has its maximum. */
  lemma {:induction false} GrowBounds(order: seq<nat>, mins: seq<nat>, maxs: seq<nat>, sizes: seq<nat>, remaining: int)
    requires |mins| == |sizes| && |maxs| == |sizes|
    requires forall i :: 0 <= i < |order| ==> order[i] < |sizes|
    requires forall j :: 0 <= j < |sizes| && j in order ==> sizes[j] <= maxs[j]
    ensures var r := Grow(order, mins, maxs, sizes, remaining);
      r.remaining == remaining - (Sum(r.sizes) - Sum(sizes)) &&
      (forall j :: 0 <= j < |sizes| && j !in order ==> r.sizes[j] == sizes[j]) &&
      (forall j :: 0 <= j < |sizes| && j in order ==> Min(mins[j], maxs[j]) <= r.sizes[j] <= maxs[j]) &&
      (r.remaining > 0 ==> forall j :: 0 <= j < |sizes| && j in order ==> r.sizes[j] == maxs[j])
    decreases Max(remaining, 0)
  {
    RoundOfBounds(order, mins, maxs, sizes, remaining);
    var round := RoundOf(order, mins, maxs, sizes, remaining);
    if round.retry && round.left > 0 {
      SumGrows(sizes, round.sizes);
      GrowBounds(order, mins, maxs, round.sizes, round.left);
    }
  }

  /** The extents after the static pass: a static child's minimum, zero
      for a dynamic one. */
  function StaticSizes(mins: seq<nat>, dynamic: seq<bool>): (s: seq<nat>)
    requires |dynamic| == |mins|
    ensures |s| == |mins|
  {
    seq(|mins|, j requires 0 <= j < |mins| => if dynamic[j] then 0 else mins[j])
  }

  /** `balance_row` / `balance_column`'s sizing passes: the static pass,
      then growth rounds over the dynamic children sorted by decreasing
      minimum. */
  function ShareOf(mins: seq<nat>, maxs: seq<nat>, dynamic: seq<bool>, extent: nat): (r: Sizing)
    requires |maxs| == |mins| && |dynamic| == |mins|
    ensures |r.sizes| == |mins|
  {
    GrowthOrder(dynamic, mins);
    var sizes := StaticSizes(mins, dynamic);
    Grow(SortByKey(DynamicIndices(dynamic), mins), mins, maxs, sizes, extent - Sum(sizes))
  }

  /** The sizing passes keep Shared's promises for every input. */
  lemma {:induction false} ShareOfShared(mins: seq<nat>, maxs: seq<nat>, dynamic: seq<bool>, extent: nat)
    requires |maxs| == |mins| && |dynamic| == |mins|
    ensures var r := ShareOf(mins, maxs, dynamic, extent);
      Shared(mins, maxs, dynamic, extent, r.sizes, r.remaining)
  {
    GrowthOrder(dynamic, mins);
    var sizes := StaticSizes(mins, dynamic);
    GrowBounds(SortByKey(DynamicIndices(dynamic), mins), mins, maxs, sizes, extent - Sum(sizes));
  }

  /** A round that starts with no space and with the rest of `order` at
      zero gives each of them exactly Min(minimum, maximum), and leaves
      no space. */
  lemma {:induction false} RoundFromShort(order: seq<nat>, k: nat, mins: seq<nat>, maxs: seq<nat>,
                                          grown: seq<nat>, left: int, retry: bool)
    requires k <= |order| && |mins| == |grown| && |maxs| == |grown|
    requires forall i :: 0 <= i < |order| ==> order[i] < |grown|
    requires forall j :: 0 <= j < |grown| && j in order ==> grown[j] <= maxs[j]
    requires forall i, m :: 0 <= i < m < |order| ==> order[i] != order[m]
    requires forall i :: k <= i < |order| ==> grown[order[i]] == 0
    requires left <= 0
    ensures RoundFrom(order, k, mins, maxs, grown, left, retry).left <= 0
    ensures forall i :: k <= i < |order| ==>
      RoundFrom(order, k, mins, maxs, grown, left, retry).sizes[order[i]] == Min(mins[order[i]], maxs[order[i]])
    ensures forall j :: 0 <= j < |grown| && j !in order[k..] ==>
      RoundFrom(order, k, mins, maxs, grown, left, retry).sizes[j] == grown[j]
    decreases |order| - k
  {
    if k < |order| {
      var c := order[k];
      var share := |order| - k;
      assert (Max(left, 0) + share - 1) / share == 0;
      var adjust := Adjust(left, share, grown[c], mins[c], maxs[c]);
      assert adjust == Min(mins[c], maxs[c]);
      var next := grown[c := adjust];
      RoundFromShort(order, k + 1, mins, maxs, next, left - (adjust - grown[c]), retry || grown[c] != adjust);
      var r := RoundFrom(order, k + 1, mins, maxs, next, left - (adjust - grown[c]), retry || grown[c] != adjust);
      assert c !in order[k + 1..];
      forall j | 0 <= j < |grown| && j !in order[k..]
        ensures r.sizes[j] == grown[j]
      {
        assert j != c;
      }
    }
  }

  /** "If we're short, only give each what they require": when the static
      children leave no space, every dynamic child gets exactly its
      minimum (its maximum, when that is smaller). */
  lemma {:induction false} ShortShare(mins: seq<nat>, maxs: seq<nat>, dynamic: seq<bool>, extent: nat)
    requires |maxs| == |mins| && |dynamic| == |mins|
    requires extent <= Sum(StaticSizes(mins, dynamic))
    ensures forall j :: 0 <= j < |mins| && dynamic[j] ==>
      ShareOf(mins, maxs, dynamic, extent).sizes[j] == Min(mins[j], maxs[j])
  {
    GrowthOrder(dynamic, mins);
    var order := SortByKey(DynamicIndices(dynamic), mins);
    var sizes := StaticSizes(mins, dynamic);
    var remaining := extent - Sum(sizes);
    RoundFromShort(order, 0, mins, maxs, sizes, remaining, false);
    var round := RoundOf(order, mins, maxs, sizes, remaining);
    assert ShareOf(mins, maxs, dynamic, extent) == Sizing(round.sizes, round.left);
    forall j | 0 <= j < |mins| && dynamic[j]
      ensures round.sizes[j] == Min(mins[j], maxs[j])
    {
      var i :| 0 <= i < |order| && order[i] == j;
    }
  }

  /** Two dynamic children with no minimum and a maximum of 100 share an
      extent of 10 evenly, leaving nothing over. */
  lemma {:induction false} EvenShare(mins: seq<nat>, maxs: seq<nat>, dynamic: seq<bool>, extent: nat)
    requires mins == [0, 0] && maxs == [100, 100] && dynamic == [true, true] && extent == 10
    ensures ShareOf(mins, maxs, dynamic, extent) == Sizing([5, 5], 0)
  {
    EvenOrder();
    EvenStatic();
    EvenGrow();
  }

  /** One round shares the extent out, so the growth loop stops after it. */
  lemma {:induction false} EvenGrow()
    ensures Grow([0, 1], [0, 0], [100, 100], [0, 0], 10) == Sizing([5, 5], 0)
  {
    EvenRound();
  }

  /** With both children dynamic, the static pass gives them nothing and
      takes nothing from the extent. */
  lemma {:induction false} EvenStatic()
    ensures StaticSizes([0, 0], [true, true]) == [0, 0]
    ensures Sum([0, 0]) == 0
  {
    assert [0, 0][..1] == [0];
    assert [0][..0] == [];
  }

  /** Two dynamic children with equal minima are grown in index order. */
  lemma {:induction false} EvenOrder()
    ensures SortByKey(DynamicIndices([true, true]), [0, 0]) == [0, 1]
  {
    EvenIndices();
    EvenSort();
  }

  lemma {:induction false} EvenIndices()
    ensures DynamicIndices([true, true]) == [0, 1]
  {
    assert [true, true][..1] == [true];
    assert [true][..0] == [];
  }

  lemma {:induction false} EvenSort()
    ensures SortByKey([0, 1], [0, 0]) == [0, 1]
  {
    var key: seq<nat> := [0, 0];
    assert [1][1..] == [];
    assert SortByKey([1], key) == Insert(1, [], key) == [1];
    assert [0, 1][1..] == [1];
    assert SortByKey([0, 1], key) == Insert(0, [1], key);
  }

  /** EvenShare's single growth round: the first child takes half of 10
      rounded up, the second what is left. */
  lemma {:induction false} EvenRound()
    ensures RoundFrom([0, 1], 0, [0, 0], [100, 100], [0, 0], 10, false) == Round([5, 5], 0, true)
  {
    var mins, maxs: seq<nat> := [0, 0], [100, 100];
    var second := RoundFrom([0, 1], 1, mins, maxs, [5, 0], 5, true);
    assert Adjust(5, 1, 0, 0, 100) == 5;
    assert [5, 0][1 := 5] == [5, 5];
    assert second == RoundFrom([0, 1], 2, mins, maxs, [5, 5], 0, true);
    assert Adjust(10, 2, 0, 0, 100) == 5;
    assert [0, 0][0 := 5] == [5, 0];
  }

  /** What the sizing passes promise: static children get their minimum,
      dynamic ones a size between their minimum (their maximum, when that
      is smaller) and their maximum; `remaining` is the extent less the
      sizes, and space is left over only when every dynamic child has its
      maximum. */
  ghost predicate Shared(mins: seq<nat>, maxs: seq<nat>, dynamic: seq<bool>, extent: nat, sizes: seq<nat>, remaining: int)
    requires |maxs| == |mins| && |dynamic| == |mins|
  {
    |sizes| == |mins| &&
    (forall j :: 0 <= j < |mins| && !dynamic[j] ==> sizes[j] == mins[j]) &&
    (forall j :: 0 <= j < |mins| && dynamic[j] ==> Min(mins[j], maxs[j]) <= sizes[j] <= maxs[j]) &&
    remaining == extent - Sum(sizes) &&
    (remaining > 0 ==> forall j :: 0 <= j < |mins| && dynamic[j] ==> sizes[j] == maxs[j])
  }

  /** The sizing passes of `balance_row` / `balance_column`: static
      children get their minimum, dynamic ones start at zero, are sorted by
      decreasing minimum and grown in rounds while a round changes
      something and space remains. */
  method ShareSpace(mins: seq<nat>, maxs: seq<nat>, dynamic: seq<bool>, extent: nat)
    returns (sizes: seq<nat>, remaining: int)
    requires |maxs| == |mins| && |dynamic| == |mins|
    ensures Shared(mins, maxs, dynamic, extent, sizes, remaining)
    ensures Sizing(sizes, remaining) == ShareOf(mins, maxs, dynamic, extent)
  {
    sizes, remaining := StaticPass(mins, dynamic, extent);
    assert sizes == StaticSizes(mins, dynamic);
    var order := SortByKey(DynamicIndices(dynamic), mins);
    GrowthOrder(dynamic, mins);

    var retry;
    sizes, remaining, retry := GrowRound(order, mins, maxs, sizes, remaining);
    while retry && remaining > 0
      invariant |sizes| == |mins|
      invariant forall j :: 0 <= j < |mins| && j in order ==> sizes[j] <= maxs[j]
      invariant ShareOf(mins, maxs, dynamic, extent) ==
        if retry && remaining > 0 then Grow(order, mins, maxs, sizes, remaining) else Sizing(sizes, remaining)
      decreases remaining, retry
    {
      var before := sizes;
      sizes, remaining, retry := GrowRound(order, mins, maxs, sizes, remaining);
      SumGrows(before, sizes);
    }
    ShareOfShared(mins, maxs, dynamic, extent);
  }

  /** Where receive of leftover space goes: the first child with an anchor
      frame along the axis gets all of a positive remainder. */
  function FirstAnchored(f: Frame, a: Axis, i: nat): (k: nat)
    requires f.IsContainer() && i <= |f.children|
    decreases |f.children| - i
    ensures i <= k <= |f.children|
    ensures k < |f.children| ==> HasAnchor(f.children[k], a)
    ensures forall j :: i <= j < k ==> !HasAnchor(f.children[j], a)
  {
    if i == |f.children| || HasAnchor(f.children[i], a) then i else FirstAnchored(f, a, i + 1)
  }

  /** The extent each child asks for in the placement pass. */
  function Wanted(f: Frame, a: Axis, sizes: seq<nat>, remaining: int): (w: seq<nat>)
    requires f.IsContainer() && |sizes| == |f.children|
    ensures |w| == |sizes|
  {
    var k := FirstAnchored(f, a, 0);
    if remaining > 0 && k < |sizes| then sizes[k := sizes[k] + remaining] else sizes
  }

  /** The placement pass's own bookkeeping: before child `i`, the
      remainder still to hand out is the original one until the first
      anchored child has taken it. */
  lemma {:induction false} WantedAt(f: Frame, a: Axis, sizes: seq<nat>, remaining: int, i: nat, rem: int)
    requires f.IsContainer() && |sizes| == |f.children| && i < |sizes|
    requires rem == if remaining > 0 && FirstAnchored(f, a, 0) < i then 0 else remaining
    ensures Wanted(f, a, sizes, remaining)[i] ==
      if rem > 0 && HasAnchor(f.children[i], a) then sizes[i] + rem else sizes[i]
    ensures (if rem > 0 && HasAnchor(f.children[i], a) then 0 else rem) ==
      if remaining > 0 && FirstAnchored(f, a, 0) < i + 1 then 0 else remaining
  {
  }

  /** Every placed child got what it wanted, cut to the space left from
      where it starts. */
  ghost predicate CutToSpace(cs: seq<Frame>, want: seq<nat>, a: Axis, geom: Geom)
    requires |cs| <= |want|
  {
    forall j :: 0 <= j < |cs| ==> Extent(cs[j].geom, a) == Min(want[j], End(geom, a) - Start(cs[j].geom, a))
  }

  lemma {:induction false} CutToSpaceSnoc(cs: seq<Frame>, child: Frame, want: seq<nat>, a: Axis, geom: Geom)
    requires |cs| < |want|
    requires CutToSpace(cs, want, a, geom)
    requires Extent(child.geom, a) == Min(want[|cs|], End(geom, a) - Start(child.geom, a))
    ensures CutToSpace(cs + [child], want, a, geom)
  {
    var ds := cs + [child];
    forall j | 0 <= j < |ds|
      ensures Extent(ds[j].geom, a) == Min(want[j], End(geom, a) - Start(ds[j].geom, a))
    {
      if j < |cs| {
        assert ds[j] == cs[j];
      }
    }
  }

  /** The geometry a child gets: `start`/`extent` along the axis, the
      container's own position and extent across it. */
  function ChildGeom(a: Axis, cross: Geom, start: nat, extent: nat): Geom {
    if a.Horizontal? then Geom(start, cross.y, extent, cross.height)
    else Geom(cross.x, start, cross.width, extent)
  }

  function End(g: Geom, a: Axis): nat { Start(g, a) + Extent(g, a) }

  /** The children tile `geom` along `a` from its start, one after the
      other without gap or overlap, each spanning `geom` across `a`, and
      none reaches past its end. */
  ghost predicate Tiled(cs: seq<Frame>, a: Axis, geom: Geom) {
    (forall i :: 0 <= i < |cs| ==>
      cs[i].geom == ChildGeom(a, geom, Start(cs[i].geom, a), Extent(cs[i].geom, a)) &&
      End(cs[i].geom, a) <= End(geom, a)) &&
    (|cs| > 0 ==> Start(cs[0].geom, a) == Start(geom, a)) &&
    (forall i :: 0 < i < |cs| ==> Start(cs[i].geom, a) == End(cs[i - 1].geom, a))
  }

  /** Placing one more child where the last one ends keeps the tiling. */
  lemma {:induction false} TiledSnoc(cs: seq<Frame>, child: Frame, a: Axis, geom: Geom, pos: nat, e: nat)
    requires Tiled(cs, a, geom)
    requires pos == if cs == [] then Start(geom, a) else End(cs[|cs| - 1].geom, a)
    requires child.geom == ChildGeom(a, geom, pos, e)
    requires pos + e <= End(geom, a)
    ensures Tiled(cs + [child], a, geom)
  {
    var ds := cs + [child];
    assert Start(child.geom, a) == pos && Extent(child.geom, a) == e;
    forall i | 0 < i < |ds|
      ensures Start(ds[i].geom, a) == End(ds[i - 1].geom, a)
    {
      if i < |cs| {
        assert ds[i] == cs[i] && ds[i - 1] == cs[i - 1];
      }
    }
  }

  /** `f` and `g` are the same kind of frame with the same number of
      children. */
  predicate SameKind(f: Frame, g: Frame) {
    (f.NoFrame? <==> g.NoFrame?) && (f.WindowFrame? <==> g.WindowFrame?) &&
    (f.Row? <==> g.Row?) && (f.Column? <==> g.Column?) &&
    (f.IsContainer() ==> |f.children| == |g.children|)
  }

  /** Each child's minimum, maximum and dynamic flag along `a`. */
  function ChildMins(f: Frame, a: Axis): (m: seq<nat>)
    requires f.IsContainer()
    ensures |m| == |f.children|
  {
    seq(|f.children|, j requires 0 <= j < |f.children| => MinOf(PreferredSize(f.children[j]), a))
  }

  function ChildMaxs(f: Frame, a: Axis): (m: seq<nat>)
    requires f.IsContainer()
    ensures |m| == |f.children|
  {
    seq(|f.children|, j requires 0 <= j < |f.children| => MaxOf(PreferredSize(f.children[j]), a))
  }

  function ChildDynamic(f: Frame, a: Axis): (d: seq<bool>)
    requires f.IsContainer()
    ensures |d| == |f.children|
  {
    seq(|f.children|, j requires 0 <= j < |f.children| => IsDynamic(f.children[j], a))
  }

  /** The children `cs` of the container `f`, placed in `geom`, have the
      extents the sizing passes give, with the remainder handed to the first
      anchored child, each cut to the space left. */
  ghost predicate SizedAsShared(f: Frame, geom: Geom, cs: seq<Frame>)
    requires f.IsContainer() && |cs| == |f.children|
  {
    var a := AxisOf(f);
    var share := ShareOf(ChildMins(f, a), ChildMaxs(f, a), ChildDynamic(f, a), Extent(geom, a));
    CutToSpace(cs, Wanted(f, a, share.sizes, share.remaining), a, geom)
  }

  /** `g` is `f` balanced into `g.geom`: it keeps its kind; a window is
      placed by BalanceWindow; a container's children tile it, are sized by
      the sizing passes and cut to the space left, and are balanced in
      turn. */
  ghost predicate Balanced(f: Frame, g: Frame)
    decreases f
  {
    SameKind(f, g) &&
    (f.WindowFrame? ==> g.window == BalanceWindow(f.window, g.geom.x, g.geom.y, g.geom.width, g.geom.height)) &&
    (f.IsContainer() ==>
      Tiled(g.children, AxisOf(f), g.geom) &&
      SizedAsShared(f, g.geom, g.children) &&
      forall i :: 0 <= i < |f.children| ==> Balanced(f.children[i], g.children[i]))
  }

  /** `balance`: store the geometry, then lay out the window or the
      children. */
  method Balance(f: Frame, x: nat, y: nat, width: nat, height: nat) returns (g: Frame)
    decreases f, 2
    ensures g.geom == Geom(x, y, width, height)
    ensures SameKind(f, g)
    ensures f.NoFrame? ==> g == NoFrame(Geom(x, y, width, height))
    ensures f.WindowFrame? ==> g.window == BalanceWindow(f.window, x, y, width, height)
    ensures f.IsContainer() ==> Tiled(g.children, AxisOf(f), g.geom)
    ensures Balanced(f, g)
  {
    var geom := Geom(x, y, width, height);
    match f
    case NoFrame(_) =>
      g := NoFrame(geom);
    case WindowFrame(_, w) =>
      g := WindowFrame(geom, BalanceWindow(w, x, y, width, height));
    case Row(_, _) =>
      var cs := BalanceContainer(f, geom);
      g := Row(geom, cs);
    case Column(_, _) =>
      var cs := BalanceContainer(f, geom);
      g := Column(geom, cs);
  }

  /** `balance_row` / `balance_column` for the container `f` given its new
      geometry: size the children, then place them one after the other. */
  method BalanceContainer(f: Frame, geom: Geom) returns (cs: seq<Frame>)
    requires f.IsContainer()
    decreases f, 1
    ensures |cs| == |f.children|
    ensures forall i :: 0 <= i < |cs| ==> SameKind(f.children[i], cs[i])
    ensures Tiled(cs, AxisOf(f), geom)
    ensures SizedAsShared(f, geom, cs)
    ensures forall i :: 0 <= i < |cs| ==> Balanced(f.children[i], cs[i])
  {
    var a := AxisOf(f);
    var sizes, remaining := ShareSpace(ChildMins(f, a), ChildMaxs(f, a), ChildDynamic(f, a), Extent(geom, a));
    cs := Place(f, geom, sizes, remaining);
  }

  /** What holds after the first `i` children of `f` have been placed:
      `pos` is where the next one starts, `space` what is left of the
      extent, `rem` the remainder not yet handed out. */
  ghost predicate PlacedSoFar(f: Frame, geom: Geom, sizes: seq<nat>, remaining: int, i: nat,
                              cs: seq<Frame>, pos: nat, space: nat, rem: int)
    requires f.IsContainer() && |sizes| == |f.children| && i <= |f.children|
  {
    var a := AxisOf(f);
    |cs| == i &&
    pos + space == End(geom, a) &&
    (i == 0 ==> pos == Start(geom, a)) &&
    (i > 0 ==> pos == End(cs[i - 1].geom, a)) &&
    rem == (if remaining > 0 && FirstAnchored(f, a, 0) < i then 0 else remaining) &&
    (forall j :: 0 <= j < i ==> Balanced(f.children[j], cs[j])) &&
    Tiled(cs, a, geom) &&
    CutToSpace(cs, Wanted(f, a, sizes, remaining), a, geom)
  }

  /** Placing child `i` with what it wants, cut to the space left, keeps
      the placement invariant. */
  lemma {:induction false} PlaceStep(f: Frame, geom: Geom, sizes: seq<nat>, remaining: int, i: nat,
                                     cs: seq<Frame>, pos: nat, space: nat, rem: int, child: Frame)
    requires f.IsContainer() && |sizes| == |f.children| && i < |f.children|
    requires PlacedSoFar(f, geom, sizes, remaining, i, cs, pos, space, rem)
    requires var a := AxisOf(f);
      var size := if rem > 0 && HasAnchor(f.children[i], a) then sizes[i] + rem else sizes[i];
      child.geom == ChildGeom(a, geom, pos, Min(size, space)) && Balanced(f.children[i], child)
    ensures var a := AxisOf(f);
      var anchored := rem > 0 && HasAnchor(f.children[i], a);
      var e := Min(if anchored then sizes[i] + rem else sizes[i], space);
      PlacedSoFar(f, geom, sizes, remaining, i + 1, cs + [child], pos + e, space - e,
                  if anchored then 0 else rem)
  {
    var a := AxisOf(f);
    var want := Wanted(f, a, sizes, remaining);
    WantedAt(f, a, sizes, remaining, i, rem);
    var anchored := rem > 0 && HasAnchor(f.children[i], a);
    var e := Min(if anchored then sizes[i] + rem else sizes[i], space);
    assert e == Min(want[i], space);
    TiledSnoc(cs, child, a, geom, pos, e);
    CutToSpaceSnoc(cs, child, want, a, geom);
    var ds := cs + [child];
    assert ds[i] == child;
    forall j | 0 <= j < i + 1
      ensures Balanced(f.children[j], ds[j])
    {
      if j < i {
        assert ds[j] == cs[j];
      }
    }
  }

  /** The placement loop: a positive remainder goes to the first anchored
      child; each child gets what it asks for, cut to the space still
      left. */
  method Place(f: Frame, geom: Geom, sizes: seq<nat>, remaining: int) returns (cs: seq<Frame>)
    requires f.IsContainer() && |sizes| == |f.children|
    decreases f, 0, 1
    ensures |cs| == |f.children|
    ensures forall i :: 0 <= i < |cs| ==> SameKind(f.children[i], cs[i])
    ensures forall i :: 0 <= i < |cs| ==> Balanced(f.children[i], cs[i])
    ensures Tiled(cs, AxisOf(f), geom)
    ensures CutToSpace(cs, Wanted(f, AxisOf(f), sizes, remaining), AxisOf(f), geom)
  {
    var a := AxisOf(f);
    var pos: nat := Start(geom, a);
    var space: nat := Extent(geom, a);
    var rem := remaining;
    cs := [];
    var i := 0;
    while i < |f.children|
      invariant 0 <= i <= |f.children|
      invariant PlacedSoFar(f, geom, sizes, remaining, i, cs, pos, space, rem)
    {
      var anchored := rem > 0 && HasAnchor(f.children[i], a);
      var e: nat := Min(if anchored then sizes[i] + rem else sizes[i], space);
      var child := PlaceChild(f, i, geom, pos, e);
      PlaceStep(f, geom, sizes, remaining, i, cs, pos, space, rem, child);
      cs, pos, space, rem := cs + [child], pos + e, space - e, if anchored then 0 else rem;
      i := i + 1;
    }
  }

  /** One call of `balance` in the placement loop: child `i` at `pos`
      with extent `e` along the container's axis. */
  method PlaceChild(f: Frame, i: nat, geom: Geom, pos: nat, e: nat) returns (child: Frame)
    requires f.IsContainer() && i < |f.children|
    decreases f, 0, 0
    ensures child.geom == ChildGeom(AxisOf(f), geom, pos, e)
    ensures Balanced(f.children[i], child)
  {
    if f.Column? {
      child := Balance(f.children[i], pos, geom.y, e, geom.height);
    } else {
      child := Balance(f.children[i], geom.x, pos, geom.width, e);
    }
  }
}

=== FILE: rpc_manager.dfy ===
/** The RPC trust filter of `rpc::RpcManager`.

    A connection is either trusted or untrusted. On an untrusted connection a
    fixed deny-list of commands (process execution, method definition,
    scheduling, file import, log files) may not be called. The flag that
    says which kind of connection is being served is set on every dispatch.

    The XML-RPC and JSON-RPC processors and the response callback are not
    part of this model: a dispatch reports which of them it hands the request
    to, and with what. */
module Rpc {
  import opened Failures

  /** Commands refused on an untrusted connection: the current names, then
      the deprecated names of the same commands. */
  const UNTRUSTED_COMMANDS: seq<string> := CURRENT_NAMES + DEPRECATED_NAMES

  const CURRENT_NAMES: seq<string> := [
    "execute",
    "execute.capture",
    "execute.capture_nothrow",
    "execute.nothrow",
    "execute.nothrow.bg",
    "execute.raw",
    "execute.raw.bg",
    "execute.raw_nothrow",
    "execute.raw_nothrow.bg",
    "execute.throw",
    "execute.throw.bg",
    "execute2",
    "method.insert",
    "method.redirect",
    "method.set",
    "method.set_key",
    "schedule",
    "schedule2",
    "import",
    "try_import",
    "log.open_file",
    "log.add_output",
    "log.execute",
    "log.vmmap.dump",
    "log.xmlrpc",
    "log.libtorrent",
    "file.append"
  ]

  const DEPRECATED_NAMES: seq<string> := [
    "execute_capture",
    "execute_capture_nothrow",
    "execute_nothrow",
    "execute_nothrow_bg",
    "execute_raw",
    "execute_raw_bg",
    "execute_raw_nothrow",
    "execute_raw_nothrow_bg",
    "execute_throw",
    "execute_throw_bg",
    "system.method.insert",
    "system.method.redirect",
    "system.method.set",
    "system.method.set_key",
    "on_insert",
    "on_erase",
    "on_open",
    "on_close",
    "on_start",
    "on_stop",
    "on_hash_queued",
    "on_hash_removed",
    "on_hash_done",
    "on_finished"
  ]

  const XML_FAULT: string :=
    "<?xml version=\"1.0\"?><methodResponse><fault><value><string>XMLRPC "
    + "not supported</string></value></fault></methodResponse>"

  const JSON_FAULT: string :=
    "{\"jsonrpc\":\"2.0\",\"error\":{\"code\":-32601,\"message\":\"JSON-"
    + "RPC not supported\"},\"id\":\"1\"}"

  const ERR_INVALID_TYPE: string := "Invalid RPC type."

  /** Linear search in the manner of `std::find`: the index of the first
      occurrence of `name`, or `|names|` when there is none. */
  function Find(names: seq<string>, name: string): (i: nat)
    ensures i <= |names|
    ensures i < |names| ==> names[i] == name
    ensures forall k :: 0 <= k < i ==> names[k] != name
    decreases |names|
  {
    if names == [] then 0
    else if names[0] == name then 0
    else 1 + Find(names[1..], name)
  }

  /** Whether a command may run: always on a trusted connection, and on an
      untrusted one only when its name is not on the deny-list. */
  function IsCommandEnabled(trusted: bool, name: string): (enabled: bool)
    ensures trusted ==> enabled
    ensures !trusted ==> (enabled <==> name !in UNTRUSTED_COMMANDS)
  {
    trusted || Find(UNTRUSTED_COMMANDS, name) == |UNTRUSTED_COMMANDS|
  }

  /** Process execution, method definition and file import are refused on an
      untrusted connection; an ordinary query is not. */
  lemma {:induction false} UntrustedRefusals()
    ensures !IsCommandEnabled(false, "execute")
    ensures !IsCommandEnabled(false, "method.insert")
    ensures !IsCommandEnabled(false, "import")
    ensures !IsCommandEnabled(false, "on_finished")
    ensures IsCommandEnabled(false, "d.name")
  {
    QueryNotDenied();
    assert UNTRUSTED_COMMANDS[0] == "execute";
    assert UNTRUSTED_COMMANDS[12] == "method.insert";
    assert UNTRUSTED_COMMANDS[18] == "import";
    assert UNTRUSTED_COMMANDS[50] == "on_finished";
  }

  /** No command on the deny-list starts with `d`, so no download query is
      on it. */
  lemma {:induction false} QueryNotDenied()
    ensures forall k :: 0 <= k < |UNTRUSTED_COMMANDS| ==> UNTRUSTED_COMMANDS[k][0] != 'd'
  {
    forall k | 0 <= k < |CURRENT_NAMES|
      ensures CURRENT_NAMES[k][0] != 'd'
    {
    }
    forall k | 0 <= k < |DEPRECATED_NAMES|
      ensures DEPRECATED_NAMES[k][0] != 'd'
    {
    }
  }

  datatype RpcType = Xml | Json | Unknown

  /** Where a dispatch sends the request: to the processor of its type,
      together with the connection's trust, or straight to the response
      callback with a canned fault. */
  datatype Handling =
    | Processed(kind: RpcType, request: string, trusted: bool)
    | Answered(response: string)

  class RpcManager {
    /** The trust flag of the connection being served; it starts out set. */
    var trusted: bool
    /** Whether the XML-RPC and JSON-RPC processors are usable. */
    const xmlValid: bool
    const jsonValid: bool

    constructor(xmlValid: bool, jsonValid: bool)
      ensures trusted
      ensures this.xmlValid == xmlValid && this.jsonValid == jsonValid
    {
      this.xmlValid := xmlValid;
      this.jsonValid := jsonValid;
      trusted := true;
    }

    /** Stores `enabled` as the trust flag and returns the previous one. */
    method SetTrustedConnection(enabled: bool) returns (previous: bool)
      modifies this
      ensures previous == old(trusted)
      ensures trusted == enabled
    {
      previous := trusted;
      trusted := enabled;
    }

    /** Serves one request. The flag takes the connection's trust first and
        keeps it afterwards: every branch returns or throws before the
        statement that would set it back. */
    method Dispatch(kind: RpcType, request: string, trustedConnection: bool)
      returns (r: Result<Handling>)
      modifies this
      ensures trusted == trustedConnection
      ensures r.Err? <==> kind == Unknown
      ensures r.Err? ==> r.error == InternalError(ERR_INVALID_TYPE)
      ensures kind == Xml && xmlValid ==>
                r == Ok(Processed(Xml, request, trustedConnection))
      ensures kind == Xml && !xmlValid ==> r == Ok(Answered(XML_FAULT))
      ensures kind == Json && jsonValid ==>
                r == Ok(Processed(Json, request, trustedConnection))
      ensures kind == Json && !jsonValid ==> r == Ok(Answered(JSON_FAULT))
    {
      trusted := trustedConnection;
      match kind {
        case Xml =>
          if xmlValid {
            return Ok(Processed(Xml, request, trustedConnection));
          } else {
            return Ok(Answered(XML_FAULT));
          }
        case Json =>
          if jsonValid {
            return Ok(Processed(Json, request, trustedConnection));
          } else {
            return Ok(Answered(JSON_FAULT));
          }
        case Unknown =>
          return Err(InternalError(ERR_INVALID_TYPE));
      }
    }
  }
}

=== FILE: window_http_queue.dfy ===
/** The HTTP queue status line (`display::WindowHttpQueue`).

    The window keeps one node per HTTP download it has been told about:
    the get it follows (none once the download has finished), a short name
    derived from the URL, and a time after which a finished node may be
    dropped.  Times are microseconds, as `cachedTime` counts them. */
module HttpQueueWindow {
  import opened Failures

  /** `timer::from_seconds(1)` in microseconds. */
  const US_PER_SECOND: int := 1_000_000
  /** Names are cut to this many characters. */
  const MAX_NAME: nat := 30
  /** `rfind` starts this many characters before the end of the URL. */
  const TAIL: nat := 10

  const ERR_BAD_STRING := "WindowHttpQueue::create_name(...) made a bad string"
  const ERR_UNKNOWN_GET := "WindowHttpQueue::receive_erase(...) tried to remove an object we don't have"

  /** Identity of a `core::CurlGet`. */
  type Handle = nat

  datatype Node = Node(http: Option<Handle>, name: string, timer: int)

  // ---------------------------------------------------------------------
  // Names

  /** `std::string::rfind(c, pos)`: the last index at or before `pos`
      holding `c`. */
  function RFind(s: string, c: char, pos: nat): (r: Option<nat>)
    decreases pos
    ensures r.Some? ==> r.value <= pos && r.value < |s| && s[r.value] == c
    ensures r.Some? ==> forall k :: r.value < k <= pos && k < |s| ==> s[k] != c
    ensures r.None? ==> forall k :: 0 <= k <= pos && k < |s| ==> s[k] != c
  {
    if pos < |s| && s[pos] == c then Some(pos)
    else if pos == 0 then None
    else RFind(s, c, pos - 1)
  }

  function HasTorrentSuffix(n: string): bool
    requires |n| >= 8
  {
    n[|n| - 8..] == ".torrent" || n[|n| - 8..] == ".TORRENT"
  }

  /** `create_name`: the URL from its last `/` near the end, without a
      leading `/` and without a `.torrent` suffix, cut to 30 characters.
      Only an empty URL gives an empty candidate, which is an error. */
  function CreateName(url: string): (r: Result<string>)
    ensures r.Err? <==> url == []
    ensures r.Err? ==> r.error == LogicError(ERR_BAD_STRING)
    ensures r.Ok? ==> 0 < |r.value| <= MAX_NAME
  {
    var p := RFind(url, '/', |url| - Min(TAIL, |url|));
    var n := if p.Some? then url[p.value..] else url;
    if n == [] then Err(LogicError(ERR_BAD_STRING))
    else
      Ok(Trimmed(if |n| > 2 && n[0] == '/' then n[1..] else n))
  }

  /** A name candidate without its `.torrent` suffix, cut to 30
      characters. */
  function Trimmed(n: string): (r: string)
    ensures |r| <= MAX_NAME
    ensures |n| > 0 ==> |r| > 0
  {
    var stem := if |n| > 9 && HasTorrentSuffix(n) then n[..|n| - 8] else n;
    if |stem| > MAX_NAME then stem[..MAX_NAME] else stem
  }

  function Min(a: nat, b: nat): nat { if a < b then a else b }

  /** The usual case: a URL ending in `/<stem>.torrent` or
      `/<stem>.TORRENT` is named after the stem, cut to 30 characters. */
  lemma {:induction false} TorrentFileName(prefix: string, stem: string, suffix: string)
    requires |stem| >= 2
    requires forall k :: 0 <= k < |stem| ==> stem[k] != '/'
    requires suffix == ".torrent" || suffix == ".TORRENT"
    ensures CreateName(prefix + "/" + stem + suffix) ==
      Ok(if |stem| > MAX_NAME then stem[..MAX_NAME] else stem)
  {
    var url := prefix + "/" + stem + suffix;
    var a := |prefix| + 1;
    SlashBeforeStem(prefix, stem, suffix);
    CreateNameRule(url, a);
    TrimmedSuffix(stem, suffix);
  }

  /** In `prefix + "/" + stem + suffix`, the `/` before the stem is the
      last one up to the place `rfind` starts from, and the text after it
      is the stem with its suffix. */
  lemma {:induction false} SlashBeforeStem(prefix: string, stem: string, suffix: string)
    requires |stem| >= 2 && |suffix| == 8
    requires forall k :: 0 <= k < |stem| ==> stem[k] != '/'
    ensures var url := prefix + "/" + stem + suffix;
      |url| - Min(TAIL, |url|) == |prefix| + |stem| - 1 &&
      url[|prefix|] == '/' &&
      (forall k :: |prefix| < k <= |prefix| + |stem| - 1 ==> url[k] != '/') &&
      url[|prefix| + 1..] == stem + suffix
  {
    var url := prefix + "/" + stem + suffix;
    assert url == (prefix + "/") + (stem + suffix);
    assert url[|prefix|] == '/';
    forall k | |prefix| < k <= |prefix| + |stem| - 1
      ensures url[k] != '/'
    {
      assert url[k] == stem[k - |prefix| - 1];
    }
  }

  /** Trimmed drops either suffix from a stem of two or more characters. */
  lemma {:induction false} TrimmedSuffix(stem: string, suffix: string)
    requires |stem| >= 2
    requires suffix == ".torrent" || suffix == ".TORRENT"
    ensures Trimmed(stem + suffix) == if |stem| > MAX_NAME then stem[..MAX_NAME] else stem
  {
    var n := stem + suffix;
    assert n[|n| - 8..] == suffix;
    assert n[..|n| - 8] == stem;
  }

  /** The general rule: the name starts at `a`, one past the last `/` at
      or before the place `rfind` starts from (or at 0 when there is none
      there), and runs to the end of the URL, less a `.torrent` suffix, cut
      to 30 characters (Trimmed). */
  lemma {:induction false} CreateNameRule(url: string, a: nat)
    requires 3 <= |url|
    requires a <= |url| - Min(TAIL, |url|) + 1
    requires a == 0 || url[a - 1] == '/'
    requires forall k :: a <= k <= |url| - Min(TAIL, |url|) ==> url[k] != '/'
    ensures CreateName(url) == Ok(Trimmed(url[a..]))
  {
    var pos := |url| - Min(TAIL, |url|);
    var p := RFind(url, '/', pos);
    if a == 0 {
      assert p.None?;
    } else {
      assert p == Some(a - 1);
      assert url[a - 1..][1..] == url[a..];
    }
  }

  /** A URL of one or two characters is its own name. */
  lemma {:induction false} ShortUrlName(url: string)
    requires 0 < |url| <= 2
    ensures CreateName(url) == Ok(url)
  {
    var p := RFind(url, '/', 0);
    assert p.Some? ==> url[p.value..] == url;
  }

  /** A URL whose tail holds no `/` is named after itself. */
  lemma {:induction false} NameWithoutSlash(url: string)
    requires 0 < |url| <= 9 && forall k :: 0 <= k < |url| ==> url[k] != '/'
    ensures CreateName(url) == Ok(url)
  {
    var p := RFind(url, '/', |url| - Min(TAIL, |url|));
    assert p.None?;
  }

  // ---------------------------------------------------------------------
  // The node list

  /** A finished node whose timer has passed. */
  predicate Expired(n: Node, now: int) {
    n.http.None? && n.timer < now
  }

  /** The nodes `cleanup_list` keeps, in their order. */
  function Keep(ns: seq<Node>, now: int): (r: seq<Node>)
    ensures |r| <= |ns|
    ensures forall k :: 0 <= k < |r| ==> !Expired(r[k], now) && r[k] in ns
  {
    if ns == [] then []
    else
      var rest := Keep(ns[..|ns| - 1], now);
      if Expired(ns[|ns| - 1], now) then rest else rest + [ns[|ns| - 1]]
  }

  lemma {:induction false} KeepConcat(xs: seq<Node>, ys: seq<Node>, now: int)
    ensures Keep(xs + ys, now) == Keep(xs, now) + Keep(ys, now)
    decreases |ys|
  {
    if ys == [] {
      assert xs + ys == xs;
    } else {
      var n := |ys| - 1;
      assert (xs + ys)[..|xs + ys| - 1] == xs + ys[..n];
      KeepConcat(xs, ys[..n], now);
    }
  }

  /** Keeping one node more: it is kept unless it has expired. */
  lemma {:induction false} KeepStep(ns: seq<Node>, j: nat, now: int)
    requires j < |ns|
    ensures Keep(ns[..j + 1], now) == Keep(ns[..j], now) + (if Expired(ns[j], now) then [] else [ns[j]])
  {
    assert ns[..j + 1][..j] == ns[..j];
  }

  /** Nothing that has not expired is dropped. */
  lemma {:induction false} KeepLive(ns: seq<Node>, now: int)
    requires forall k :: 0 <= k < |ns| ==> !Expired(ns[k], now)
    ensures Keep(ns, now) == ns
    decreases |ns|
  {
    if ns != [] {
      var n := |ns| - 1;
      KeepLive(ns[..n], now);
      assert ns == ns[..n] + [ns[n]];
    }
  }

  /** A second cleanup at the same time changes nothing. */
  lemma {:induction false} KeepIdempotent(ns: seq<Node>, now: int)
    ensures Keep(Keep(ns, now), now) == Keep(ns, now)
  {
    KeepLive(Keep(ns, now), now);
  }

  /** Changing one node changes only that node's place in the kept list. */
  lemma {:induction false} KeepUpdate(ns: seq<Node>, k: nat, v: Node, now: int)
    requires k < |ns|
    ensures Keep(ns[k := v], now) ==
      Keep(ns[..k], now) + (if Expired(v, now) then [] else [v]) + Keep(ns[k + 1..], now)
  {
    var ms := ns[k := v];
    assert ms == ns[..k] + [v] + ns[k + 1..];
    KeepConcat(ns[..k] + [v], ns[k + 1..], now);
    KeepConcat(ns[..k], [v], now);
    assert [v][..0] == [];
  }

  /** The first node following `h`, as `std::find_if` finds it. */
  function FindHttp(ns: seq<Node>, h: Handle): (r: Option<nat>)
    ensures r.Some? ==> r.value < |ns| && ns[r.value].http == Some(h)
    ensures r.Some? ==> forall k :: 0 <= k < r.value ==> ns[k].http != Some(h)
    ensures r.None? ==> forall k :: 0 <= k < |ns| ==> ns[k].http != Some(h)
  {
    if ns == [] then None
    else if ns[0].http == Some(h) then Some(0)
    else
      var r := FindHttp(ns[1..], h);
      if r.Some? then Some(r.value + 1) else None
  }

  /** A get that finished at `now` keeps its node until a cleanup after
      `now` plus one second. */
  lemma {:induction false} FinishedNodeLingers(ns: seq<Node>, k: nat, now: int, later: int)
    requires k < |ns| && ns[k].http.Some?
    ensures var done := ns[k].(http := None, timer := now + US_PER_SECOND);
      Keep(ns[k := done], later) ==
        Keep(ns[..k], later) + (if later <= now + US_PER_SECOND then [done] else []) +
        Keep(ns[k + 1..], later)
  {
    KeepUpdate(ns, k, ns[k].(http := None, timer := now + US_PER_SECOND), later);
  }

  class Window {
    /** `m_container`. */
    var nodes: seq<Node>
    /** `is_active()`. */
    var active: bool
    /** `mark_dirty()` was called since the last redraw. */
    var dirty: bool
    /** Times `m_slotAdjust` asked for a new layout. */
    var adjustRequests: nat

    /** The window starts inactive with no nodes. */
    constructor ()
      ensures nodes == [] && !active && !dirty && adjustRequests == 0
    {
      nodes := [];
      active := false;
      dirty := false;
      adjustRequests := 0;
    }

    /** `cleanup_list`: drop the finished nodes whose timer is before
        `now`. */
    method CleanupList(now: int)
      modifies this
      ensures nodes == Keep(old(nodes), now)
      ensures active == old(active) && dirty == old(dirty) && adjustRequests == old(adjustRequests)
    {
      ghost var src := nodes;
      var i := 0;
      ghost var j := 0;
      while i < |nodes|
        invariant 0 <= i <= |nodes| && 0 <= j <= |src|
        invariant nodes[..i] == Keep(src[..j], now)
        invariant nodes[i..] == src[j..]
        invariant active == old(active) && dirty == old(dirty) && adjustRequests == old(adjustRequests)
        decreases |nodes| - i
      {
        KeepStep(src, j, now);
        assert nodes[i] == src[j] && nodes[i + 1..] == src[j + 1..];
        if nodes[i].http.None? && nodes[i].timer < now {
          ghost var rest := nodes[i + 1..];
          nodes := nodes[..i] + nodes[i + 1..];
          assert nodes[i..] == rest;
        } else {
          assert nodes[..i + 1] == nodes[..i] + [nodes[i]];
          i := i + 1;
        }
        j := j + 1;
      }
      assert src[..j] == src;
      assert nodes[..i] == nodes;
    }

    /** `receive_insert`: append a node for `h` named after `url`, and
        activate the window (asking for a layout) if it was not active.
        A name that cannot be made leaves everything unchanged. */
    method ReceiveInsert(h: Handle, url: string) returns (outcome: Outcome)
      modifies this
      ensures outcome.Fail? <==> CreateName(url).Err?
      ensures outcome.Fail? ==>
        (outcome.error == CreateName(url).error &&
         nodes == old(nodes) && active == old(active) && dirty == old(dirty) &&
         adjustRequests == old(adjustRequests))
      ensures outcome.Pass? ==>
        nodes == old(nodes) + [Node(Some(h), CreateName(url).value, 0)] &&
        active && dirty &&
        adjustRequests == old(adjustRequests) + (if old(active) then 0 else 1)
    {
      var name := CreateName(url);
      if name.Err? {
        return Fail(name.error);
      }
      nodes := nodes + [Node(Some(h), name.value, 0)];
      if !active {
        active := true;
        adjustRequests := adjustRequests + 1;
      }
      dirty := true;
      outcome := Pass;
    }

    /** `receive_erase`: the node following `h` is kept, marked finished,
        with its timer one second after `now`; an unknown get is an
        error. */
    method ReceiveErase(h: Handle, now: int) returns (outcome: Outcome)
      modifies this
      ensures outcome.Fail? <==> FindHttp(old(nodes), h).None?
      ensures outcome.Fail? ==>
        (outcome.error == LogicError(ERR_UNKNOWN_GET) && nodes == old(nodes) && dirty == old(dirty))
      ensures outcome.Pass? ==>
        var k := FindHttp(old(nodes), h).value;
        nodes == old(nodes)[k := old(nodes)[k].(http := None, timer := now + US_PER_SECOND)] &&
        dirty
      ensures active == old(active) && adjustRequests == old(adjustRequests)
    {
      var k := FindHttp(nodes, h);
      if k.None? {
        return Fail(LogicError(ERR_UNKNOWN_GET));
      }
      nodes := nodes[k.value := nodes[k.value].(http := None, timer := now + US_PER_SECOND)];
      dirty := true;
      outcome := Pass;
    }
  }
}
